=== FILE: README.md ===
# ai-sub core in Dafny

A model of the core of `ai_sub`. The service watches AI vendors' release feeds (releasebot.io), RSS blogs and sitemap-indexed sites. It drops what it has already seen and asks an LLM classifier for a relevance and importance verdict. It then pushes the new records to Telegram and Feishu, and sends a daily digest per record kind. A weekly job purges old rows.

The model covers six groups, one Dafny module or more each:

- **ReleaseBot decoder** (`ReleaseBot`, `Json`): the SvelteKit `__data.json` decoder, its `_resolve`, `_parse_sveltekit` and `_build_item`.
- **Stores** (`Store`): the two SQLite dedup stores, as maps from source id to row.
- **Scheduler and pipelines** (`Pipeline`, `Schedule`, `Config`): the fetch cycles, digests and cleanup as state transitions over the stores, and `create_scheduler`'s job list.
- **Verdict merging** (`Filter`, `Models`): how the classifier's answer, or its failure, becomes a filtered record.
- **Digests and serialisers** (`Digest`, `Telegram`, `Feishu`, `Notifier`, `Topics`): the digest builders, the Telegram HTML formatter and splitter, the Feishu cards, the notification fan-out, and the forum-topic cache.
- **URL, slug, sitemap and blog helpers** (`Url`, `Slug`, `Sitemap`, `Feeds`): URL normalisation, source ids, sitemap selection, and OPML/RSS entry mapping.

`Util` and `Sorting` hold the generic pieces:
- `Option`/`Result`;
- string join/split;
- ASCII case mapping;
- number rendering;
- filtering (`Keep`);
- an insertion sort with stability lemmas.

The outside world comes in as parameters.
- **Classifier:** its answer (`Filter.Reply`), given per item by an oracle.
- **Notification fan-out:** whether it returned, also an oracle (`o.returned`). `notify_all` and `notify_blog` catch every channel failure (Notifier.FailuresAreSwallowed), so in practice the row stays unmarked only when `mark_notified` itself fails on a store error. The oracle covers both.
- **Clock:** one `now` instant per call.
- **Fetched data:** the records, the parsed YAML/XML/feeds and the HTTP answers are all arguments.
- **MD5, `urlparse`/`urlunparse` and date parsing:** functions passed in.

## Model

| member | source | states |
|---|---|---|
| Models.ImportanceFromValue | src/ai_sub/models.py:9-12 | `Importance(text)` yields only a member whose value is the text |
| Models.ImportanceValueRoundTrip | src/ai_sub/models.py:9-12 | every importance value parses back to its member, and no other text parses to it |
| Models.ImportanceOrderInjective | src/ai_sub/models.py:15 | IMPORTANCE_ORDER gives the three levels three distinct ranks below 3 |
| Models.TextOrderDiffersFromRank | src/ai_sub/store_release.py:96-100 | the store's ORDER BY on the importance text sorts high, low, medium, which is not the rank order (medium outranks low) |
| Models.FilteredReleaseDefaults | src/ai_sub/models.py:30-43 | a filtered release built from an item copies the item's fields and takes relevant, medium, "Other" and empty translations |
| Models.FilteredBlogDefaults | src/ai_sub/models.py:59-73 | a filtered article built from an article copies its fields, including notify_as, and takes relevant, medium, empty category and translations |
| Config.AllVendors | src/ai_sub/config.py:58-60 | the vendor list is the t0, t1 and t2 lists in that order, and has exactly their members |
| Config.VendorTier | src/ai_sub/config.py:62-67 | t0 iff listed in t0; t1 iff listed in t1 but not t0; t2 for everything else, listed or not |
| Config.TierPrecedence | src/ai_sub/config.py:62-67 | a vendor in t0 is t0 whatever else lists it; an unlisted vendor is t2 |
| Config.DefaultValues | src/ai_sub/config.py:4-56 | the declared intervals, digest hours, per-source limits and tier lists, e.g. anthropic is t0, cursor t1, vercel t2 |
| Store.Save | src/ai_sub/store_release.py:55-75 | INSERT OR REPLACE: the id gains a fresh row with both lifecycle stamps cleared; no other row changes |
| Store.MarkNotified | src/ai_sub/store_release.py:78-87 | stamps notified_at on the one row, changes nothing when the id has no row |
| Store.MarkDigested | src/ai_sub/store_release.py:107-119 | stamps digested_at on exactly the listed ids that have rows; an empty list changes nothing |
| Store.GetUndigested | src/ai_sub/store_release.py:90-104 | returns exactly the undigested relevant rows fetched on or after the window's opening day (the text comparison), each once, ordered by importance text then newest first |
| Store.CleanupOld | src/ai_sub/store_release.py:122-132 | keeps exactly the rows whose day is not before the cutoff's day (the text comparison), unchanged, and reports how many rows went |
| Store.ResaveResetsLifecycle | src/ai_sub/store_release.py:55-75 | re-saving a notified and digested row keeps it seen but clears both stamps, without growing the table |
| Store.MarkNotifiedIdempotent | src/ai_sub/store_release.py:78-87 | marking twice at the same instant equals marking once |
| Store.MarkDigestedRemovesFromDigest | src/ai_sub/store_release.py:107-119 | after the stamp no stamped row is undigested; unlisted rows keep their status |
| Store.CleanupBoundary | src/ai_sub/store_release.py:122-132 | every row from the cutoff's day survives; a row from the last second of the previous day is deleted and counted |
| Store.SecondBeforeCutoff | src/ai_sub/store_release.py:126 | a row fetched one second before the cutoff instant is purged exactly when the cutoff falls at midnight UTC |
| Store.SaveRelease | src/ai_sub/store_release.py:55-75 | the new row holds the fetch instant, no lifecycle stamps, and reads back as the very filtered release saved; other rows are untouched |
| Store.SaveBlogArticle | src/ai_sub/store_blog.py:56-77 | as for releases: the new row reads back as the filtered article, with blog name, category, AI category and notify_as |
| Store.SaveMakesSeen | src/ai_sub/store_release.py:44-75 | after a save the id is seen (`is_seen`), and whether any other id is seen does not change |
| Filter.VerdictImportance | src/ai_sub/filter_release.py:88 | a missing importance is medium; a present one yields only the member whose value it is; anything else fails |
| Filter.VerdictRelevant | src/ai_sub/filter_release.py:83-84 | a missing key gives the default; a present value counts by Python truthiness |
| Filter.ClassifyRelease | src/ai_sub/filter_release.py:41-99 | item fields are copied; no key gives the defaults; a failure gives medium with the original text; an irrelevant verdict gives the defaults marked irrelevant |
| Filter.ClassifyBlog | src/ai_sub/filter_blog.py:50-105 | article fields are copied; no key or a failure gives an irrelevant article; an irrelevant verdict gives the defaults marked irrelevant; the relevant path is stated by Filter.BlogAnswerApplied |
| Filter.ReleaseRelevantIff | src/ai_sub/filter_release.py:54-97 | a release is kept exactly unless a key is set and the answer's relevant value is falsy |
| Filter.ReleaseAnswerApplied | src/ai_sub/filter_release.py:83-91 | a relevant answer with a valid importance sets the importance, and each text field falls back to the original when missing |
| Filter.BlogAnswerApplied | src/ai_sub/filter_blog.py:92-100 | a relevant answer with a valid importance sets relevance and importance; the AI category comes from the answer or is empty, the Chinese title and summary come from the answer or default to the article's own |
| Filter.ReleaseBadImportanceFailsOpen | src/ai_sub/filter_release.py:88-97 | an unknown importance string ends exactly like a failed call |
| Filter.BlogRelevantIff | src/ai_sub/filter_blog.py:64-103 | an article is relevant exactly when a key is set, the call succeeded and its relevant value is truthy |
| Filter.FailOpenFailClosed | src/ai_sub/filter_blog.py:101-103 | on a failed call a release survives as medium while an article is dropped; without a key likewise |
| Filter.MissingRelevantDefaults | src/ai_sub/filter_blog.py:92 | a missing relevant key means relevant for releases and irrelevant for articles |
| Digest.Rank | src/ai_sub/digest_release.py:31-33 | the sort key is below 3 and is IMPORTANCE_ORDER of the parsed importance |
| Digest.Emoji | src/ai_sub/digest_release.py:36 | an importance text other than high and low shows the check mark |
| Digest.GroupName | src/ai_sub/digest_release.py:34 | a blog header keeps the name; a vendor header has the name's length |
| Digest.TelegramDigest | src/ai_sub/digest_release.py:19-43 | no entries give the empty text; an unknown importance raises; otherwise the lines joined by newlines |
| Digest.FeishuDigest | src/ai_sub/digest_release.py:46-82 | no entries give no elements; an unknown importance raises; otherwise three elements per group and the count footer last |
| Digest.GroupsAscending | src/ai_sub/digest_release.py:23-30 | the groups are the distinct group keys, each once, in strictly ascending order |
| Digest.EachEntryOnce | src/ai_sub/digest_release.py:23-39 | the items emitted across all groups are a permutation of the entries |
| Digest.GroupIsBuckets | src/ai_sub/digest_release.py:30-33 | within a group, high items come first, then medium, then low, each in input order |
| Digest.BucketStable | src/ai_sub/digest_release.py:31-33 | sorting by rank keeps the input order among items of equal rank |
| Digest.TelegramShape | src/ai_sub/digest_release.py:28-42 | the title and a blank line, then per group the header, one line per item and a blank, then the footer |
| Digest.FooterCounts | src/ai_sub/digest_release.py:42 | the footer's number reads back as the entry count |
| Digest.ItemLineShows | src/ai_sub/digest_release.py:35-39 | an item line is the emoji, the escaped link and the escaped title; the emoji matches the level, a missing level shows as medium |
| Digest.HeaderCase | src/ai_sub/digest_blog.py:34 | blog headers keep the name's case; release headers upper-case each character |
| Telegram.Escape | src/ai_sub/notifier/telegram.py:68 | escaped text holds no tag or quote character and is no shorter than the input |
| Telegram.UnescapeEscape | src/ai_sub/notifier/telegram.py:68 | escaping loses nothing: reading the entities back gives the original text |
| Telegram.EscapePlain | src/ai_sub/notifier/telegram.py:68 | text without special characters is left as it is |
| Telegram.EscapeKeepsNewlines | src/ai_sub/notifier/telegram.py:68 | escaping neither adds nor removes a line break |
| Telegram.PackLines | src/ai_sub/notifier/telegram.py:32-49 | the groups flatten back to the lines; each group is one line or fits the limit; no group could have taken the next group's first line |
| Telegram.PackedBodies | src/ai_sub/notifier/telegram.py:32-49 | the chunk bodies join back to the text, and each fits the limit or is a single line |
| Telegram.Paginate | src/ai_sub/notifier/telegram.py:51-54 | with more than one chunk each gets its "(i/total)" marker; a single chunk is untouched |
| Telegram.UnpaginatePaginate | src/ai_sub/notifier/telegram.py:51-54 | cutting the markers off gives the chunk bodies back |
| Telegram.SplitHtmlMessage | src/ai_sub/notifier/telegram.py:24-56 | as written: a short text is one chunk; the marked chunks' bodies join back to the text and fit the limit unless single lines |
| Telegram.MarkerOverflows | src/ai_sub/notifier/telegram.py:29-54 | as written, a limit-length line followed by one more line gives a first chunk 7 characters over the limit |
| Telegram.SplitHtmlMessageFitted | src/ai_sub/notifier/telegram.py:24-56 | with room kept for the marker, every chunk including its marker fits the limit unless its body is a single line; bodies join back to the text |
| Telegram.ReleaseLines | src/ai_sub/notifier/telegram.py:66-84 | the seven lines: label, bold escaped title (translation first), italic meta, blank, escaped summary (translation first), blank, the link to the url |
| Telegram.ReleaseMeta | src/ai_sub/notifier/telegram.py:71-73 | escaped "vendor · product", followed by " · version" exactly when the version is truthy |
| Telegram.LinkReadsBack | src/ai_sub/notifier/telegram.py:82 | the link's href unescapes to the record's url |
| Telegram.CategoryTag | src/ai_sub/notifier/telegram.py:127 | an escaped "[category] " prefix exactly when the AI category is non-empty |
| Telegram.BlogLines | src/ai_sub/notifier/telegram.py:122-139 | the seven lines FormatBlogArticle joins: label, bold category tag and escaped title (translation first), italic blog name, blank, escaped summary (translation first), blank, the link to the url |
| Telegram.BlogMessageReadsBack | src/ai_sub/notifier/telegram.py:122-139 | with single-line fields the article message splits back into its seven lines, and the blog name, summary and link url unescape to the article's own |
| Telegram.TopicSource | src/ai_sub/notifier/telegram.py:144 | "blog" and "release" are kept; any other notify_as routes to the blog topics |
| Telegram.ReleaseMessageReadsBack | src/ai_sub/notifier/telegram.py:66-84 | FormatRelease, with single-line fields, splits back into its seven lines, and the title line unescapes to the shown title |
| Telegram.SendRaw | src/ai_sub/notifier/telegram.py:93-119 | as written: posts at least one chunk of the as-written split to the chat and thread; every post before the last got a 2xx; it returns exactly when the last did, and then the chunks rebuild the text |
| Telegram.PostChunks | src/ai_sub/notifier/telegram.py:102-119 | posts the chunks in order, stopping at the first non-2xx answer; delivered exactly when every chunk was posted and accepted |
| Telegram.SendRawFitted | src/ai_sub/notifier/telegram.py:93-119 | the sender over the corrected splitter: when it returns, every posted chunk including its marker fits the limit unless a single line, and the bodies rebuild the text |
| Feishu.ReleaseMeta | src/ai_sub/notifier/feishu.py:38-40 | "vendor · product", plus " · version" exactly when the version is truthy |
| Feishu.BuildCard | src/ai_sub/notifier/feishu.py:30-73 | the header carries the title (translation first) and the level's colour; four elements: the bold label then the italic meta, a rule, the summary (translation first), and a button to the record's url |
| Feishu.CategoryTag | src/ai_sub/notifier/feishu.py:115 | "[category] " exactly when the AI category is non-empty |
| Feishu.BuildBlogCard | src/ai_sub/notifier/feishu.py:110-151 | the same four-element layout; after the label come the category tag and the italic blog name |
| Feishu.BlogWebhook | src/ai_sub/notifier/feishu.py:154-159 | articles routed as releases go to the release webhook, all others to the blog webhook |
| Feishu.PostTarget | src/ai_sub/notifier/feishu.py:101 | a non-empty explicit webhook wins; otherwise the release webhook |
| Feishu.PostWebhook | src/ai_sub/notifier/feishu.py:100-107 | succeeds exactly when the answer's code is 0, and then names the url posted to |
| Feishu.ColorAndLabelDistinguish | src/ai_sub/notifier/feishu.py:18-29 | colour and label each tell the three levels apart |
| Feishu.MetaVersionIff | src/ai_sub/notifier/feishu.py:38-40 | the meta carries the version exactly when it is truthy; an empty version reads like none |
| Feishu.BlogCardTextFallbacks | src/ai_sub/notifier/feishu.py:112-115 | the blog card shows translations when present; a bracketed category follows the label exactly when the AI category is non-empty, and the button links the article's url |
| Feishu.CardTextFallbacks | src/ai_sub/notifier/feishu.py:35-63 | the card shows the translations when present and the originals otherwise, and links to the record's url |
| Feishu.BlogWebhookRouting | src/ai_sub/notifier/feishu.py:154-159 | an accepted blog post reaches the release webhook only when routed as a release; an empty blog webhook falls back to the release one |
| Feishu.AcceptedExamples | src/ai_sub/notifier/feishu.py:104 | illustration on fixed answers: code 0 and false are success; 19001, "0", a missing code, a non-object and no body are errors |
| Topics.TopicKeys | src/ai_sub/notifier/telegram_topics.py:20-28 | the keys of TOPIC_DEFS in declaration order |
| Topics.Load | src/ai_sub/notifier/telegram_topics.py:37-41 | no file gives an empty map, a saved file its map, an unreadable file an error |
| Topics.TopicKey | src/ai_sub/notifier/telegram_topics.py:101 | the key is the source, an underscore and the importance, readable back part by part |
| Topics.Missing | src/ai_sub/notifier/telegram_topics.py:77 | exactly the table keys absent from the saved map |
| Topics.CreateAll | src/ai_sub/notifier/telegram_topics.py:85-87 | succeeds exactly when every creation does; then each key maps to its created id and other saved entries stay |
| Topics.EnsureTopics | src/ai_sub/notifier/telegram_topics.py:68-91 | without chat id or token nothing changes; with them an unreadable file raises |
| Topics.GetThreadId | src/ai_sub/notifier/telegram_topics.py:94-109 | a non-empty cache is used as is; an empty cache reloads the file, which raises only when unreadable; the answer is the key's thread when present |
| Topics.TopicTable | src/ai_sub/notifier/telegram_topics.py:20-28 | seven distinct keys, no low topic for blogs, and a digest topic for each source |
| Topics.EnsureTopicsMerges | src/ai_sub/notifier/telegram_topics.py:68-91 | afterwards every topic key is cached, saved entries are kept, only missing keys are created, and the file is written only when something was created |
| Topics.EnsuredLookupsHit | src/ai_sub/notifier/telegram_topics.py:94-109 | after a successful ensure every topic lookup is answered from the cache, whatever the file holds |
| Topics.ReloadOnlyWhenEmpty | src/ai_sub/notifier/telegram_topics.py:101-106 | a non-empty cache lacking the key answers none even when the file has it; an empty cache reloads and finds it |
| Notifier.TelegramTask | src/ai_sub/notifier/telegram.py:87-90 | at most one post, of the given text; no post exactly when the topic lookup raises |
| Notifier.FeishuTask | src/ai_sub/notifier/feishu.py:78-80 | one post of the card to the webhook, logged as failed exactly when not accepted |
| Notifier.NotifyAll | src/ai_sub/notifier/__init__.py:12-24 | logged failures never exceed the attempts plus the topic-lookup failure |
| Notifier.NotifyBlog | src/ai_sub/notifier/__init__.py:50-64 | likewise for articles |
| Notifier.NotifyDigest | src/ai_sub/notifier/__init__.py:27-89 | raises exactly when Telegram is on and the topic lookup fails; otherwise logged failures never exceed the attempts |
| Notifier.NotifyAllChannels | src/ai_sub/notifier/__init__.py:12-20 | Feishu is used iff its switch and release webhook are set (FeishuReleaseOn); Telegram only when its switch, token and chat id are (TelegramOn); with neither nothing happens |
| Notifier.NotifyBlogChannels | src/ai_sub/notifier/__init__.py:50-61 | the blog fan-out uses Feishu iff its switch and blog webhook are set (FeishuBlogOn), and posts release-routed articles to the release webhook |
| Notifier.ReleaseTelegramPost | src/ai_sub/notifier/__init__.py:12-20 | a Telegram post is attempted exactly when Telegram is on and the topic lookup succeeds; it comes first and carries FormatRelease under the release thread of the record's importance |
| Notifier.BlogTelegramPost | src/ai_sub/notifier/__init__.py:50-61 | the same for articles: FormatBlogArticle under the thread of the article's topic source |
| Notifier.FailuresAreSwallowed | src/ai_sub/notifier/__init__.py:21-24 | whatever the channels answer the same deliveries are attempted, and failures only show in the log count |
| Notifier.LoggedCountsFailures | src/ai_sub/notifier/__init__.py:12-24 | for releases and articles the logged count is exactly the deliveries refused plus one when the topic lookup raised |
| Notifier.RejectedAppend | src/ai_sub/notifier/__init__.py:21-24 | refusals of two task groups add up |
| Notifier.DigestRouting | src/ai_sub/notifier/__init__.py:27-89 | release digests use the release_digest thread, a blue card (DigestCard) and the release webhook; blog digests use blog_digest, purple and the blog webhook; the card holds the given elements |
| Notifier.DigestWithoutTelegramReturns | src/ai_sub/notifier/__init__.py:27-47 | with Telegram off a digest fan-out always returns and leaves the cache as it was |
| Url.Normalize | src/ai_sub/url.py:21-38 | unparseable or scheme-less or host-less urls come back unchanged; others are rebuilt with the cleaned query and no fragment |
| Url.CleanQueryKeeps | src/ai_sub/url.py:34-36 | CleanQuery: a noise key loses all its values; any other key keeps all its values in order |
| Url.CleanQuerySorted | src/ai_sub/url.py:36 | the cleaned query lists its keys in ascending order |
| Url.SameValuesSameQuery | src/ai_sub/url.py:34-36 | queries agreeing on every kept key's values clean to the same query |
| Url.NoiseAndFragmentIgnored | src/ai_sub/url.py:21-38 | urls differing only in noise parameters, parameter order and fragment normalise alike |
| Url.CleanQueryIdempotent | src/ai_sub/url.py:34-36 | cleaning a cleaned query changes nothing |
| Url.NormalizeIdempotent | src/ai_sub/url.py:21-38 | with a faithful parser, normalising twice equals normalising once |
| Json.PyInt | src/ai_sub/fetcher/releasebot.py:21 | `isinstance(v, int)` holds for ints and bools, and gives the int's value |
| ReleaseBot.CellIndex | src/ai_sub/fetcher/releasebot.py:21-22 | only an int offset can designate a cell, always an in-range one; an offset at or past the end designates none |
| ReleaseBot.BaseZeroSelectsOffset | src/ai_sub/fetcher/releasebot.py:21-22 | with base 0 both readings of the offset coincide: it designates cell `offset` exactly when in range |
| ReleaseBot.Resolve | src/ai_sub/fetcher/releasebot.py:17-30 | a resolved record has exactly the shape's keys |
| ReleaseBot.ResolveFields | src/ai_sub/fetcher/releasebot.py:17-30 | resolution succeeds exactly when every field does, and each key holds its field's value |
| ReleaseBot.ResolveFieldCases | src/ai_sub/fetcher/releasebot.py:22-29 | a field is null with no cell, the cell itself when not a shape, and the resolved sub-record when a shape |
| ReleaseBot.SharedCellResolvesIdentically | src/ai_sub/fetcher/releasebot.py:22-27 | two fields designating the same interned cell resolve to the same value |
| ReleaseBot.ResolveFuelMonotone | src/ai_sub/fetcher/releasebot.py:17-30 | the depth bound only cuts a decoding off: what resolves within a bound resolves the same with more |
| ReleaseBot.SelfReferenceNeverResolves | src/ai_sub/fetcher/releasebot.py:24-25 | a shape pointing at itself never resolves, however deep the bound |
| ReleaseBot.DictOrEmpty | src/ai_sub/fetcher/releasebot.py:109-111 | a falsy value reads as the empty dict, a dict as itself, anything else raises |
| ReleaseBot.AsStr | src/ai_sub/fetcher/releasebot.py:134-144 | only a JSON string is accepted as a string field |
| ReleaseBot.TruncateOr | src/ai_sub/fetcher/releasebot.py:140-143 | a falsy value takes the fallback; a string is cut to the prefix; anything else raises |
| ReleaseBot.BuildItem | src/ai_sub/fetcher/releasebot.py:103-144 | no item exactly when the id is None; otherwise an item of the vendor whose id is "vendor:id" |
| ReleaseBot.ItemFields | src/ai_sub/fetcher/releasebot.py:113-143 | the item is "vendor:id" of the vendor; the summary is at most 500 characters or is the title, and is never empty unless the title is; content, when present, is non-empty and at most 2000 characters |
| ReleaseBot.ItemFieldsFallbacks | src/ai_sub/fetcher/releasebot.py:113-119 | a falsy summary, product or source url falls back to the title, the vendor and the vendor page; a truthy source url is kept |
| ReleaseBot.ItemTitleVersion | src/ai_sub/fetcher/releasebot.py:113-128 | the title is the release name when truthy and the slug otherwise; the version is absent exactly when release_number is null |
| ReleaseBot.SummaryField | src/ai_sub/fetcher/releasebot.py:114-140 | a summary is at most 500 characters or the title; a falsy release summary gives the title |
| ReleaseBot.ContentField | src/ai_sub/fetcher/releasebot.py:132-143 | a truthy string formatted_content, cut to 2000 characters, is the content; otherwise a truthy string release_summary, cut likewise; neither truthy gives none; a truthy non-string raises; present content is non-empty |
| ReleaseBot.BuildItemFallbacks | src/ai_sub/fetcher/releasebot.py:113-143 | the title is the release name when truthy, else the slug; the summary falls back to the title, the product to the vendor, the url to the vendor page; the version is absent exactly when release_number is null |
| ReleaseBot.PyIndex | src/ai_sub/fetcher/releasebot.py:79 | Python indexing: negative positions count from the end, out of range raises |
| ReleaseBot.FindDataArray | src/ai_sub/fetcher/releasebot.py:58-68 | finds the first release node's data; none exactly when every node is a dict and none qualifies |
| ReleaseBot.CollectReleases | src/ai_sub/fetcher/releasebot.py:83-97 | at most one item per index, each of the vendor; its contents are stated by ReleaseBot.CollectReleasesInOrder |
| ReleaseBot.EntryItem | src/ai_sub/fetcher/releasebot.py:83-97 | one entry raises exactly when it is an int below -len; an item comes only from an in-range dict cell that resolves, and is the item built from that record |
| ReleaseBot.CollectReleasesInOrder | src/ai_sub/fetcher/releasebot.py:83-97 | the loop raises exactly when some entry raises; otherwise it yields the kept entries' items in entry order |
| ReleaseBot.ParseSvelteKit | src/ai_sub/fetcher/releasebot.py:52-100 | at most `limit` items, all of the vendor; its contents are stated by ReleaseBot.ParseKeepsEntries and ReleaseBot.ParseEmptyCases |
| ReleaseBot.ParseKeepsEntries | src/ai_sub/fetcher/releasebot.py:52-100 | when the release cell is a list, the parse yields exactly the kept items of its first `limit` entries, in order, and raises exactly when one of them raises |
| ReleaseBot.ReleasesFromData | src/ai_sub/fetcher/releasebot.py:74-100 | a null or too large releases index, or a cell that is not a list, gives no items; a non-int index or one below -len raises; otherwise at most `limit` items of the vendor |
| ReleaseBot.ReleasesFromDataEntries | src/ai_sub/fetcher/releasebot.py:79-97 | for a list cell: the items are exactly the kept items of the first `limit` entries, in order, and the call raises exactly when one entry does |
| ReleaseBot.ParseEmptyCases | src/ai_sub/fetcher/releasebot.py:58-81 | no release node, a null or too large releases index, or a release cell that is not a list gives no items |
| Slug.Collapse | src/ai_sub/fetcher/blog.py:54 | the result has only slug characters and single dashes and keeps a leading slug character |
| Slug.Slugify | src/ai_sub/fetcher/blog.py:53-54 | a slug is a prefix of the full slug of at most 40 characters, the whole of it when that fits; its letters and shape are stated by SlugShape and SlugKeepsAlnum |
| Slug.SourceId | src/ai_sub/fetcher/blog.py:57-60 | "blog:" + slug + ":" + at most 12 digest characters |
| Slug.SlugShape | src/ai_sub/fetcher/blog.py:53-54 | lower letters, digits and single dashes, never a leading dash, and a trailing dash only when cut |
| Slug.SlugKeepsAlnum | src/ai_sub/fetcher/blog.py:53-54 | the slug's letters and digits are a prefix of the lower-cased text's, and all of them when not cut |
| Slug.SlugifyFixpoint | src/ai_sub/fetcher/blog.py:53-54 | an uncut slug slugifies to itself |
| Slug.SlugifyNotIdempotentAtCut | src/ai_sub/fetcher/blog.py:53-54 | a cut landing right after a dash leaves a trailing dash that slugifying again removes |
| Slug.SourceIdParts | src/ai_sub/fetcher/blog.py:57-60 | the id splits at its colons into "blog", the slug and the digest prefix |
| Slug.SourceIdInjective | src/ai_sub/fetcher/blog.py:57-60 | two ids are equal exactly when slugs and digest prefixes are |
| Sitemap.FromItem | src/ai_sub/fetcher/sitemap.py:59-67 | an item converts exactly when it has a name and a sitemap url, which are carried over |
| Sitemap.FromItems | src/ai_sub/fetcher/sitemap.py:58-67 | all items convert, in order, or the load raises |
| Sitemap.LoadSitemapSources | src/ai_sub/fetcher/sitemap.py:48-70 | a missing file gives no sources, an empty document raises, no sitemaps key gives none, otherwise the items converted |
| Sitemap.Lastmod | src/ai_sub/fetcher/sitemap.py:154-157 | the lastmod text when present, else the publication date text, goes to the date parser; neither gives no date |
| Sitemap.Candidates | src/ai_sub/fetcher/sitemap.py:144-158 | one candidate per wanted entry |
| Sitemap.Select | src/ai_sub/fetcher/sitemap.py:160-162 | at most max_articles entries, a prefix of the candidates sorted newest first |
| Sitemap.StripTrailing | src/ai_sub/fetcher/sitemap.py:186 | `rstrip("/")`: a prefix without the trailing run of slashes |
| Sitemap.LastSegment | src/ai_sub/fetcher/sitemap.py:186 | the text after the last slash: a suffix without slashes, preceded by one or the whole text |
| Sitemap.TitleCase | src/ai_sub/fetcher/sitemap.py:186 | `str.title()`: a letter starting a run of letters becomes upper case, a letter inside a run lower case, each the same letter; other characters are kept |
| Sitemap.TitleFromPath | src/ai_sub/fetcher/sitemap.py:184-186 | the fallback title is the last path segment with dashes as spaces, up to case; it holds no dash or slash |
| Sitemap.TitleCaseAddsNoMark | src/ai_sub/fetcher/sitemap.py:186 | title casing introduces no character that is not a letter |
| Sitemap.PageArticle | src/ai_sub/fetcher/sitemap.py:174-198 | no article exactly when the page raised other than an HTTP error; otherwise the source's name, category and routing, a non-empty title when the path allows, content capped at 3000 |
| Sitemap.Articles | src/ai_sub/fetcher/sitemap.py:200-207 | exactly the per-page article of each candidate whose page did not raise, in candidate order, each stamped with the source |
| Sitemap.FetchSitemapArticles | src/ai_sub/fetcher/sitemap.py:120-209 | no document gives nothing; otherwise exactly the per-page articles of the selected candidates whose page did not raise, in order |
| Sitemap.SourceDefaults | src/ai_sub/fetcher/sitemap.py:38-45 | an item with only name and url takes every declared default |
| Sitemap.CandidateIff | src/ai_sub/fetcher/sitemap.py:145-158 | an entry becomes a candidate exactly when it has a loc and, with prefixes configured, its path starts with one |
| Sitemap.SelectionNewestFirst | src/ai_sub/fetcher/sitemap.py:160-162 | the selection is newest first, stable among equal dates, undated last, and drops only older entries |
| Sitemap.FetchedArticle | src/ai_sub/fetcher/sitemap.py:188-198 | the article carries the source's name, category and routing, the entry's url and date, a title taken from the page or else the path, and content that is non-empty and at most 3000 characters |
| Sitemap.FetchErrorFallback | src/ai_sub/fetcher/sitemap.py:180-186 | a page failing with an HTTP error still gives an article titled from its path, with no content |
| Sitemap.ScrapedPage | src/ai_sub/fetcher/sitemap.py:188-198 | with a scraped title the description is the summary and, capped, the content |
| Sitemap.TitleFromPathExample | src/ai_sub/fetcher/sitemap.py:186 | illustration on one input: "/news/ai-day/" gives "Ai Day" |
| Sitemap.TitleCaseCaseOnly | src/ai_sub/fetcher/sitemap.py:186 | title casing changes only case and is idempotent |
| Sitemap.SameNormalSameId | src/ai_sub/fetcher/sitemap.py:77-80 | pages whose urls normalise alike share a source id |
| Sitemap.PageSourceId | src/ai_sub/fetcher/sitemap.py:77-80 | a "blog:" id; a url the parser cannot split is hashed as given |
| Feeds.FeedOf | src/ai_sub/fetcher/blog.py:42-47 | a feed takes its category from the parent's title or text |
| Feeds.CategoryFeeds | src/ai_sub/fetcher/blog.py:38-47 | one feed per rss child with a url |
| Feeds.ParseOpml | src/ai_sub/fetcher/blog.py:30-50 | every listed feed has a url |
| Feeds.ParseOpmlIff | src/ai_sub/fetcher/blog.py:36-47 | a feed is listed exactly when an rss outline with a url sits under a category outline under body |
| Feeds.RemoveTags | src/ai_sub/fetcher/blog.py:93 | tag removal never lengthens the text or adds characters |
| Feeds.Trim | src/ai_sub/fetcher/blog.py:93 | `strip()` leaves no leading or trailing whitespace |
| Feeds.StripHtml | src/ai_sub/fetcher/blog.py:91-93 | stripping never lengthens the text |
| Feeds.RemoveTagsTagFree | src/ai_sub/fetcher/blog.py:93 | no tag survives removal |
| Feeds.TagFreeUnchanged | src/ai_sub/fetcher/blog.py:93 | tag-free text is left as it is |
| Feeds.RemoveTagsIdempotent | src/ai_sub/fetcher/blog.py:93 | removing tags twice equals once |
| Feeds.NoAngleUnchanged | src/ai_sub/fetcher/blog.py:91-93 | text without "<" is only trimmed |
| Feeds.StripHtmlExample | src/ai_sub/fetcher/blog.py:93 | illustration on one input: "<p>x</p>" gives "x" |
| Feeds.ExtractContent | src/ai_sub/fetcher/blog.py:82-88 | the first non-empty content value, else the summary or the title |
| Feeds.ParseDateText | src/ai_sub/fetcher/blog.py:64-78 | empty text is no date; the RFC 2822 reading wins over ISO 8601 |
| Feeds.ParseDate | src/ai_sub/fetcher/blog.py:63-79 | published first, updated only when published gives no date |
| Feeds.EntryId | src/ai_sub/fetcher/blog.py:117 | empty exactly when id, link and title all are |
| Feeds.EntryArticle | src/ai_sub/fetcher/blog.py:116-135 | no article exactly without an entry id; otherwise the feed's name and category, blog routing, link or feed page, the slug id, summary within 500 unless the title, the date from `_parse_date`, and as content the stripped extracted text cut at 3000, None when that is empty |
| Feeds.EntryArticles | src/ai_sub/fetcher/blog.py:116-137 | exactly the article of each entry that has an id, in entry order, stamped with the feed |
| Feeds.FetchSingleFeed | src/ai_sub/fetcher/blog.py:96-137 | a failed fetch gives nothing; otherwise exactly the articles of the entries with an id among the first `limit`, in order |
| Feeds.EntryFallbacks | src/ai_sub/fetcher/blog.py:117-134 | id falls back to link then title; summary to the title; empty content to none |
| Feeds.SameFeedIds | src/ai_sub/fetcher/blog.py:57-60 | two entries of one feed share an id exactly when their digest prefixes agree |
| Pipeline.TierAllowed | src/ai_sub/scheduler.py:42-46 | high always; medium iff t0 or t1; low iff t0; an unknown tier gets t2's set |
| Pipeline.ReleaseStep | src/ai_sub/scheduler.py:72-87 | one save, and a push and mark when relevant and allowed; the row is notified iff pushed and the fan-out returned |
| Pipeline.ReleaseLoopStore | src/ai_sub/scheduler.py:72-87 | ReleaseLoop: the store gains the items' ids and every other row stays as it was |
| Pipeline.ReleaseLoopPushed | src/ai_sub/scheduler.py:72-87 | the records handed to the notifier are the classified ones passing the guard, in item order |
| Pipeline.BlogStep | src/ai_sub/scheduler.py:122-135 | as for releases, pushing relevant high and medium articles |
| Pipeline.BlogLoopStore | src/ai_sub/scheduler.py:122-135 | BlogLoop: the store gains the articles' ids and every other row stays as it was |
| Pipeline.BlogLoopPushed | src/ai_sub/scheduler.py:122-135 | the records handed to the notifier are the classified articles that pass the guard, in order |
| Pipeline.ReleaseItemOf | src/ai_sub/scheduler.py:142-151 | an article routed as a release becomes an item with the blog name as vendor and product and no version |
| Pipeline.FetchAndNotify | src/ai_sub/scheduler.py:49-87 | the blog store is untouched; the release store gains the fetched ids and keeps every existing row |
| Pipeline.FetchAndNotifyBlogs | src/ai_sub/scheduler.py:106-163 | with blogs off nothing changes |
| Pipeline.FetchAndNotifySitemap | src/ai_sub/scheduler.py:166-239 | disabled or a raising fetch changes nothing; release routing leaves the blog side alone and vice versa |
| Pipeline.DigestJob | src/ai_sub/scheduler.py:90-103 | no rows, nothing; a digest that goes through stamps all the rows; it raises exactly when the topic lookup does |
| Pipeline.DailyDigest | src/ai_sub/scheduler.py:90-103 | raises exactly when a row is due and the topic lookup fails; otherwise no row in the window is left undigested and every other row is unchanged |
| Pipeline.DailyBlogDigest | src/ai_sub/scheduler.py:242-262 | with blogs off nothing; otherwise as the release digest over the blog store, rows outside the window unchanged |
| Pipeline.DigestClears | src/ai_sub/scheduler.py:90-103 | given the query's rows, a digest that returns leaves no undigested row in the window |
| Pipeline.WeeklyCleanup | src/ai_sub/scheduler.py:265-270 | a 30-day purge by day of releases, and of blogs only when blogs are on; surviving rows are unchanged and each count is the number of rows removed |
| Pipeline.ReleasePathKeeps | src/ai_sub/scheduler.py:64-87 | ReleasePath: the release store gains exactly the items' ids and never rewrites a stored row |
| Pipeline.BlogPathKeeps | src/ai_sub/scheduler.py:119-135 | BlogPath: likewise for blog articles |
| Pipeline.ReleaseLoopRow | src/ai_sub/scheduler.py:72-87 | with distinct ids each item's row holds its verdict and is notified iff pushed and the fan-out returned |
| Pipeline.BlogLoopRow | src/ai_sub/scheduler.py:122-135 | likewise for blog articles |
| Pipeline.ReleasePathPushes | src/ai_sub/scheduler.py:64-87 | every pushed record passed the guard and was not in the store before |
| Pipeline.BlogPathPushes | src/ai_sub/scheduler.py:119-135 | likewise for blog articles |
| Pipeline.FetchPushesByTier | src/ai_sub/scheduler.py:76-84 | every pushed release is relevant and at a level its vendor's tier allows; unlisted vendors push only high |
| Pipeline.TierGuard | src/ai_sub/scheduler.py:79-82 | the guard passes exactly for a relevant record whose level the vendor's tier allows; a vendor in neither t0 nor t1 passes only at high |
| Pipeline.BlogRouting | src/ai_sub/scheduler.py:114-163 | release-routed articles land in the release store, the others in the blog store; stored rows are untouched |
| Pipeline.BlogCycleStaysBlog | src/ai_sub/scheduler.py:114-135 | the blog store never gains a release-routed row |
| Pipeline.SitemapCycleStaysBlog | src/ai_sub/scheduler.py:180-239 | the same for a sitemap cycle whose pages carry their source's routing |
| Schedule.SitemapJobId | src/ai_sub/scheduler.py:322-327 | "sitemap_" followed by the lower-cased name with spaces as underscores |
| Schedule.SitemapInterval | src/ai_sub/scheduler.py:321 | the source's own interval unless it is 0, then the default |
| Schedule.SitemapJobs | src/ai_sub/scheduler.py:319-330 | one job per source, with the source's own interval or the default |
| Schedule.FetchJobs | src/ai_sub/scheduler.py:278-285 | the release fetch exactly when releases are on |
| Schedule.DigestJobs | src/ai_sub/scheduler.py:293-299 | the release digest exactly when releases are on or a sitemap routes as release |
| Schedule.BlogJobs | src/ai_sub/scheduler.py:302-316 | the blog fetch and blog digest exactly when blogs are on |
| Schedule.Jobs | src/ai_sub/scheduler.py:333-338 | the weekly cleanup is always registered, last |
| Schedule.CreateScheduler | src/ai_sub/scheduler.py:273-340 | raises exactly when sitemaps are on and the config load raises; otherwise ends with the cleanup |
| Schedule.SchedulerJobs | src/ai_sub/scheduler.py:273-340 | each fixed job is present exactly under its condition, the sitemap jobs are one per source, and the job count adds up |
| Schedule.JobsShape | src/ai_sub/scheduler.py:278-338 | the same for the job list built from known sources |
| Schedule.SitemapJobIdsCollide | src/ai_sub/scheduler.py:322-327 | "Tech Blog" and "tech_blog" get the same job id |
| Sorting.SortSorted | src/ai_sub/fetcher/sitemap.py:161 | sorting by a total preorder yields a sorted permutation |
| Sorting.SortStable | src/ai_sub/digest_release.py:31-33 | the sort is stable: items tied under the order keep their input order |
| Sorting.CollectInOrder | src/ai_sub/fetcher/blog.py:116-137 | a loop that appends each step's result and skips the empty ones yields exactly the results of the kept elements, in order |

## Left out

- The network, the LLM call, SQLite, the filesystem, logging and the process lifecycle (`main.py`) are not modelled. Their results are parameters: fetched records, the classifier's reply, whether a fan-out returned, HTTP status codes, topic-file contents, and one `now` instant per call.
- asyncio concurrency is sequentialised. `asyncio.gather` runs its tasks in list order, and a task's exception is dropped (the fetched lists are given). The semaphores are left out.
- `fetch_vendor` (the HTTP call) and `fetch_all_blogs` are left out. The latter parses the OPML, fetches every feed and concatenates the results. What they hand on is a parameter of the cycles.
- MD5, `urlparse`/`urlunparse`/`parse_qs`/`urlencode`, `feedparser`, the XML and YAML parsers, `datetime.fromisoformat`, `parsedate_to_datetime` and the `_extract_meta` regexes are oracles or pre-parsed inputs.
- Dates are integer instants: seconds since the Unix epoch, UTC. The stores compare the stored `isoformat()` text with SQLite's `datetime(...)` text. Store.NotBefore reads that comparison as a comparison of UTC calendar days, which holds for four-digit years and the `+00:00` offset the code writes. Both the digest window and the purge cutoff are therefore day-granular (Store.GetUndigested, Store.CleanupOld, Pipeline.WeeklyCleanup).
- Sitemap.NewerOrSame treats an undated entry as older than every dated one. In the source, an entry dated exactly `datetime.min` UTC ties with an undated one.
- Lower/upper casing, `str.title`, `str.isspace` and the slug's `[a-z0-9]` test are modelled on ASCII only. Unicode case mapping is not modelled.
- ReleaseBot.Resolve: Python's recursion limit is a `fuel` bound. Running out gives None, which `_parse_sveltekit`'s `except Exception` turns into a skipped release. Any finite bound stops earlier or later than CPython's limit.
- ReleaseBot.BuildItem: pydantic validation is reduced to "string fields must be JSON strings". Any other type raises, and the release is skipped.
- Feeds.ParseOpml: only outlines that are children of a category outline under `<body>` are read, as the XPath does. An rss outline placed directly under `<body>` is not a feed.
- Filter.ClassifyRelease: the reply's text fields are modelled as strings or absent. The source's models do not validate on assignment, so a non-string `category` or `title_zh` would be stored as given. A dict or list there would then make `save_release` raise when SQLite binds it. Neither path is modelled. The same holds for Filter.ClassifyBlog and its `ai_category`, `title_zh` and `summary_zh`.
- Json: JSON numbers are integers. A non-integral number (a float offset, say) is not modelled. `isinstance(x, int)` rejects it in the source.
- Telegram.SendRaw: the client-side timeout and the connection handling of `httpx` are not modelled.
- The Feishu card's fixed `config` block and `msg_type` are constants of the wire format and are not modelled.

Notes on how the code behaves:
- **`_resolve`.** It has no depth cap. It is only ever called with base 0, where reading an offset relative to the base and as an absolute index coincide (ReleaseBot.BaseZeroSelectsOffset). A runaway recursion skips the whole release rather than nulling a field.
- **Digests.** `notify_digest` looks up the Telegram thread outside the guarded task. An unreadable topics file with an empty cache therefore raises, and the rows stay undigested (Pipeline.DigestJob). Channel failures inside the tasks do not stop the marking.
- **Digest order.** Within a group, entries are ordered by IMPORTANCE_ORDER with a stable sort, not by the store's ORDER BY. That ORDER BY sorts the importance text, which puts low before medium (Models.TextOrderDiffersFromRank).
- **RSS routing.** RSS articles never set `notify_as`, so the RSS half of `fetch_and_notify_blogs` always routes them as blogs. Only sitemap sources can route articles as releases.

## Findings

| source | as written | input that shows it | evidently intended | confidence | as-written member | corrected member |
|---|---|---|---|---|---|---|
| src/ai_sub/notifier/telegram.py:24-56 | lines are packed up to the full 4096-character limit, and the "\n\n(i/n)" page marker is appended afterwards | a line of 4096 "a" followed by "\nb": the first chunk is the 4096 characters plus "\n\n(1/2)", 4103 characters | chunks that fit Telegram's limit including their page marker, as the docstring says | not executed | Telegram.MarkerOverflows | Telegram.SplitHtmlMessageFitted |

Telegram.SplitHtmlMessage models the splitter as written. Telegram.SplitHtmlMessageFitted packs the bodies within the limit minus the widest marker the text can need. Telegram.SendRaw is the sender as written, over the as-written splitter. Telegram.SendRawFitted is the same sender over the corrected splitter. A single line longer than the limit stays one oversized chunk in both, as in the source.

=== FILE: config.dfy ===
/** Service settings (src/ai_sub/config.py): the fields the core reads, their
    declared defaults, the vendor list and the vendor-to-tier lookup.
    Environment and `.env` loading is not modelled: a Settings value is given. */
module Config {
  import opened Util

  datatype Settings = Settings(
    openaiApiKey: string,
    telegramEnabled: bool,
    telegramBotToken: string,
    telegramChatId: string,
    feishuEnabled: bool,
    releaseEnabled: bool,
    releaseFetchIntervalMinutes: int,
    releaseDigestHourUtc: int,
    maxReleasesPerVendor: int,
    feishuReleaseWebhookUrl: string,
    vendorsT0: seq<string>,
    vendorsT1: seq<string>,
    vendorsT2: seq<string>,
    sitemapEnabled: bool,
    sitemapFetchIntervalMinutes: int,
    blogEnabled: bool,
    blogFetchIntervalMinutes: int,
    blogMaxArticlesPerFeed: int,
    blogDigestHourUtc: int,
    feishuBlogWebhookUrl: string)

  /** The values a Settings object has when nothing overrides them. */
  const Defaults: Settings := Settings(
    openaiApiKey := "",
    telegramEnabled := true,
    telegramBotToken := "",
    telegramChatId := "",
    feishuEnabled := true,
    releaseEnabled := true,
    releaseFetchIntervalMinutes := 30,
    releaseDigestHourUtc := 1,
    maxReleasesPerVendor := 1,
    feishuReleaseWebhookUrl := "",
    vendorsT0 := ["openai", "anthropic", "google"],
    vendorsT1 := ["xai", "meta", "deepseek", "qwen", "minimax", "zai", "volcengine", "cursor"],
    vendorsT2 := ["vercel"],
    sitemapEnabled := true,
    sitemapFetchIntervalMinutes := 120,
    blogEnabled := true,
    blogFetchIntervalMinutes := 60,
    blogMaxArticlesPerFeed := 1,
    blogDigestHourUtc := 2,
    feishuBlogWebhookUrl := "")

  /** `all_vendors`: the three tier lists concatenated in tier order. */
  function AllVendors(s: Settings): (r: seq<string>)
    ensures |r| == |s.vendorsT0| + |s.vendorsT1| + |s.vendorsT2|
    ensures r[..|s.vendorsT0|] == s.vendorsT0
    ensures r[|s.vendorsT0|..|s.vendorsT0| + |s.vendorsT1|] == s.vendorsT1
    ensures r[|s.vendorsT0| + |s.vendorsT1|..] == s.vendorsT2
    ensures forall v :: v in r <==> v in s.vendorsT0 || v in s.vendorsT1 || v in s.vendorsT2
  {
    s.vendorsT0 + s.vendorsT1 + s.vendorsT2
  }

  /** `vendor_tier`: the first tier list naming the vendor wins; a vendor in
      no list is "t2". */
  function VendorTier(s: Settings, vendor: string): (tier: string)
    ensures tier == "t0" <==> vendor in s.vendorsT0
    ensures tier == "t1" <==> vendor !in s.vendorsT0 && vendor in s.vendorsT1
    ensures tier == "t2" <==> vendor !in s.vendorsT0 && vendor !in s.vendorsT1
  {
    if vendor in s.vendorsT0 then "t0"
    else if vendor in s.vendorsT1 then "t1"
    else "t2"
  }

  /** A vendor listed in every tier is still t0, and one listed nowhere (and
      so not polled) is t2. */
  lemma TierPrecedence(s: Settings, vendor: string)
    ensures vendor in s.vendorsT0 ==> VendorTier(s, vendor) == "t0"
    ensures vendor !in AllVendors(s) ==> VendorTier(s, vendor) == "t2"
  {
  }

  /** The default intervals, digest hours and per-source limits. */
  lemma DefaultValues()
    ensures Defaults.releaseFetchIntervalMinutes == 30
    ensures Defaults.blogFetchIntervalMinutes == 60
    ensures Defaults.sitemapFetchIntervalMinutes == 120
    ensures Defaults.releaseDigestHourUtc == 1 && Defaults.blogDigestHourUtc == 2
    ensures Defaults.maxReleasesPerVendor == 1 && Defaults.blogMaxArticlesPerFeed == 1
    ensures |AllVendors(Defaults)| == 12
    ensures VendorTier(Defaults, "anthropic") == "t0"
    ensures VendorTier(Defaults, "cursor") == "t1"
    ensures VendorTier(Defaults, "vercel") == "t2"
  {
  }
}

=== FILE: digest.dfy ===
/** The daily digests (src/ai_sub/digest_release.py and
    src/ai_sub/digest_blog.py). Both files build the same layout: entries
    grouped by one column (vendor or blog name), groups in ascending key
    order, each group stable-sorted by IMPORTANCE_ORDER, and a footer with
    the number of entries. They differ only in the title, the footer word
    and whether the group header is upper-cased, so one builder is defined
    here and parameterised by the digest kind. */
module Digest {
  import opened Util
  import opened Models
  import opened Sorting
  import Telegram
  import Feishu

  /** Which of the two digest files is meant. */
  datatype Kind = Releases | Blogs

  /** The fields of one stored row that a digest reads: the grouping column,
      the importance text (None when the key is absent), both titles and
      the url. */
  datatype Entry = Entry(group: string, importance: Option<string>, titleZh: string, title: string, url: string)

  /** `x.get("importance", "medium")`. */
  function ImportanceText(e: Entry): string
  {
    if e.importance.Some? then e.importance.value else "medium"
  }

  /** `Importance(...)` succeeds on the entry's importance text. */
  predicate Valid(e: Entry)
  {
    ImportanceFromValue(ImportanceText(e)).Some?
  }

  predicate AllValid(entries: seq<Entry>)
  {
    forall i :: 0 <= i < |entries| ==> Valid(entries[i])
  }

  /** The sort key. IMPORTANCE_ORDER has every member, so its `.get`
      default never applies; an invalid text has raised before a key is
      used, and its rank here is irrelevant. */
  function Rank(e: Entry): (k: nat)
    ensures k < 3
    ensures Valid(e) ==> k == ImportanceOrder(ImportanceFromValue(ImportanceText(e)).value)
  {
    match ImportanceFromValue(ImportanceText(e))
    case Some(i) => ImportanceOrder(i)
    case None => 1
  }

  predicate RankLe(a: Entry, b: Entry)
  {
    Rank(a) <= Rank(b)
  }

  function RankIs(k: nat): Entry -> bool
  {
    (e: Entry) => Rank(e) == k
  }

  function InGroup(g: string): Entry -> bool
  {
    (e: Entry) => e.group == g
  }

  function InGroups(gs: seq<string>): Entry -> bool
  {
    (e: Entry) => e.group in gs
  }

  function GroupKeys(entries: seq<Entry>): (keys: seq<string>)
    ensures |keys| == |entries| && forall i :: 0 <= i < |entries| ==> keys[i] == entries[i].group
  {
    seq(|entries|, i requires 0 <= i < |entries| => entries[i].group)
  }

  /** `sorted(by_group.items())`: the dict's keys (first-occurrence order)
      sorted as strings. */
  function Groups(entries: seq<Entry>): seq<string>
  {
    Sort(Distinct(GroupKeys(entries)), StrLe)
  }

  /** `items.sort(key=...)` for the group `g`. */
  function GroupItems(entries: seq<Entry>, g: string): seq<Entry>
  {
    Sort(Keep(entries, InGroup(g)), RankLe)
  }

  /** All items in emission order: the groups one after another. */
  function Emitted(entries: seq<Entry>, gs: seq<string>): seq<Entry>
  {
    if |gs| == 0 then [] else GroupItems(entries, gs[0]) + Emitted(entries, gs[1..])
  }

  // ----------------------------------------------------------------- text

  /** IMPORTANCE_EMOJI, with the check mark as the `.get` default. */
  function Emoji(text: string): (r: string)
    ensures text != "high" && text != "low" ==> r == "\U{2705}"
  {
    if text == "high" then "\U{1F525}"
    else if text == "medium" then "\U{2705}"
    else if text == "low" then "\U{2139}\U{FE0F}"
    else "\U{2705}"
  }

  /** `r.get("title_zh") or r.get("title", "")`. */
  function DisplayTitle(e: Entry): string
  {
    OrElse(e.titleZh, e.title)
  }

  /** The header's group name: vendors are upper-cased, blog names are not. */
  function GroupName(kind: Kind, g: string): (name: string)
    ensures kind == Blogs ==> name == g
    ensures |name| == |g|
  {
    if kind == Releases then Upper(g) else g
  }

  function Title(kind: Kind): string
  {
    if kind == Releases then "\U{1F4CB} <b>AI 每日动态</b>"
    else "\U{1F4D6} <b>AI 编程博客每日精选</b>"
  }

  /** The count footer: releases are counted as updates, articles as
      articles. */
  function Footer(kind: Kind, n: nat): string
  {
    "共 " + NatToString(n) + (if kind == Releases then " 条更新" else " 篇文章")
  }

  /** One Telegram item line. */
  function ItemLine(e: Entry): string
  {
    Emoji(ImportanceText(e)) + " <a href=\"" + Telegram.Escape(e.url) + "\">"
      + Telegram.Escape(DisplayTitle(e)) + "</a>"
  }

  function ItemLines(items: seq<Entry>): (lines: seq<string>)
    ensures |lines| == |items|
    ensures forall i :: 0 <= i < |items| ==> lines[i] == ItemLine(items[i])
  {
    seq(|items|, i requires 0 <= i < |items| => ItemLine(items[i]))
  }

  /** One group's block: header, items, blank line. */
  function TelegramBlock(kind: Kind, entries: seq<Entry>, g: string): seq<string>
  {
    ["<b>" + Telegram.Escape(GroupName(kind, g)) + "</b>"] + ItemLines(GroupItems(entries, g)) + [""]
  }

  function TelegramBlocks(kind: Kind, entries: seq<Entry>, gs: seq<string>): seq<string>
  {
    if |gs| == 0 then [] else TelegramBlock(kind, entries, gs[0]) + TelegramBlocks(kind, entries, gs[1..])
  }

  function TelegramLines(kind: Kind, entries: seq<Entry>): seq<string>
  {
    [Title(kind), ""] + TelegramBlocks(kind, entries, Groups(entries)) + [Footer(kind, |entries|)]
  }

  /** `build_telegram_digest` / `build_telegram_blog_digest`. Building
      raises (ValueError from `Importance(...)`) exactly when some entry has
      an unknown importance text. */
  function TelegramDigest(kind: Kind, entries: seq<Entry>): (r: Result<string>)
    ensures |entries| == 0 ==> r == Ok("")
    ensures r.Err? <==> |entries| > 0 && !AllValid(entries)
    ensures r.Ok? && |entries| > 0 ==> r.value == Join("\n", TelegramLines(kind, entries))
  {
    if |entries| == 0 then Ok("")
    else if !AllValid(entries) then Err("ValueError")
    else Ok(Join("\n", TelegramLines(kind, entries)))
  }

  /** One Feishu item line (lark_md link, unescaped). */
  function CardLine(e: Entry): string
  {
    Emoji(ImportanceText(e)) + " [" + DisplayTitle(e) + "](" + e.url + ")"
  }

  function CardLines(items: seq<Entry>): (lines: seq<string>)
    ensures |lines| == |items|
    ensures forall i :: 0 <= i < |items| ==> lines[i] == CardLine(items[i])
  {
    seq(|items|, i requires 0 <= i < |items| => CardLine(items[i]))
  }

  function CardBlock(kind: Kind, entries: seq<Entry>, g: string): seq<Feishu.Element>
  {
    [Feishu.Div("**" + GroupName(kind, g) + "**"),
     Feishu.Div(Join("\n", CardLines(GroupItems(entries, g)))),
     Feishu.Hr]
  }

  function CardBlocks(kind: Kind, entries: seq<Entry>, gs: seq<string>): (els: seq<Feishu.Element>)
    ensures |els| == 3 * |gs|
  {
    if |gs| == 0 then [] else CardBlock(kind, entries, gs[0]) + CardBlocks(kind, entries, gs[1..])
  }

  /** `build_feishu_digest_elements` / `build_feishu_blog_digest_elements`. */
  function FeishuDigest(kind: Kind, entries: seq<Entry>): (r: Result<seq<Feishu.Element>>)
    ensures |entries| == 0 ==> r == Ok([])
    ensures r.Err? <==> |entries| > 0 && !AllValid(entries)
    ensures r.Ok? && |entries| > 0 ==> |r.value| == 3 * |Groups(entries)| + 1
    ensures r.Ok? && |entries| > 0 ==> r.value[|r.value| - 1] == Feishu.Div(Footer(kind, |entries|))
  {
    if |entries| == 0 then Ok([])
    else if !AllValid(entries) then Err("ValueError")
    else Ok(CardBlocks(kind, entries, Groups(entries)) + [Feishu.Div(Footer(kind, |entries|))])
  }

  // ----------------------------------------------------------- properties

  /** The groups are the distinct group keys, each once, in strictly
      ascending string order. */
  lemma GroupsAscending(entries: seq<Entry>)
    ensures forall g :: g in Groups(entries) <==> exists i :: 0 <= i < |entries| && entries[i].group == g
    ensures forall i, j :: 0 <= i < j < |Groups(entries)| ==> StrLess(Groups(entries)[i], Groups(entries)[j])
  {
    var keys := GroupKeys(entries);
    var d := Distinct(keys);
    var gs := Groups(entries);
    assert multiset(gs) == multiset(d);
    forall g ensures g in gs <==> g in d {
      assert g in gs <==> g in multiset(gs);
      assert g in d <==> g in multiset(d);
    }
    forall g | g in keys ensures exists i :: 0 <= i < |entries| && entries[i].group == g {
      var i :| 0 <= i < |keys| && keys[i] == g;
    }
    forall i | 0 <= i < |entries| ensures entries[i].group in keys {
      assert keys[i] == entries[i].group;
    }
    StrLeTotalPreorder();
    SortSorted(d, StrLe);
    forall i, j | 0 <= i < j < |gs| ensures StrLess(gs[i], gs[j]) {
      DistinctAfterSort(d, gs, i, j);
    }
  }

  lemma DistinctAfterSort(d: seq<string>, gs: seq<string>, i: int, j: int)
    requires forall a, b :: 0 <= a < b < |d| ==> d[a] != d[b]
    requires multiset(gs) == multiset(d)
    requires SortedBy(gs, StrLe)
    requires 0 <= i < j < |gs|
    ensures StrLess(gs[i], gs[j])
  {
    if gs[i] == gs[j] {
      assert multiset(gs)[gs[i]] >= 2 by {
        assert gs == gs[..i] + [gs[i]] + gs[i + 1..j] + [gs[j]] + gs[j + 1..];
      }
      DistinctCount(d, gs[i]);
      assert false;
    }
  }

  /** Every entry is emitted exactly once: the groups' items together are a
      permutation of the input. */
  lemma EachEntryOnce(entries: seq<Entry>)
    ensures multiset(Emitted(entries, Groups(entries))) == multiset(entries)
  {
    var gs := Groups(entries);
    GroupsAscending(entries);
    DistinctGroups(gs);
    EmittedKeeps(entries, gs);
    KeepAll(entries, InGroups(gs));
  }

  lemma DistinctGroups(gs: seq<string>)
    requires forall i, j :: 0 <= i < j < |gs| ==> StrLess(gs[i], gs[j])
    ensures forall i, j :: 0 <= i < j < |gs| ==> gs[i] != gs[j]
  {
    forall i, j | 0 <= i < j < |gs| ensures gs[i] != gs[j] {
      StrLessIrreflexive(gs[i]);
    }
  }

  /** The emitted items of distinct groups are, up to order, the entries
      whose group is among them. */
  lemma {:induction false} EmittedKeeps(entries: seq<Entry>, gs: seq<string>)
    requires forall i, j :: 0 <= i < j < |gs| ==> gs[i] != gs[j]
    ensures multiset(Emitted(entries, gs)) == multiset(Keep(entries, InGroups(gs)))
  {
    if |gs| == 0 {
      KeepNone(entries, InGroups(gs));
    } else {
      EmittedKeeps(entries, gs[1..]);
      KeepUnion(entries, InGroup(gs[0]), InGroups(gs[1..]), InGroups(gs));
    }
  }

  /** Within a group, HIGH items come first, then MEDIUM, then LOW, each in
      input order: the sort equals the concatenation of the three rank
      buckets of the group. */
  lemma GroupIsBuckets(entries: seq<Entry>, g: string)
    ensures GroupItems(entries, g)
         == Keep(Keep(entries, InGroup(g)), RankIs(0))
          + Keep(Keep(entries, InGroup(g)), RankIs(1))
          + Keep(Keep(entries, InGroup(g)), RankIs(2))
  {
    var grp := Keep(entries, InGroup(g));
    var t := GroupItems(entries, g);
    RankLeTotalPreorder();
    SortSorted(grp, RankLe);
    SortedBuckets(t);
    BucketStable(grp, 0);
    BucketStable(grp, 1);
    BucketStable(grp, 2);
  }

  lemma RankLeTotalPreorder()
    ensures TotalPreorder(RankLe)
  {
  }

  /** Sorting keeps each bucket's order (stability). */
  lemma BucketStable(grp: seq<Entry>, k: nat)
    requires k < 3
    ensures Keep(Sort(grp, RankLe), RankIs(k)) == Keep(grp, RankIs(k))
  {
    var a := Entry("", Some(if k == 0 then "high" else if k == 1 then "medium" else "low"), "", "", "");
    assert Rank(a) == k;
    RankLeTotalPreorder();
    SortStable(grp, RankLe, a);
    var t := Sort(grp, RankLe);
    forall x: Entry ensures RankIs(k)(x) == TiedWith(RankLe, a)(x) {
      assert RankIs(k)(x) == (Rank(x) == k);
      assert TiedWith(RankLe, a)(x) == (Rank(x) <= k && k <= Rank(x));
    }
    KeepExt(t, RankIs(k), TiedWith(RankLe, a));
    KeepExt(grp, RankIs(k), TiedWith(RankLe, a));
  }

  /** A sequence sorted by rank is its rank-0, rank-1 and rank-2 parts in turn. */
  lemma {:induction false} SortedBuckets(t: seq<Entry>)
    requires SortedBy(t, RankLe)
    ensures t == Keep(t, RankIs(0)) + Keep(t, RankIs(1)) + Keep(t, RankIs(2))
  {
    if |t| > 0 {
      var u := t[1..];
      assert SortedBy(u, RankLe);
      SortedBuckets(u);
      forall i | 0 <= i < |u| ensures Rank(t[0]) <= Rank(u[i]) {
        assert u[i] == t[i + 1];
        assert RankLe(t[0], t[i + 1]);
      }
      assert t == [t[0]] + u;
      BucketsCons(t[0], u);
    }
  }

  /** Putting an item of least rank in front of bucketed items keeps them
      bucketed. */
  lemma BucketsCons(x: Entry, u: seq<Entry>)
    requires forall i :: 0 <= i < |u| ==> Rank(x) <= Rank(u[i])
    requires u == Keep(u, RankIs(0)) + Keep(u, RankIs(1)) + Keep(u, RankIs(2))
    ensures [x] + u == Keep([x] + u, RankIs(0)) + Keep([x] + u, RankIs(1)) + Keep([x] + u, RankIs(2))
  {
    var k := Rank(x);
    var a0, a1, a2 := Keep(u, RankIs(0)), Keep(u, RankIs(1)), Keep(u, RankIs(2));
    KeepCons(x, u, 0);
    KeepCons(x, u, 1);
    KeepCons(x, u, 2);
    if k == 0 {
      Assoc3(x, a0, a1, a2);
    } else if k == 1 {
      KeepNone(u, RankIs(0));
      Assoc3(x, a0, a1, a2);
    } else {
      KeepNone(u, RankIs(0));
      KeepNone(u, RankIs(1));
      Assoc3(x, a0, a1, a2);
    }
  }

  lemma Assoc3<T>(x: T, a: seq<T>, b: seq<T>, c: seq<T>)
    ensures [x] + (a + b + c) == ([x] + a) + b + c
    ensures a == [] ==> [x] + (a + b + c) == a + ([x] + b) + c
    ensures a == [] && b == [] ==> [x] + (a + b + c) == a + b + ([x] + c)
  {
  }

  lemma KeepCons(x: Entry, u: seq<Entry>, k: nat)
    ensures Keep([x] + u, RankIs(k)) == if Rank(x) == k then [x] + Keep(u, RankIs(k)) else Keep(u, RankIs(k))
  {
    assert ([x] + u)[1..] == u;
  }

  /** Each Telegram group block is the header, one line per item of the
      group, and a blank line; the digest text has the title, a blank line,
      the blocks and the footer counting every entry. */
  lemma TelegramShape(kind: Kind, entries: seq<Entry>)
    requires |entries| > 0 && AllValid(entries)
    ensures var lines := TelegramLines(kind, entries);
            && |lines| == 3 + 2 * |Groups(entries)| + |entries|
            && lines[0] == Title(kind) && lines[1] == ""
            && lines[|lines| - 1] == Footer(kind, |entries|)
  {
    var gs := Groups(entries);
    EachEntryOnce(entries);
    BlocksLength(kind, entries, gs);
    assert |Emitted(entries, gs)| == |entries| by {
      assert |multiset(Emitted(entries, gs))| == |multiset(entries)|;
    }
    var blocks := TelegramBlocks(kind, entries, gs);
    var lines := TelegramLines(kind, entries);
    assert lines == [Title(kind), ""] + blocks + [Footer(kind, |entries|)];
  }

  lemma {:induction false} BlocksLength(kind: Kind, entries: seq<Entry>, gs: seq<string>)
    ensures |TelegramBlocks(kind, entries, gs)| == 2 * |gs| + |Emitted(entries, gs)|
  {
    if |gs| > 0 {
      BlocksLength(kind, entries, gs[1..]);
    }
  }

  /** The footer's number reads back as the entry count. */
  lemma FooterCounts(kind: Kind, n: nat)
    ensures var f := Footer(kind, n);
            DigitsValue(f[2..2 + |NatToString(n)|]) == n
  {
    var f := Footer(kind, n);
    assert f[2..2 + |NatToString(n)|] == NatToString(n);
    NatToStringRoundTrip(n);
  }

  /** An item shows its translated title when there is one, the original
      otherwise, and its importance's emoji. */
  lemma ItemLineShows(e: Entry)
    requires Valid(e)
    ensures ItemLine(e) == Emoji(ImportanceText(e)) + " <a href=\"" + Telegram.Escape(e.url) + "\">"
                           + Telegram.Escape(if e.titleZh != "" then e.titleZh else e.title) + "</a>"
    ensures ImportanceText(e) == "high" ==> Emoji(ImportanceText(e)) == "\U{1F525}"
    ensures ImportanceText(e) == "low" ==> Emoji(ImportanceText(e)) == "\U{2139}\U{FE0F}"
    ensures e.importance.None? ==> Emoji(ImportanceText(e)) == "\U{2705}" && Rank(e) == 1
  {
  }

  /** The blog header keeps the name's case; the release header is the
      upper-cased vendor. */
  lemma HeaderCase(g: string)
    ensures GroupName(Blogs, g) == g
    ensures forall i :: 0 <= i < |g| ==> GroupName(Releases, g)[i] == UpperChar(g[i])
  {
  }
}

=== FILE: feeds.dfy ===
/** RSS discovery and entry mapping (src/ai_sub/fetcher/blog.py): feed
    selection from the OPML outline tree, HTML tag stripping, the content
    and date fallbacks of a feed entry, and the article built for each
    entry of a feed. The XML and feed parsers, the date parsers, MD5 and
    HTTP are inputs: the OPML body and a parsed feed arrive as values, and
    the date parsers and the digest are oracles. Missing attributes and
    entry keys are the empty string, which the source treats alike. */
module Feeds {
  import opened Util
  import opened Sorting
  import opened Models
  import Slug

  datatype FeedInfo = FeedInfo(title: string, xmlUrl: string, htmlUrl: string, category: string)

  /** An OPML `<outline>` with the attributes the parser reads. */
  datatype Outline = Outline(
    title: string,
    text: string,
    kind: string,
    xmlUrl: string,
    htmlUrl: string,
    children: seq<Outline>)

  /** `outline[@type='rss']` with a non-empty `xmlUrl`. */
  predicate IsFeed(o: Outline)
  {
    o.kind == "rss" && o.xmlUrl != ""
  }

  function FeedOf(category: Outline, o: Outline): (f: FeedInfo)
    ensures f.category == OrElse(category.title, category.text)
  {
    FeedInfo(OrElse(o.title, o.text), o.xmlUrl, o.htmlUrl, OrElse(category.title, category.text))
  }

  /** The feeds under one category outline, in document order. */
  function CategoryFeeds(category: Outline): (r: seq<FeedInfo>)
    ensures |r| == |Keep(category.children, IsFeed)|
  {
    var kept := Keep(category.children, IsFeed);
    seq(|kept|, i requires 0 <= i < |kept| => FeedOf(category, kept[i]))
  }

  /** `parse_opml` over the outlines directly under `<body>`. */
  function ParseOpml(body: seq<Outline>): (r: seq<FeedInfo>)
    ensures forall i :: 0 <= i < |r| ==> r[i].xmlUrl != ""
  {
    if |body| == 0 then []
    else
      var first := CategoryFeeds(body[0]);
      var rest := ParseOpml(body[1..]);
      assert forall i :: 0 <= i < |first| ==> first[i].xmlUrl != "" by {
        forall i | 0 <= i < |first| ensures first[i].xmlUrl != "" {
          var kept := Keep(body[0].children, IsFeed);
          KeepMembers(body[0].children, IsFeed);
          assert IsFeed(kept[i]);
        }
      }
      first + rest
  }

  // ------------------------------------------------------- HTML stripping

  /** Whether `<[^>]+>` matches at the start of `s`. */
  predicate TagAt(s: string)
  {
    |s| >= 2 && s[0] == '<' && s[1] != '>' && '>' in s[2..]
  }

  /** The index of the first `>` at or after `from`. */
  function FirstGt(s: string, from: nat): (k: nat)
    requires from <= |s| && '>' in s[from..]
    ensures from <= k < |s| && s[k] == '>' && '>' !in s[from..k]
    decreases |s| - from
  {
    if s[from] == '>' then from else FirstGt(s, from + 1)
  }

  /** `re.sub(r"<[^>]+>", "", s)`: scanning left to right, every match runs
      from a `<` to the first `>` after it and is removed. */
  function RemoveTags(s: string): (r: string)
    ensures |r| <= |s|
    ensures forall c :: c in r ==> c in s
    decreases |s|
  {
    if |s| == 0 then ""
    else if TagAt(s) then RemoveTags(s[FirstGt(s, 2) + 1..])
    else [s[0]] + RemoveTags(s[1..])
  }

  /** No `<[^>]+>` match anywhere. */
  predicate TagFree(s: string)
  {
    forall i :: 0 <= i < |s| ==> !TagAt(s[i..])
  }

  /** `str.isspace()` on ASCII, including the separators 0x1C–0x1F. */
  predicate IsSpace(c: char)
  {
    c == ' ' || '\t' <= c <= '\r' || '\U{1C}' <= c <= '\U{1F}'
  }

  function TrimLeft(s: string): (r: string)
    ensures |r| <= |s| && r == s[|s| - |r|..]
    ensures r == "" || !IsSpace(r[0])
  {
    if |s| > 0 && IsSpace(s[0]) then TrimLeft(s[1..]) else s
  }

  function TrimRight(s: string): (r: string)
    ensures r <= s
    ensures r == "" || !IsSpace(r[|r| - 1])
  {
    if |s| > 0 && IsSpace(s[|s| - 1]) then TrimRight(s[..|s| - 1]) else s
  }

  /** `str.strip()`. */
  function Trim(s: string): (r: string)
    ensures r == "" || (!IsSpace(r[0]) && !IsSpace(r[|r| - 1]))
  {
    TrimRight(TrimLeft(s))
  }

  /** `_strip_html`. */
  function StripHtml(s: string): (r: string)
    ensures |r| <= |s|
  {
    Trim(RemoveTags(s))
  }

  // ---------------------------------------------------------- feed entries

  /** The entry keys the mapping reads; `contents` holds the `value` of
      each `content` element. */
  datatype FeedEntry = FeedEntry(
    id: string,
    link: string,
    title: string,
    summary: string,
    contents: seq<string>,
    published: string,
    updated: string)

  /** `_extract_content`: the first non-empty content value, else the
      summary, else the title. */
  function ExtractContent(e: FeedEntry): (r: string)
    ensures (exists k :: 0 <= k < |e.contents| && e.contents[k] != "") ==>
              exists k :: 0 <= k < |e.contents| && r == e.contents[k] && forall j :: 0 <= j < k ==> e.contents[j] == ""
    ensures (forall k :: 0 <= k < |e.contents| ==> e.contents[k] == "") ==> r == OrElse(e.summary, e.title)
  {
    FirstNonEmpty(e.contents, OrElse(e.summary, e.title))
  }

  function FirstNonEmpty(values: seq<string>, otherwise: string): (r: string)
    ensures (exists k :: 0 <= k < |values| && values[k] != "") ==>
              exists k :: 0 <= k < |values| && r == values[k] && forall j :: 0 <= j < k ==> values[j] == ""
    ensures (forall k :: 0 <= k < |values| ==> values[k] == "") ==> r == otherwise
  {
    if |values| == 0 then otherwise
    else if values[0] != "" then values[0]
    else
      var r := FirstNonEmpty(values[1..], otherwise);
      if exists k :: 0 <= k < |values| && values[k] != "" then
        var k :| 0 <= k < |values| && values[k] != "";
        assert values[1..][k - 1] == values[k];
        var k' :| 0 <= k' < |values| - 1 && r == values[1..][k'] && forall j :: 0 <= j < k' ==> values[1..][j] == "";
        assert r == values[k' + 1] && forall j :: 0 <= j < k' + 1 ==> values[j] == "";
        r
      else r
  }

  /** One key of `_parse_date`: the RFC 2822 parser first, then ISO 8601. */
  function ParseDateText(raw: string, rfc2822: string -> Option<Instant>, iso: string -> Option<Instant>)
    : (d: Option<Instant>)
    ensures raw == "" ==> d.None?
    ensures raw != "" && rfc2822(raw).Some? ==> d == rfc2822(raw)
  {
    if raw == "" then None
    else if rfc2822(raw).Some? then rfc2822(raw)
    else iso(raw)
  }

  /** `_parse_date`: `published` first, then `updated`; a key whose text
      neither parser accepts falls through to the next. */
  function ParseDate(e: FeedEntry, rfc2822: string -> Option<Instant>, iso: string -> Option<Instant>)
    : (d: Option<Instant>)
    ensures ParseDateText(e.published, rfc2822, iso).Some? ==> d == ParseDateText(e.published, rfc2822, iso)
    ensures ParseDateText(e.published, rfc2822, iso).None? ==> d == ParseDateText(e.updated, rfc2822, iso)
  {
    var p := ParseDateText(e.published, rfc2822, iso);
    if p.Some? then p else ParseDateText(e.updated, rfc2822, iso)
  }

  /** `entry.get("id") or entry.get("link") or entry.get("title", "")`. */
  function EntryId(e: FeedEntry): (id: string)
    ensures id == "" <==> e.id == "" && e.link == "" && e.title == ""
  {
    OrElse(e.id, OrElse(e.link, e.title))
  }

  /** One iteration of the loop in `_fetch_single_feed`: None when the entry
      has no id, link or title. */
  function EntryArticle(feed: FeedInfo, e: FeedEntry, md5hex: string -> string,
                        rfc2822: string -> Option<Instant>, iso: string -> Option<Instant>): (a: Option<BlogArticle>)
    ensures a.None? <==> EntryId(e) == ""
    ensures a.Some? ==> a.value.blogName == feed.title && a.value.category == feed.category
    ensures a.Some? ==> a.value.title == e.title && a.value.notifyAs == DefaultNotifyAs
    ensures a.Some? ==> a.value.url == OrElse(e.link, feed.htmlUrl)
    ensures a.Some? ==> a.value.sourceId == Slug.SourceId(feed.title, EntryId(e), md5hex)
    ensures a.Some? && a.value.summary != e.title ==> |a.value.summary| <= 500
    ensures a.Some? && a.value.content.Some? ==> 0 < |a.value.content.value| <= 3000
    ensures a.Some? ==> var c := SliceTo(StripHtml(ExtractContent(e)), 3000);
                        a.value.content == (if c == "" then None else Some(c))
    ensures a.Some? ==> a.value.publishedDate == ParseDate(e, rfc2822, iso)
  {
    var id := EntryId(e);
    if id == "" then None
    else
      var summaryText := SliceTo(StripHtml(e.summary), 500);
      var contentText := SliceTo(StripHtml(ExtractContent(e)), 3000);
      Some(BlogArticle(
        Slug.SourceId(feed.title, id, md5hex),
        feed.title,
        feed.category,
        e.title,
        OrElse(e.link, feed.htmlUrl),
        OrElse(summaryText, e.title),
        ParseDate(e, rfc2822, iso),
        if contentText == "" then None else Some(contentText),
        DefaultNotifyAs))
  }

  predicate HasEntryId(e: FeedEntry)
  {
    EntryId(e) != ""
  }

  /** The article of each entry that has an id, in order. */
  function EntryArticles(feed: FeedInfo, entries: seq<FeedEntry>, md5hex: string -> string,
                         rfc2822: string -> Option<Instant>, iso: string -> Option<Instant>): (r: seq<BlogArticle>)
    ensures |r| <= |entries|
    ensures |r| == |entries| <==> forall i :: 0 <= i < |entries| ==> EntryId(entries[i]) != ""
    ensures forall j :: 0 <= j < |r| ==> r[j].blogName == feed.title && r[j].category == feed.category
    ensures var kept := Keep(entries, HasEntryId);
            |r| == |kept| && forall j :: 0 <= j < |r| ==> EntryArticle(feed, kept[j], md5hex, rfc2822, iso) == Some(r[j])
  {
    var f := (e: FeedEntry) => EntryArticle(feed, e, md5hex, rfc2822, iso);
    var r := Collect(entries, f);
    forall i | 0 <= i < |entries|
      ensures HasEntryId(entries[i]) <==> f(entries[i]).Some?
    {
      var a := EntryArticle(feed, entries[i], md5hex, rfc2822, iso);
      assert f(entries[i]) == a;
    }
    CollectInOrder(entries, f, HasEntryId);
    forall j | 0 <= j < |r| ensures r[j].blogName == feed.title && r[j].category == feed.category {
      var i :| 0 <= i < |entries| && f(entries[i]) == Some(r[j]);
    }
    r
  }

  /** `_fetch_single_feed`: `parsed` is None when the feed could not be
      fetched or parsed. */
  function FetchSingleFeed(feed: FeedInfo, parsed: Option<seq<FeedEntry>>, limit: int, md5hex: string -> string,
                           rfc2822: string -> Option<Instant>, iso: string -> Option<Instant>): (r: seq<BlogArticle>)
    ensures parsed.None? ==> r == []
    ensures parsed.Some? && limit >= 0 ==> |r| <= limit
    ensures parsed.Some? ==> var kept := Keep(SliceTo(parsed.value, limit), HasEntryId);
            |r| == |kept| && forall j :: 0 <= j < |r| ==> EntryArticle(feed, kept[j], md5hex, rfc2822, iso) == Some(r[j])
  {
    if parsed.None? then []
    else EntryArticles(feed, SliceTo(parsed.value, limit), md5hex, rfc2822, iso)
  }

  // ----------------------------------------------------------- properties

  /** A feed is listed exactly when it is an `rss` outline with a URL
      directly under a category outline of the body, and it carries that
      category. */
  lemma ParseOpmlIff(body: seq<Outline>, f: FeedInfo)
    ensures f in ParseOpml(body) <==>
              exists i, j :: 0 <= i < |body| && 0 <= j < |body[i].children|
                             && IsFeed(body[i].children[j]) && f == FeedOf(body[i], body[i].children[j])
  {
    if |body| > 0 {
      ParseOpmlIff(body[1..], f);
      CategoryFeedsIff(body[0], f);
      if f in ParseOpml(body[1..]) {
        var i, j :| 0 <= i < |body[1..]| && 0 <= j < |body[1..][i].children|
                    && IsFeed(body[1..][i].children[j]) && f == FeedOf(body[1..][i], body[1..][i].children[j]);
        assert body[i + 1] == body[1..][i];
      }
      if exists i, j :: 0 <= i < |body| && 0 <= j < |body[i].children|
                        && IsFeed(body[i].children[j]) && f == FeedOf(body[i], body[i].children[j]) {
        var i, j :| 0 <= i < |body| && 0 <= j < |body[i].children|
                    && IsFeed(body[i].children[j]) && f == FeedOf(body[i], body[i].children[j]);
        if i > 0 {
          assert body[1..][i - 1] == body[i];
        }
      }
    }
  }

  lemma CategoryFeedsIff(c: Outline, f: FeedInfo)
    ensures f in CategoryFeeds(c) <==>
              exists j :: 0 <= j < |c.children| && IsFeed(c.children[j]) && f == FeedOf(c, c.children[j])
  {
    var kept := Keep(c.children, IsFeed);
    KeepMembers(c.children, IsFeed);
    var r := CategoryFeeds(c);
    if f in r {
      var i :| 0 <= i < |r| && r[i] == f;
      assert kept[i] in c.children && IsFeed(kept[i]);
      var j :| 0 <= j < |c.children| && c.children[j] == kept[i];
    }
    if exists j :: 0 <= j < |c.children| && IsFeed(c.children[j]) && f == FeedOf(c, c.children[j]) {
      var j :| 0 <= j < |c.children| && IsFeed(c.children[j]) && f == FeedOf(c, c.children[j]);
      assert c.children[j] in kept;
      var i :| 0 <= i < |kept| && kept[i] == c.children[j];
      assert r[i] == f;
    }
  }

  /** Removing tags leaves no tag behind. */
  lemma {:induction false} RemoveTagsTagFree(s: string)
    ensures TagFree(RemoveTags(s))
    decreases |s|
  {
    if |s| > 0 {
      if TagAt(s) {
        RemoveTagsTagFree(s[FirstGt(s, 2) + 1..]);
      } else {
        var rest := RemoveTags(s[1..]);
        RemoveTagsTagFree(s[1..]);
        var r := [s[0]] + rest;
        assert r == RemoveTags(s);
        forall i | 0 <= i < |r| ensures !TagAt(r[i..]) {
          if i > 0 {
            assert r[i..] == rest[i - 1..];
          } else if s[0] == '<' && |r| >= 2 && r[1] != '>' {
            // `<` kept: either the next input character is `>`, which is
            // kept as the next output character, or no `>` follows it.
            NextKept(s);
            assert '>' !in r[2..];
          }
        }
      }
    }
  }

  /** When the text starts with a `<` that opens no tag, either the next
      character is `>` and comes out next, or no `>` is left at all. */
  lemma NextKept(s: string)
    requires |s| >= 2 && s[0] == '<' && !TagAt(s)
    ensures var rest := RemoveTags(s[1..]);
            s[1] == '>' ==> |rest| > 0 && rest[0] == '>'
    ensures s[1] != '>' ==> '>' !in RemoveTags(s[1..])
  {
    if s[1] == '>' {
      assert !TagAt(s[1..]);
    } else {
      assert '>' !in s[2..];
      assert '>' !in s[1..] by {
        assert s[1..] == [s[1]] + s[2..];
      }
    }
  }

  /** On tag-free text removal changes nothing, so it is idempotent. */
  lemma {:induction false} TagFreeUnchanged(s: string)
    requires TagFree(s)
    ensures RemoveTags(s) == s
    decreases |s|
  {
    if |s| > 0 {
      assert !TagAt(s[0..]);
      assert s[0..] == s;
      assert TagFree(s[1..]) by {
        forall i | 0 <= i < |s[1..]| ensures !TagAt(s[1..][i..]) {
          assert s[1..][i..] == s[i + 1..];
        }
      }
      TagFreeUnchanged(s[1..]);
      assert s == [s[0]] + s[1..];
    }
  }

  lemma RemoveTagsIdempotent(s: string)
    ensures RemoveTags(RemoveTags(s)) == RemoveTags(s)
  {
    RemoveTagsTagFree(s);
    TagFreeUnchanged(RemoveTags(s));
  }

  /** Text without `<` passes through tag removal unchanged. */
  lemma {:induction false} NoAngleUnchanged(s: string)
    requires '<' !in s
    ensures RemoveTags(s) == s
    ensures StripHtml(s) == Trim(s)
    decreases |s|
  {
    if |s| > 0 {
      assert s[0] != '<';
      assert '<' !in s[1..];
      NoAngleUnchanged(s[1..]);
      assert s == [s[0]] + s[1..];
    }
  }

  /** An illustration on one fixed input, not a general property:
      `<p>x</p>` gives `x`. */
  lemma StripHtmlExample()
    ensures RemoveTags("<p>x</p>") == "x"
  {
    assert TagAt("<p>x</p>");
    assert FirstGt("<p>x</p>", 2) == 2;
    assert "<p>x</p>"[3..] == "x</p>";
    assert !TagAt("x</p>");
    assert "x</p>"[1..] == "</p>";
    assert TagAt("</p>");
    assert FirstGt("</p>", 2) == 3;
  }

  /** The entry-field fallbacks: the id falls back to the link and then the
      title, the URL to the feed's site, the summary to the title, and the
      content is absent when nothing remains after stripping. */
  lemma EntryFallbacks(feed: FeedInfo, e: FeedEntry, md5hex: string -> string,
                       rfc2822: string -> Option<Instant>, iso: string -> Option<Instant>)
    requires EntryId(e) != ""
    ensures var a := EntryArticle(feed, e, md5hex, rfc2822, iso).value;
            && (e.id == "" && e.link == "" ==> a.sourceId == Slug.SourceId(feed.title, e.title, md5hex))
            && (e.link == "" ==> a.url == feed.htmlUrl)
            && (StripHtml(e.summary) == "" ==> a.summary == e.title)
            && (StripHtml(e.summary) != "" ==> a.summary == SliceTo(StripHtml(e.summary), 500))
            && (a.content.None? <==> StripHtml(ExtractContent(e)) == "")
  {
  }

  /** Two entries of one feed share a source id exactly when their entry ids
      share a digest prefix. */
  lemma SameFeedIds(feed: FeedInfo, e1: FeedEntry, e2: FeedEntry, md5hex: string -> string)
    requires Slug.IsHex(md5hex(EntryId(e1))) && Slug.IsHex(md5hex(EntryId(e2)))
    ensures Slug.SourceId(feed.title, EntryId(e1), md5hex) == Slug.SourceId(feed.title, EntryId(e2), md5hex)
        <==> SliceTo(md5hex(EntryId(e1)), 12) == SliceTo(md5hex(EntryId(e2)), 12)
  {
    Slug.SourceIdInjective(feed.title, EntryId(e1), feed.title, EntryId(e2), md5hex);
  }
}

=== FILE: feishu.dfy ===
/** Feishu interactive cards (src/ai_sub/notifier/feishu.py): the card
    layouts for one release and one blog article, the webhook each goes to,
    and the success test on the webhook's answer. The HTTP post itself is an
    oracle: its decoded JSON body, or None when the post or decoding fails. */
module Feishu {
  import opened Util
  import opened Json
  import opened Models

  /** The card elements the core emits: a lark_md `div`, a rule, and an
      `action` holding one default-style button. */
  datatype Element =
    | Div(content: string)
    | Hr
    | Button(text: string, url: string)

  /** An `interactive` message; the fixed `config` block is not modelled. */
  datatype Card = Card(title: string, template: string, elements: seq<Element>)

  /** IMPORTANCE_COLOR. Every Importance has an entry, so the "yellow"
      fallback of `.get` is never taken. */
  function Color(i: Importance): string
  {
    match i
    case High => "red"
    case Medium => "yellow"
    case Low => "green"
  }

  /** IMPORTANCE_LABEL (emoji and a two-character word). */
  function Label(i: Importance): string
  {
    match i
    case High => "\U{1F525} 重要"
    case Medium => "\U{2705} 关注"
    case Low => "\U{2139}\U{FE0F} 了解"
  }

  /** The text of the card's button. */
  const ViewOriginal: string := "查看原文"

  /** `"vendor · product"`, plus `" · version"` when the version is truthy. */
  function ReleaseMeta(vendor: string, product: string, version: Option<string>): (m: string)
    ensures version.Some? && version.value != "" ==> m == vendor + " · " + product + " · " + version.value
    ensures version.None? || version.value == "" ==> m == vendor + " · " + product
  {
    var base := vendor + " · " + product;
    if version.Some? && version.value != "" then base + " · " + version.value else base
  }

  /** The bold level label that opens each card's first div. */
  function LevelHead(i: Importance): (h: string)
    ensures "**" <= h && |h| == 7 + |Label(i)|
  {
    "**" + Label(i) + "** | "
  }

  /** `_build_card`: header, then the label and meta div, a rule, the
      summary and the link button. */
  function BuildCard(r: FilteredRelease): (c: Card)
    ensures c.title == OrElse(r.titleZh, r.title) && c.template == Color(r.importance)
    ensures |c.elements| == 4 && c.elements[0].Div? && c.elements[1] == Hr && c.elements[2].Div?
    ensures var line := c.elements[0].content;
            && LevelHead(r.importance) + "*" <= line
            && line[|LevelHead(r.importance)| + 1..] == ReleaseMeta(r.vendor, r.product, r.version) + "*"
    ensures c.elements[2].content == OrElse(r.summaryZh, r.summary)
    ensures c.elements[3] == Button(ViewOriginal, r.url)
  {
    Card(OrElse(r.titleZh, r.title), Color(r.importance), [
      Div(LevelHead(r.importance) + "*" + ReleaseMeta(r.vendor, r.product, r.version) + "*"),
      Hr,
      Div(OrElse(r.summaryZh, r.summary)),
      Button(ViewOriginal, r.url)])
  }

  /** `"[ai_category] "` when the category is non-empty, else nothing. */
  function CategoryTag(aiCategory: string): (t: string)
    ensures aiCategory == "" ==> t == ""
    ensures aiCategory != "" ==> t == "[" + aiCategory + "] "
  {
    if aiCategory != "" then "[" + aiCategory + "] " else ""
  }

  /** `_build_blog_card`: the release layout with the category tag and the
      blog name as meta. */
  function BuildBlogCard(a: FilteredBlogArticle): (c: Card)
    ensures c.title == OrElse(a.titleZh, a.title) && c.template == Color(a.importance)
    ensures |c.elements| == 4 && c.elements[0].Div? && c.elements[1] == Hr && c.elements[2].Div?
    ensures var line := c.elements[0].content;
            && LevelHead(a.importance) <= line
            && line[|LevelHead(a.importance)|..] == CategoryTag(a.aiCategory) + "*" + a.blogName + "*"
    ensures c.elements[2].content == OrElse(a.summaryZh, a.summary)
    ensures c.elements[3] == Button(ViewOriginal, a.url)
  {
    Card(OrElse(a.titleZh, a.title), Color(a.importance), [
      Div(LevelHead(a.importance) + CategoryTag(a.aiCategory) + "*" + a.blogName + "*"),
      Hr,
      Div(OrElse(a.summaryZh, a.summary)),
      Button(ViewOriginal, a.url)])
  }

  /** The webhook `send_feishu_blog` hands to `_post_webhook`. */
  function BlogWebhook(notifyAs: string, releaseWebhook: string, blogWebhook: string): (w: string)
    ensures notifyAs == "release" ==> w == releaseWebhook
    ensures notifyAs != "release" ==> w == blogWebhook
  {
    if notifyAs == "release" then releaseWebhook else blogWebhook
  }

  /** `webhook_url or settings.feishu_release_webhook_url`. */
  function PostTarget(webhook: Option<string>, releaseWebhook: string): (url: string)
    ensures webhook.Some? && webhook.value != "" ==> url == webhook.value
    ensures webhook.None? || webhook.value == "" ==> url == releaseWebhook
  {
    if webhook.Some? && webhook.value != "" then webhook.value else releaseWebhook
  }

  /** The test `result.get("code") != 0` passes. A body that is not an object
      makes `.get` raise, and a missing code is None, which is not 0; a
      `false` code equals 0 in Python. */
  predicate Accepted(response: Option<Json>)
  {
    && response.Some?
    && response.value.JObj?
    && PyInt(Get(response.value.fields, "code")) == Some(0)
  }

  /** `_post_webhook`: the url posted to on success, or the exception. */
  function PostWebhook(webhook: Option<string>, releaseWebhook: string, response: Option<Json>): (r: Result<string>)
    ensures r.Ok? <==> Accepted(response)
    ensures r.Ok? ==> r.value == PostTarget(webhook, releaseWebhook)
  {
    if Accepted(response) then Ok(PostTarget(webhook, releaseWebhook))
    else Err("RuntimeError: Feishu error")
  }

  // -------------------------------------------------------------- properties

  /** The header colour and the label each tell the importance apart. */
  lemma ColorAndLabelDistinguish(a: Importance, b: Importance)
    ensures Color(a) == Color(b) <==> a == b
    ensures Label(a) == Label(b) <==> a == b
  {
    if a != b {
      assert Color(a)[0] != Color(b)[0];
      assert Label(a)[0] != Label(b)[0];
    }
  }

  /** The meta line carries the version exactly when it is truthy: its
      length grows by the separator and the version, and nothing else. */
  lemma MetaVersionIff(vendor: string, product: string, version: Option<string>)
    ensures |ReleaseMeta(vendor, product, version)|
         == |vendor| + 3 + |product| + (if version.Some? && version.value != "" then 3 + |version.value| else 0)
    ensures ReleaseMeta(vendor, product, None) == ReleaseMeta(vendor, product, Some(""))
    ensures ReleaseMeta(vendor, product, version) == ReleaseMeta(vendor, product, None) <==> version.None? || version.value == ""
  {
  }

  /** The body shows the translation when there is one and falls back to the
      original otherwise; the button always links the record's own url. */
  lemma CardTextFallbacks(r: FilteredRelease)
    ensures r.titleZh != "" ==> BuildCard(r).title == r.titleZh
    ensures r.titleZh == "" ==> BuildCard(r).title == r.title
    ensures BuildCard(r).elements[2] == Div(if r.summaryZh != "" then r.summaryZh else r.summary)
    ensures |BuildCard(r).elements| == 4 && BuildCard(r).elements[3].url == r.url
  {
  }

  /** The blog card shows the translations when present and the originals
      otherwise; the bracketed category follows the label exactly when the
      AI category is non-empty, and the meta is then the blog name alone;
      the button links the article's url. */
  lemma BlogCardTextFallbacks(a: FilteredBlogArticle)
    ensures a.titleZh != "" ==> BuildBlogCard(a).title == a.titleZh
    ensures a.titleZh == "" ==> BuildBlogCard(a).title == a.title
    ensures BuildBlogCard(a).elements[2] == Div(if a.summaryZh != "" then a.summaryZh else a.summary)
    ensures LevelHead(a.importance) + "[" <= BuildBlogCard(a).elements[0].content <==> a.aiCategory != ""
    ensures a.aiCategory == "" ==>
              BuildBlogCard(a).elements[0].content == LevelHead(a.importance) + "*" + a.blogName + "*"
    ensures BuildBlogCard(a).elements[3].url == a.url
  {
    var line := BuildBlogCard(a).elements[0].content;
    var n := |LevelHead(a.importance)|;
    assert line[..n] == LevelHead(a.importance);
    if a.aiCategory == "" {
      assert line[n] == '*';
    } else {
      assert line[n] == '[';
    }
  }

  /** A blog article reaches the release webhook only when it is routed as a
      release, or when the blog webhook is empty and `_post_webhook` falls
      back to the release default. */
  lemma BlogWebhookRouting(notifyAs: string, releaseWebhook: string, blogWebhook: string, response: Option<Json>)
    requires Accepted(response)
    ensures blogWebhook != "" && notifyAs != "release" ==>
              PostWebhook(Some(BlogWebhook(notifyAs, releaseWebhook, blogWebhook)), releaseWebhook, response) == Ok(blogWebhook)
    ensures notifyAs == "release" ==>
              PostWebhook(Some(BlogWebhook(notifyAs, releaseWebhook, blogWebhook)), releaseWebhook, response) == Ok(releaseWebhook)
    ensures blogWebhook == "" ==>
              PostWebhook(Some(BlogWebhook(notifyAs, releaseWebhook, blogWebhook)), releaseWebhook, response) == Ok(releaseWebhook)
  {
  }

  /** An illustration on fixed answers, not a general property (PostWebhook
      states the rule): code 0 (and `false`) succeed;
      another code, a missing code, a non-object body or no body fail. */
  lemma AcceptedExamples(m: map<string, Json>)
    ensures Accepted(Some(JObj(m["code" := JInt(0)])))
    ensures Accepted(Some(JObj(m["code" := JBool(false)])))
    ensures !Accepted(Some(JObj(m["code" := JInt(19001)])))
    ensures !Accepted(Some(JObj(m["code" := JStr("0")])))
    ensures "code" !in m ==> !Accepted(Some(JObj(m)))
    ensures !Accepted(Some(JArr([]))) && !Accepted(None)
  {
  }
}

=== FILE: filter.dfy ===
/** Verdict merging (src/ai_sub/filter_release.py, src/ai_sub/filter_blog.py):
    the classifier is an oracle, and this module computes the filtered record
    from what it answered. Releases fail open (kept, MEDIUM, original text);
    blog articles fail closed (not relevant). */
module Filter {
  import opened Util
  import opened Json
  import opened Models

  /** What the classifier call produced. `Failed` covers every exception in
      the try block before the verdict is read: a transport error, JSON that
      does not parse, and JSON that is not an object (whose `.get` raises).
      In an `Answer`, each field is None when its key is absent; the
      free-text fields are taken to be strings when present. The blog
      classifier's `ai_category` key arrives in `category`. */
  datatype Reply =
    | Failed
    | Answer(relevant: Option<Json>, importance: Option<Json>,
             category: Option<string>, titleZh: Option<string>, summaryZh: Option<string>)

  /** `Importance(data.get("importance", "medium"))`: a missing key is
      "medium"; anything that is not one of the three value strings
      (including null, numbers and other text) raises ValueError. */
  function VerdictImportance(v: Option<Json>): (r: Option<Importance>)
    ensures v.None? ==> r == Some(Medium)
    ensures v.Some? && r.Some? ==> v.value == JStr(ImportanceValue(r.value))
    ensures v.Some? && v.value.JStr? ==> r == ImportanceFromValue(v.value.s)
  {
    match v
    case None => Some(Medium)
    case Some(JStr(t)) => ImportanceFromValue(t)
    case Some(_) => None
  }

  /** The relevance the code reads: `data.get("relevant", default)` read
      for truthiness (the model performs no validation on assignment). */
  function VerdictRelevant(v: Option<Json>, default: bool): (r: bool)
    ensures v.None? ==> r == default
    ensures v.Some? ==> r == Truthy(v.value)
  {
    match v
    case None => default
    case Some(j) => Truthy(j)
  }

  /** `data.get(key, default)` for a free-text field. */
  function ValueOr(v: Option<string>, default: string): string
  {
    if v.Some? then v.value else default
  }

  /** `classify_and_translate`. */
  function ClassifyRelease(item: ReleaseItem, hasApiKey: bool, reply: Reply): (r: FilteredRelease)
    // the identity fields are always copied
    ensures r.sourceId == item.sourceId && r.vendor == item.vendor && r.product == item.product
    ensures r.title == item.title && r.version == item.version && r.summary == item.summary
    ensures r.url == item.url && r.publishedDate == item.publishedDate
    ensures !hasApiKey ==> r == FilteredReleaseDefaults(item)
    // fail open: a failed call keeps the release at MEDIUM with its own text
    ensures hasApiKey && reply.Failed? ==>
              r == FilteredReleaseDefaults(item).(titleZh := item.title, summaryZh := item.summary)
    // an irrelevant verdict returns the untouched base
    ensures !r.relevant ==> r == FilteredReleaseDefaults(item).(relevant := false)
  {
    var base := FilteredReleaseDefaults(item);
    if !hasApiKey then base
    else match reply
      case Failed => base.(titleZh := item.title, summaryZh := item.summary)
      case Answer(rel, imp, cat, tz, sz) =>
        var relevant := VerdictRelevant(rel, true);
        if !relevant then base.(relevant := false)
        else match VerdictImportance(imp)
          case None => base.(titleZh := item.title, summaryZh := item.summary)
          case Some(i) =>
            base.(importance := i, category := ValueOr(cat, "Other"),
                  titleZh := ValueOr(tz, item.title), summaryZh := ValueOr(sz, item.summary))
  }

  /** `classify_blog_article`. */
  function ClassifyBlog(a: BlogArticle, hasApiKey: bool, reply: Reply): (r: FilteredBlogArticle)
    ensures r.sourceId == a.sourceId && r.blogName == a.blogName && r.category == a.category
    ensures r.title == a.title && r.url == a.url && r.summary == a.summary
    ensures r.publishedDate == a.publishedDate && r.notifyAs == a.notifyAs
    // fail closed: without a key, or on any failure, the article is dropped
    ensures !hasApiKey || reply.Failed? ==> !r.relevant
    // an article that is not relevant keeps every default besides `relevant`
    ensures !r.relevant ==> r == FilteredBlogDefaults(a).(relevant := false)
  {
    var base := FilteredBlogDefaults(a).(relevant := false);
    if !hasApiKey then base
    else match reply
      case Failed => base
      case Answer(rel, imp, cat, tz, sz) =>
        if !VerdictRelevant(rel, false) then base
        else match VerdictImportance(imp)
          case None => base
          case Some(i) =>
            base.(relevant := true, importance := i, aiCategory := ValueOr(cat, ""),
                  titleZh := ValueOr(tz, a.title), summaryZh := ValueOr(sz, a.summary))
  }

  // -------------------------------------------------------------- properties

  /** A release is kept exactly unless the classifier answered and its answer
      carried a falsy `relevant`: there is no path that drops a release on
      error. */
  lemma ReleaseRelevantIff(item: ReleaseItem, hasApiKey: bool, reply: Reply)
    ensures ClassifyRelease(item, hasApiKey, reply).relevant
        <==> !hasApiKey || reply.Failed? || VerdictRelevant(reply.relevant, true)
  {
  }

  /** A relevant answer with a valid importance is taken as given, with each
      absent text field falling back to its default. */
  lemma ReleaseAnswerApplied(item: ReleaseItem, rel: Option<Json>, imp: Option<Json>,
                             cat: Option<string>, tz: Option<string>, sz: Option<string>)
    requires VerdictRelevant(rel, true) && VerdictImportance(imp).Some?
    ensures var r := ClassifyRelease(item, true, Answer(rel, imp, cat, tz, sz));
            && r.relevant && r.importance == VerdictImportance(imp).value
            && (cat.None? ==> r.category == "Other") && (cat.Some? ==> r.category == cat.value)
            && (tz.None? ==> r.titleZh == item.title) && (tz.Some? ==> r.titleZh == tz.value)
            && (sz.None? ==> r.summaryZh == item.summary) && (sz.Some? ==> r.summaryZh == sz.value)
  {
  }

  /** An unknown importance string takes the same path as a failed call. */
  lemma ReleaseBadImportanceFailsOpen(item: ReleaseItem, rel: Option<Json>, imp: Option<Json>,
                                      cat: Option<string>, tz: Option<string>, sz: Option<string>)
    requires VerdictRelevant(rel, true) && VerdictImportance(imp).None?
    ensures ClassifyRelease(item, true, Answer(rel, imp, cat, tz, sz)) == ClassifyRelease(item, true, Failed)
  {
  }

  /** A blog article is relevant exactly when a key is configured, the
      classifier answered, `relevant` is present and truthy, and the
      importance is valid or absent. */
  lemma BlogRelevantIff(a: BlogArticle, hasApiKey: bool, reply: Reply)
    ensures ClassifyBlog(a, hasApiKey, reply).relevant
        <==> hasApiKey && reply.Answer? && reply.relevant.Some? && Truthy(reply.relevant.value)
             && VerdictImportance(reply.importance).Some?
  {
  }

  /** A relevant blog answer with a valid importance is taken as given: the
      answer's AI category and translations, each absent one falling back to
      its default. */
  lemma BlogAnswerApplied(a: BlogArticle, rel: Option<Json>, imp: Option<Json>,
                          cat: Option<string>, tz: Option<string>, sz: Option<string>)
    requires VerdictRelevant(rel, false) && VerdictImportance(imp).Some?
    ensures var r := ClassifyBlog(a, true, Answer(rel, imp, cat, tz, sz));
            && r.relevant && r.importance == VerdictImportance(imp).value
            && (cat.None? ==> r.aiCategory == "") && (cat.Some? ==> r.aiCategory == cat.value)
            && (tz.None? ==> r.titleZh == a.title) && (tz.Some? ==> r.titleZh == tz.value)
            && (sz.None? ==> r.summaryZh == a.summary) && (sz.Some? ==> r.summaryZh == sz.value)
  {
  }

  /** The two classifiers disagree on the same failure: the release survives,
      the article does not. */
  lemma FailOpenFailClosed(item: ReleaseItem, a: BlogArticle)
    ensures ClassifyRelease(item, true, Failed).relevant
    ensures ClassifyRelease(item, true, Failed).importance == Medium
    ensures !ClassifyBlog(a, true, Failed).relevant
    ensures ClassifyRelease(item, false, Failed).relevant && !ClassifyBlog(a, false, Failed).relevant
  {
  }

  /** The `relevant` key's default differs: silence means relevant for a
      release and irrelevant for an article. */
  lemma MissingRelevantDefaults(item: ReleaseItem, a: BlogArticle, imp: Option<Json>)
    requires VerdictImportance(imp).Some?
    ensures ClassifyRelease(item, true, Answer(None, imp, None, None, None)).relevant
    ensures !ClassifyBlog(a, true, Answer(None, imp, None, None, None)).relevant
  {
  }
}

=== FILE: json.dfy ===
/** Decoded JSON values and the few Python operations the core applies to
    them: `isinstance(x, int)` (which a bool also passes), truthiness,
    `dict.get`, `a or b` and `str(x)`. Non-integral JSON numbers are not
    modelled. */
module Json {
  import opened Util

  datatype Json =
    | JNull
    | JBool(b: bool)
    | JInt(i: int)
    | JStr(s: string)
    | JArr(items: seq<Json>)
    | JObj(fields: map<string, Json>)

  /** `isinstance(v, int)` with the integer it denotes: Python's bool is a
      subclass of int, so `True` is the integer 1. */
  function PyInt(v: Json): (r: Option<int>)
    ensures r.Some? <==> v.JInt? || v.JBool?
    ensures v.JInt? ==> r == Some(v.i)
  {
    match v
    case JInt(i) => Some(i)
    case JBool(b) => Some(if b then 1 else 0)
    case _ => None
  }

  /** Python truthiness. */
  predicate Truthy(v: Json)
  {
    match v
    case JNull => false
    case JBool(b) => b
    case JInt(i) => i != 0
    case JStr(s) => s != ""
    case JArr(a) => |a| > 0
    case JObj(m) => |m| > 0
  }

  /** `d.get(key)`: JSON null and a missing key both come back as None. */
  function Get(d: map<string, Json>, key: string): (r: Json)
    ensures key !in d ==> r == JNull
    ensures key in d ==> r == d[key]
  {
    if key in d then d[key] else JNull
  }

  /** `d.get(key, default)`: the default only for a missing key. */
  function GetOr(d: map<string, Json>, key: string, default: Json): (r: Json)
    ensures key in d ==> r == d[key]
    ensures key !in d ==> r == default
  {
    if key in d then d[key] else default
  }

  /** Python's `a or b`. */
  function Or(a: Json, b: Json): (r: Json)
    ensures Truthy(a) ==> r == a
    ensures !Truthy(a) ==> r == b
  {
    if Truthy(a) then a else b
  }

  /** `str(v)` for a non-null value; lists and dicts render through `repr`,
      which is left uninterpreted. */
  function PyStr(v: Json, repr: Json -> string): string
  {
    match v
    case JNull => "None"
    case JBool(b) => if b then "True" else "False"
    case JInt(i) => IntToString(i)
    case JStr(s) => s
    case _ => repr(v)
  }
}

=== FILE: models.dfy ===
/** The record types that flow between fetchers, the classifier, the stores
    and the notifiers (src/ai_sub/models.py). Timestamps are abstract
    instants: whole seconds on one UTC time line. */
module Models {
  import opened Util

  datatype Importance = High | Medium | Low

  /** The enum's string value, as stored in the database. */
  function ImportanceValue(i: Importance): string
  {
    match i
    case High => "high"
    case Medium => "medium"
    case Low => "low"
  }

  /** `Importance(text)`: the member whose value is `text`, or None where
      Python raises `ValueError`. */
  function ImportanceFromValue(text: string): (r: Option<Importance>)
    ensures r.Some? ==> ImportanceValue(r.value) == text
  {
    if text == "high" then Some(High)
    else if text == "medium" then Some(Medium)
    else if text == "low" then Some(Low)
    else None
  }

  /** IMPORTANCE_ORDER: HIGH first, LOW last. */
  function ImportanceOrder(i: Importance): nat
  {
    match i
    case High => 0
    case Medium => 1
    case Low => 2
  }

  /** Every importance value parses back to itself, and nothing else does. */
  lemma ImportanceValueRoundTrip(i: Importance, text: string)
    ensures ImportanceFromValue(ImportanceValue(i)) == Some(i)
    ensures ImportanceFromValue(text) == Some(i) <==> text == ImportanceValue(i)
  {
  }

  /** IMPORTANCE_ORDER is a strict total order: distinct levels get distinct ranks. */
  lemma ImportanceOrderInjective(a: Importance, b: Importance)
    ensures ImportanceOrder(a) == ImportanceOrder(b) <==> a == b
    ensures ImportanceOrder(a) < 3
  {
  }

  /** Ordering the stored texts as strings gives high, low, medium, which is
      not the IMPORTANCE_ORDER ranking. */
  lemma TextOrderDiffersFromRank()
    ensures StrLess(ImportanceValue(High), ImportanceValue(Low))
    ensures StrLess(ImportanceValue(Low), ImportanceValue(Medium))
    ensures ImportanceOrder(Medium) < ImportanceOrder(Low)
  {
    assert "high"[0] == 'h' && "low"[0] == 'l' && "medium"[0] == 'm';
  }

  type Instant = int

  datatype ReleaseItem = ReleaseItem(
    sourceId: string,
    vendor: string,
    product: string,
    title: string,
    version: Option<string>,
    url: string,
    summary: string,
    publishedDate: Option<Instant>,
    content: Option<string>)

  datatype FilteredRelease = FilteredRelease(
    sourceId: string,
    vendor: string,
    product: string,
    title: string,
    version: Option<string>,
    url: string,
    summary: string,
    publishedDate: Option<Instant>,
    relevant: bool,
    importance: Importance,
    category: string,
    titleZh: string,
    summaryZh: string)

  /** BlogArticle.notify_as and FilteredBlogArticle.notify_as default. */
  const DefaultNotifyAs: string := "blog"

  datatype BlogArticle = BlogArticle(
    sourceId: string,
    blogName: string,
    category: string,
    title: string,
    url: string,
    summary: string,
    publishedDate: Option<Instant>,
    content: Option<string>,
    notifyAs: string)

  datatype FilteredBlogArticle = FilteredBlogArticle(
    sourceId: string,
    blogName: string,
    category: string,
    title: string,
    url: string,
    summary: string,
    publishedDate: Option<Instant>,
    relevant: bool,
    importance: Importance,
    aiCategory: string,
    titleZh: string,
    summaryZh: string,
    notifyAs: string)

  /** A FilteredRelease built from `item` with every classification field
      left at its declared default. */
  function FilteredReleaseDefaults(item: ReleaseItem): (r: FilteredRelease)
    ensures r.relevant && r.importance == Medium && r.category == "Other"
    ensures r.titleZh == "" && r.summaryZh == ""
    ensures r.sourceId == item.sourceId && r.vendor == item.vendor && r.product == item.product
    ensures r.title == item.title && r.version == item.version && r.url == item.url
    ensures r.summary == item.summary && r.publishedDate == item.publishedDate
  {
    FilteredRelease(item.sourceId, item.vendor, item.product, item.title, item.version,
      item.url, item.summary, item.publishedDate,
      true, Medium, "Other", "", "")
  }

  /** A FilteredBlogArticle built from `a` with the declared defaults
      (relevant, MEDIUM, empty ai_category and translations) and `a`'s
      notify_as. */
  function FilteredBlogDefaults(a: BlogArticle): (r: FilteredBlogArticle)
    ensures r.relevant && r.importance == Medium && r.aiCategory == ""
    ensures r.titleZh == "" && r.summaryZh == ""
    ensures r.sourceId == a.sourceId && r.blogName == a.blogName && r.category == a.category
    ensures r.title == a.title && r.url == a.url && r.summary == a.summary
    ensures r.publishedDate == a.publishedDate && r.notifyAs == a.notifyAs
  {
    FilteredBlogArticle(a.sourceId, a.blogName, a.category, a.title, a.url, a.summary,
      a.publishedDate, true, Medium, "", "", "", a.notifyAs)
  }
}

=== FILE: notifier.dfy ===
/** The notification fan-out (src/ai_sub/notifier/__init__.py): which
    channels a record goes to, what each channel is asked to deliver, and
    the promise that channel failures are logged rather than raised. The
    two channel sends run as concurrent tasks in the source; here they are
    attempted in order, each channel's outcome is an oracle
    (`accepted(d)` says whether delivery `d` went through), and a failure
    only adds to the number of logged errors. The topic cache that
    `get_thread_id` may refill is threaded through as state. */
module Notifier {
  import opened Util
  import opened Models
  import opened Config
  import Telegram
  import Feishu
  import Topics

  /** One request a channel is asked to deliver: a Telegram message (before
      splitting) with its forum thread, or a Feishu card with its webhook. */
  datatype Delivery =
    | TelegramPost(text: string, threadId: Option<int>)
    | FeishuPost(webhook: string, card: Feishu.Card)

  /** What a fan-out did: the deliveries attempted, the topic cache after
      it, and how many failures it logged. */
  datatype Fanout = Fanout(attempted: seq<Delivery>, cache: map<string, int>, logged: nat)

  /** The topic cache and the topics file as `get_thread_id` finds them. */
  datatype TopicState = TopicState(cache: map<string, int>, file: Topics.TopicsFile)

  predicate TelegramOn(s: Settings)
  {
    s.telegramEnabled && s.telegramBotToken != "" && s.telegramChatId != ""
  }

  predicate FeishuReleaseOn(s: Settings)
  {
    s.feishuEnabled && s.feishuReleaseWebhookUrl != ""
  }

  predicate FeishuBlogOn(s: Settings)
  {
    s.feishuEnabled && s.feishuBlogWebhookUrl != ""
  }

  /** The Telegram task of `send_telegram` / `send_telegram_blog`: the
      thread lookup runs inside that coroutine, so a failing lookup is one logged
      failure and no message. */
  function TelegramTask(ts: TopicState, source: string, importance: string, text: string,
                        accepted: Delivery -> bool): (r: Fanout)
    ensures |r.attempted| <= 1 && r.logged <= 1
    ensures |r.attempted| == 1 ==> r.attempted[0].TelegramPost? && r.attempted[0].text == text
    ensures |r.attempted| == 0 <==> ts.cache == map[] && ts.file.Corrupt?
  {
    match Topics.GetThreadId(ts.cache, ts.file, source, importance)
    case Err(_) => Fanout([], ts.cache, 1)
    case Ok((tid, cache')) =>
      var d := TelegramPost(text, tid);
      Fanout([d], cache', if accepted(d) then 0 else 1)
  }

  /** A Feishu task: one post, logged when it is not accepted. */
  function FeishuTask(webhook: string, card: Feishu.Card, cache: map<string, int>,
                      accepted: Delivery -> bool): (r: Fanout)
    ensures r.attempted == [FeishuPost(webhook, card)] && r.cache == cache
    ensures r.logged == if accepted(FeishuPost(webhook, card)) then 0 else 1
  {
    var d := FeishuPost(webhook, card);
    Fanout([d], cache, if accepted(d) then 0 else 1)
  }

  /** Running a second fan-out after a first: attempts and failures add up
      and the cache is the second's. */
  function Then(a: Fanout, b: Fanout): (r: Fanout)
    ensures r.attempted == a.attempted + b.attempted && r.logged == a.logged + b.logged
    ensures r.cache == b.cache
  {
    Fanout(a.attempted + b.attempted, b.cache, a.logged + b.logged)
  }

  function Nothing(cache: map<string, int>): Fanout
  {
    Fanout([], cache, 0)
  }

  /** How many of the deliveries the channels refused. */
  function Rejected(ds: seq<Delivery>, accepted: Delivery -> bool): (n: nat)
    ensures n <= |ds|
  {
    if ds == [] then 0 else (if accepted(ds[0]) then 0 else 1) + Rejected(ds[1..], accepted)
  }

  /** The Telegram topic lookup raises: no cached topic and a corrupt file. */
  predicate LookupFails(s: Settings, ts: TopicState)
  {
    TelegramOn(s) && ts.cache == map[] && ts.file.Corrupt?
  }

  /** `notify_all`. */
  function NotifyAll(s: Settings, r: FilteredRelease, ts: TopicState, accepted: Delivery -> bool): (f: Fanout)
    ensures f.logged <= |f.attempted| + 1
  {
    var tg := if TelegramOn(s)
              then TelegramTask(ts, "release", ImportanceValue(r.importance), Telegram.FormatRelease(r), accepted)
              else Nothing(ts.cache);
    var fs := if FeishuReleaseOn(s)
              then FeishuTask(Feishu.PostTarget(None, s.feishuReleaseWebhookUrl), Feishu.BuildCard(r), tg.cache, accepted)
              else Nothing(tg.cache);
    Then(tg, fs)
  }

  /** `notify_blog`. The Telegram thread is chosen under the article's
      routing, and the Feishu card goes to the webhook `send_feishu_blog`
      picks. */
  function NotifyBlog(s: Settings, a: FilteredBlogArticle, ts: TopicState, accepted: Delivery -> bool): (f: Fanout)
    ensures f.logged <= |f.attempted| + 1
  {
    var tg := if TelegramOn(s)
              then TelegramTask(ts, Telegram.TopicSource(a.notifyAs), ImportanceValue(a.importance),
                                Telegram.FormatBlogArticle(a), accepted)
              else Nothing(ts.cache);
    var hook := Feishu.PostTarget(Some(Feishu.BlogWebhook(a.notifyAs, s.feishuReleaseWebhookUrl, s.feishuBlogWebhookUrl)),
                                  s.feishuReleaseWebhookUrl);
    var fs := if FeishuBlogOn(s)
              then FeishuTask(hook, Feishu.BuildBlogCard(a), tg.cache, accepted)
              else Nothing(tg.cache);
    Then(tg, fs)
  }

  /** The digest card of `notify_digest` and of `notify_blog_digest`. */
  function DigestCard(blog: bool, elements: seq<Feishu.Element>): (c: Feishu.Card)
    ensures c.elements == elements
  {
    if blog then Feishu.Card("\U{1F4D6} AI 编程博客每日精选", "purple", elements)
    else Feishu.Card("AI Daily Digest", "blue", elements)
  }

  /** `notify_digest` (blog false) and `notify_blog_digest` (blog true).
      Here the thread lookup runs before any task is created, so its
      exception escapes: the fan-out raises, with nothing sent, exactly
      when Telegram is on, the cache is empty and the topics file is
      corrupt. */
  function NotifyDigest(s: Settings, blog: bool, text: string, elements: seq<Feishu.Element>,
                        ts: TopicState, accepted: Delivery -> bool): (r: Result<Fanout>)
    ensures r.Err? <==> TelegramOn(s) && ts.cache == map[] && ts.file.Corrupt?
    ensures r.Ok? ==> r.value.logged <= |r.value.attempted|
  {
    var source := if blog then "blog" else "release";
    var on := if blog then FeishuBlogOn(s) else FeishuReleaseOn(s);
    var hook := if blog then Feishu.PostTarget(Some(s.feishuBlogWebhookUrl), s.feishuReleaseWebhookUrl)
                else Feishu.PostTarget(None, s.feishuReleaseWebhookUrl);
    var tg: Result<Fanout> :=
      if !TelegramOn(s) then Ok(Nothing(ts.cache))
      else match Topics.GetThreadId(ts.cache, ts.file, source, "digest")
        case Err(e) => Err(e)
        case Ok((tid, cache')) =>
          var d := TelegramPost(text, tid);
          Ok(Fanout([d], cache', if accepted(d) then 0 else 1));
    match tg
    case Err(e) => Err(e)
    case Ok(t) =>
      Ok(Then(t, if on then FeishuTask(hook, DigestCard(blog, elements), t.cache, accepted) else Nothing(t.cache)))
  }

  // ----------------------------------------------------------- properties

  /** A channel is used exactly when it is selected: Telegram needs the
      switch, the token and the chat id; Feishu needs the switch and the
      release webhook. With neither, nothing happens. */
  lemma NotifyAllChannels(s: Settings, r: FilteredRelease, ts: TopicState, accepted: Delivery -> bool)
    ensures var f := NotifyAll(s, r, ts, accepted);
            && ((exists i :: 0 <= i < |f.attempted| && f.attempted[i].FeishuPost?) <==> FeishuReleaseOn(s))
            && ((exists i :: 0 <= i < |f.attempted| && f.attempted[i].TelegramPost?) ==> TelegramOn(s))
            && (!TelegramOn(s) && !FeishuReleaseOn(s) ==> f == Fanout([], ts.cache, 0))
            && (FeishuReleaseOn(s) ==> f.attempted[|f.attempted| - 1]
                                       == FeishuPost(s.feishuReleaseWebhookUrl, Feishu.BuildCard(r)))
  {
    var f := NotifyAll(s, r, ts, accepted);
    if FeishuReleaseOn(s) {
      assert f.attempted[|f.attempted| - 1].FeishuPost?;
    }
  }

  /** The blog fan-out uses the blog webhook to decide, and sends an
      article routed as a release to the release webhook. */
  lemma NotifyBlogChannels(s: Settings, a: FilteredBlogArticle, ts: TopicState, accepted: Delivery -> bool)
    ensures var f := NotifyBlog(s, a, ts, accepted);
            && ((exists i :: 0 <= i < |f.attempted| && f.attempted[i].FeishuPost?) <==> FeishuBlogOn(s))
            && (!TelegramOn(s) && !FeishuBlogOn(s) ==> f == Fanout([], ts.cache, 0))
            && (FeishuBlogOn(s) ==> f.attempted[|f.attempted| - 1].webhook
                                    == (if a.notifyAs == "release" then s.feishuReleaseWebhookUrl else s.feishuBlogWebhookUrl))
  {
    var f := NotifyBlog(s, a, ts, accepted);
    if FeishuBlogOn(s) {
      assert f.attempted[|f.attempted| - 1].FeishuPost?;
    }
  }

  /** Failures never escape `notify_all` and `notify_blog`: whatever the
      channels answer, the same deliveries are attempted, and a failure
      only shows in the logged count. */
  lemma FailuresAreSwallowed(s: Settings, r: FilteredRelease, a: FilteredBlogArticle, ts: TopicState,
                             ok: Delivery -> bool, bad: Delivery -> bool)
    requires forall d :: ok(d) && !bad(d)
    ensures NotifyAll(s, r, ts, ok).attempted == NotifyAll(s, r, ts, bad).attempted
    ensures NotifyAll(s, r, ts, ok).logged == 0 || (TelegramOn(s) && ts.cache == map[] && ts.file.Corrupt?)
    ensures NotifyAll(s, r, ts, bad).logged == |NotifyAll(s, r, ts, bad).attempted|
              + (if TelegramOn(s) && ts.cache == map[] && ts.file.Corrupt? then 1 else 0)
    ensures NotifyBlog(s, a, ts, ok).attempted == NotifyBlog(s, a, ts, bad).attempted
  {
    ReleaseFailuresSwallowed(s, r, ts, ok, bad);
    BlogFailuresSwallowed(s, a, ts, ok, bad);
  }

  lemma ReleaseFailuresSwallowed(s: Settings, r: FilteredRelease, ts: TopicState,
                                 ok: Delivery -> bool, bad: Delivery -> bool)
    requires forall d :: ok(d) && !bad(d)
    ensures NotifyAll(s, r, ts, ok).attempted == NotifyAll(s, r, ts, bad).attempted
    ensures NotifyAll(s, r, ts, ok).logged == 0 || (TelegramOn(s) && ts.cache == map[] && ts.file.Corrupt?)
    ensures NotifyAll(s, r, ts, bad).logged == |NotifyAll(s, r, ts, bad).attempted|
              + (if TelegramOn(s) && ts.cache == map[] && ts.file.Corrupt? then 1 else 0)
  {
  }

  lemma BlogFailuresSwallowed(s: Settings, a: FilteredBlogArticle, ts: TopicState,
                              ok: Delivery -> bool, bad: Delivery -> bool)
    requires forall d :: ok(d) && !bad(d)
    ensures NotifyBlog(s, a, ts, ok).attempted == NotifyBlog(s, a, ts, bad).attempted
  {
  }

  /** The digests look up their own threads, colour their cards blue and
      purple, and post to the release and the blog webhook respectively. */
  lemma DigestRouting(s: Settings, text: string, elements: seq<Feishu.Element>, m: map<string, int>,
                      accepted: Delivery -> bool)
    requires TelegramOn(s) && FeishuReleaseOn(s) && FeishuBlogOn(s)
    requires m != map[]
    ensures var r := NotifyDigest(s, false, text, elements, TopicState(m, Topics.Corrupt), accepted);
            && r.Ok?
            && r.value.attempted == [
                 TelegramPost(text, if "release_digest" in m then Some(m["release_digest"]) else None),
                 FeishuPost(s.feishuReleaseWebhookUrl, Feishu.Card("AI Daily Digest", "blue", elements))]
    ensures var r := NotifyDigest(s, true, text, elements, TopicState(m, Topics.Corrupt), accepted);
            && r.Ok?
            && r.value.attempted == [
                 TelegramPost(text, if "blog_digest" in m then Some(m["blog_digest"]) else None),
                 FeishuPost(s.feishuBlogWebhookUrl, DigestCard(true, elements))]
            && DigestCard(true, elements).template == "purple"
  {
    assert Topics.TopicKey("release", "digest") == "release_digest";
    assert Topics.TopicKey("blog", "digest") == "blog_digest";
  }

  /** The Telegram half of `notify_all`: a post is attempted exactly when
      Telegram is on and the topic lookup succeeds, and it is the formatted
      release under the `release_<importance>` thread the lookup found; it
      comes first, before any Feishu card. */
  lemma ReleaseTelegramPost(s: Settings, r: FilteredRelease, ts: TopicState, accepted: Delivery -> bool)
    ensures var f := NotifyAll(s, r, ts, accepted);
            (exists i :: 0 <= i < |f.attempted| && f.attempted[i].TelegramPost?) <==> TelegramOn(s) && !LookupFails(s, ts)
    ensures var f := NotifyAll(s, r, ts, accepted);
            var lookup := Topics.GetThreadId(ts.cache, ts.file, "release", ImportanceValue(r.importance));
            TelegramOn(s) && !LookupFails(s, ts) ==>
              lookup.Ok? && f.attempted[0] == TelegramPost(Telegram.FormatRelease(r), lookup.value.0)
  {
    var f := NotifyAll(s, r, ts, accepted);
    if TelegramOn(s) && !LookupFails(s, ts) {
      assert f.attempted[0].TelegramPost?;
    }
  }

  /** The Telegram half of `notify_blog`: the same, with the formatted
      article under the thread of the article's topic source. */
  lemma BlogTelegramPost(s: Settings, a: FilteredBlogArticle, ts: TopicState, accepted: Delivery -> bool)
    ensures var f := NotifyBlog(s, a, ts, accepted);
            (exists i :: 0 <= i < |f.attempted| && f.attempted[i].TelegramPost?) <==> TelegramOn(s) && !LookupFails(s, ts)
    ensures var f := NotifyBlog(s, a, ts, accepted);
            var lookup := Topics.GetThreadId(ts.cache, ts.file, Telegram.TopicSource(a.notifyAs), ImportanceValue(a.importance));
            TelegramOn(s) && !LookupFails(s, ts) ==>
              lookup.Ok? && f.attempted[0] == TelegramPost(Telegram.FormatBlogArticle(a), lookup.value.0)
  {
    var f := NotifyBlog(s, a, ts, accepted);
    if TelegramOn(s) && !LookupFails(s, ts) {
      assert f.attempted[0].TelegramPost?;
    }
  }

  /** Refusals of two groups of deliveries add up. */
  lemma {:induction false} RejectedAppend(a: seq<Delivery>, b: seq<Delivery>, accepted: Delivery -> bool)
    ensures Rejected(a + b, accepted) == Rejected(a, accepted) + Rejected(b, accepted)
  {
    if a == [] {
      assert a + b == b;
    } else {
      assert (a + b)[1..] == a[1..] + b;
      RejectedAppend(a[1..], b, accepted);
    }
  }

  /** The logged count is exact: one per delivery a channel refused, plus
      one when the Telegram topic lookup raised. */
  lemma LoggedCountsFailures(s: Settings, r: FilteredRelease, a: FilteredBlogArticle, ts: TopicState,
                             accepted: Delivery -> bool)
    ensures var f := NotifyAll(s, r, ts, accepted);
            f.logged == Rejected(f.attempted, accepted) + (if LookupFails(s, ts) then 1 else 0)
    ensures var f := NotifyBlog(s, a, ts, accepted);
            f.logged == Rejected(f.attempted, accepted) + (if LookupFails(s, ts) then 1 else 0)
  {
    ReleaseLogged(s, r, ts, accepted);
    BlogLogged(s, a, ts, accepted);
  }

  lemma ReleaseLogged(s: Settings, r: FilteredRelease, ts: TopicState, accepted: Delivery -> bool)
    ensures var f := NotifyAll(s, r, ts, accepted);
            f.logged == Rejected(f.attempted, accepted) + (if LookupFails(s, ts) then 1 else 0)
  {
    var tg := if TelegramOn(s)
              then TelegramTask(ts, "release", ImportanceValue(r.importance), Telegram.FormatRelease(r), accepted)
              else Nothing(ts.cache);
    var fs := if FeishuReleaseOn(s)
              then FeishuTask(Feishu.PostTarget(None, s.feishuReleaseWebhookUrl), Feishu.BuildCard(r), tg.cache, accepted)
              else Nothing(tg.cache);
    TaskLogged(tg, fs, s, ts, accepted);
  }

  lemma BlogLogged(s: Settings, a: FilteredBlogArticle, ts: TopicState, accepted: Delivery -> bool)
    ensures var f := NotifyBlog(s, a, ts, accepted);
            f.logged == Rejected(f.attempted, accepted) + (if LookupFails(s, ts) then 1 else 0)
  {
    var tg := if TelegramOn(s)
              then TelegramTask(ts, Telegram.TopicSource(a.notifyAs), ImportanceValue(a.importance),
                                Telegram.FormatBlogArticle(a), accepted)
              else Nothing(ts.cache);
    var hook := Feishu.PostTarget(Some(Feishu.BlogWebhook(a.notifyAs, s.feishuReleaseWebhookUrl, s.feishuBlogWebhookUrl)),
                                  s.feishuReleaseWebhookUrl);
    var fs := if FeishuBlogOn(s)
              then FeishuTask(hook, Feishu.BuildBlogCard(a), tg.cache, accepted)
              else Nothing(tg.cache);
    TaskLogged(tg, fs, s, ts, accepted);
  }

  /** One Telegram half and one Feishu half, each logging its refusals. */
  lemma TaskLogged(tg: Fanout, fs: Fanout, s: Settings, ts: TopicState, accepted: Delivery -> bool)
    requires tg.logged == Rejected(tg.attempted, accepted) + (if LookupFails(s, ts) then 1 else 0)
    requires fs.logged == Rejected(fs.attempted, accepted)
    ensures Then(tg, fs).logged == Rejected(Then(tg, fs).attempted, accepted) + (if LookupFails(s, ts) then 1 else 0)
  {
    RejectedAppend(tg.attempted, fs.attempted, accepted);
  }

  /** Only the Telegram half can make a digest raise: with Telegram off the
      digest fan-out always returns. */
  lemma DigestWithoutTelegramReturns(s: Settings, blog: bool, text: string, elements: seq<Feishu.Element>,
                                     ts: TopicState, accepted: Delivery -> bool)
    requires !TelegramOn(s)
    ensures NotifyDigest(s, blog, text, elements, ts, accepted).Ok?
    ensures NotifyDigest(s, blog, text, elements, ts, accepted).value.cache == ts.cache
  {
  }
}

=== FILE: pipeline.dfy ===
/** The scheduled jobs (src/ai_sub/scheduler.py) as state transitions over
    the two stores. A fetch cycle takes what the fetchers returned, and two
    oracles: the classifier's reply for each source id, and whether the
    notify call for an id returned or raised. The store clock is a single
    `now` per cycle. A cycle yields the new stores and the records it handed
    to the notifier, in order. */
module Pipeline {
  import opened Util
  import opened Models
  import opened Config
  import opened Sorting
  import Store
  import Filter
  import Sitemap
  import Digest
  import Notifier

  /** TIER_ALLOWED, with the t2 set for a tier it does not list. */
  function TierAllowed(tier: string): (allowed: set<Importance>)
    ensures High in allowed
    ensures Medium in allowed <==> tier == "t0" || tier == "t1"
    ensures Low in allowed <==> tier == "t0"
  {
    if tier == "t0" then {High, Medium, Low}
    else if tier == "t1" then {High, Medium}
    else {High}
  }

  /** The levels the blog, sitemap and RSS-as-release paths push. */
  const PushLevels: set<Importance> := {High, Medium}

  /** The release pipeline's allowed levels by vendor tier. */
  function VendorAllowed(s: Settings): string -> set<Importance>
  {
    (vendor: string) => TierAllowed(VendorTier(s, vendor))
  }

  function AlwaysPushLevels(): string -> set<Importance>
  {
    (vendor: string) => PushLevels
  }

  /** The outside answers a cycle runs against. */
  datatype Oracles = Oracles(reply: string -> Filter.Reply, returned: string -> bool)

  datatype Stores = Stores(releases: Store.ReleaseTable, blogs: Store.BlogTable)

  /** The stores after a cycle and the records handed to `notify_all` and
      `notify_blog`. */
  datatype Outcome = Outcome(stores: Stores, releases: seq<FilteredRelease>, blogs: seq<FilteredBlogArticle>)

  // ----------------------------------------------------------- releases

  function ReleaseIds(items: seq<ReleaseItem>): set<string>
  {
    set x | x in items :: x.sourceId
  }

  function ClassifyRelease(s: Settings, item: ReleaseItem, o: Oracles): (f: FilteredRelease)
    ensures f.sourceId == item.sourceId && f.vendor == item.vendor
  {
    Filter.ClassifyRelease(item, s.openaiApiKey != "", o.reply(item.sourceId))
  }

  function ClassifiedReleases(s: Settings, items: seq<ReleaseItem>, o: Oracles): (fs: seq<FilteredRelease>)
    ensures |fs| == |items|
    ensures forall i :: 0 <= i < |items| ==> fs[i] == ClassifyRelease(s, items[i], o)
  {
    seq(|items|, i requires 0 <= i < |items| => ClassifyRelease(s, items[i], o))
  }

  /** The condition guarding `notify_all`. */
  predicate ReleasePushed(f: FilteredRelease, allowed: string -> set<Importance>)
  {
    f.relevant && f.importance in allowed(f.vendor)
  }

  function ReleasePushedBy(allowed: string -> set<Importance>): FilteredRelease -> bool
  {
    (f: FilteredRelease) => ReleasePushed(f, allowed)
  }

  /** One iteration of a release loop: save, then notify and mark when the
      record is relevant and its level allowed. */
  function ReleaseStep(t: Store.ReleaseTable, f: FilteredRelease, allowed: string -> set<Importance>,
                       returned: bool, now: Instant): (r: (Store.ReleaseTable, seq<FilteredRelease>))
    ensures r.0.Keys == t.Keys + {f.sourceId}
    ensures forall k :: k in t && k != f.sourceId ==> r.0[k] == t[k]
    ensures var row := r.0[f.sourceId];
            && row.relevant == f.relevant && row.importance == f.importance
            && row.fetchedAt == now && row.digestedAt.None?
            && (row.notifiedAt.Some? <==> ReleasePushed(f, allowed) && returned)
    ensures r.1 == if ReleasePushed(f, allowed) then [f] else []
  {
    var saved := Store.SaveRelease(t, f, now);
    if !ReleasePushed(f, allowed) then (saved, [])
    else if returned then (Store.MarkNotified(saved, f.sourceId, now), [f])
    else (saved, [f])
  }

  /** The loop body run over the new items, in order. */
  function ReleaseLoop(s: Settings, t: Store.ReleaseTable, items: seq<ReleaseItem>, allowed: string -> set<Importance>,
                       o: Oracles, now: Instant): (r: (Store.ReleaseTable, seq<FilteredRelease>))
    decreases |items|
  {
    if |items| == 0 then (t, [])
    else
      var f := ClassifyRelease(s, items[0], o);
      var step := ReleaseStep(t, f, allowed, o.returned(f.sourceId), now);
      var rest := ReleaseLoop(s, step.0, items[1..], allowed, o, now);
      (rest.0, step.1 + rest.1)
  }

  /** The loop saves a row for every item and rewrites no other row. */
  lemma {:induction false} ReleaseLoopStore(s: Settings, t: Store.ReleaseTable, items: seq<ReleaseItem>,
                                            allowed: string -> set<Importance>, o: Oracles, now: Instant)
    ensures var r := ReleaseLoop(s, t, items, allowed, o, now).0;
            && r.Keys == t.Keys + ReleaseIds(items)
            && (forall k :: k in t && k !in ReleaseIds(items) ==> r[k] == t[k])
    decreases |items|
  {
    if |items| > 0 {
      var f := ClassifyRelease(s, items[0], o);
      var step := ReleaseStep(t, f, allowed, o.returned(f.sourceId), now);
      ReleaseLoopStore(s, step.0, items[1..], allowed, o, now);
      ReleaseIdsCons(items);
      assert ReleaseLoop(s, t, items, allowed, o, now).0 == ReleaseLoop(s, step.0, items[1..], allowed, o, now).0;
    }
  }

  /** The loop hands to the notifier exactly the classified records that
      pass the guard, in item order. */
  lemma {:induction false} ReleaseLoopPushed(s: Settings, t: Store.ReleaseTable, items: seq<ReleaseItem>,
                                             allowed: string -> set<Importance>, o: Oracles, now: Instant)
    ensures ReleaseLoop(s, t, items, allowed, o, now).1 == Keep(ClassifiedReleases(s, items, o), ReleasePushedBy(allowed))
    decreases |items|
  {
    if |items| > 0 {
      var f := ClassifyRelease(s, items[0], o);
      var step := ReleaseStep(t, f, allowed, o.returned(f.sourceId), now);
      ReleaseLoopPushed(s, step.0, items[1..], allowed, o, now);
      ReleaseLoopCons(s, items, allowed, o);
    }
  }

  lemma ClassifiedReleasesCons(s: Settings, items: seq<ReleaseItem>, o: Oracles)
    requires |items| > 0
    ensures ClassifiedReleases(s, items, o) == [ClassifyRelease(s, items[0], o)] + ClassifiedReleases(s, items[1..], o)
  {
    var fs, rest := ClassifiedReleases(s, items, o), ClassifiedReleases(s, items[1..], o);
    forall i | 0 <= i < |fs| ensures fs[i] == ([ClassifyRelease(s, items[0], o)] + rest)[i] {
      if i > 0 {
        assert items[1..][i - 1] == items[i];
      }
    }
  }

  lemma ReleaseLoopCons(s: Settings, items: seq<ReleaseItem>, allowed: string -> set<Importance>, o: Oracles)
    requires |items| > 0
    ensures Keep(ClassifiedReleases(s, items, o), ReleasePushedBy(allowed))
         == (if ReleasePushed(ClassifyRelease(s, items[0], o), allowed) then [ClassifyRelease(s, items[0], o)] else [])
            + Keep(ClassifiedReleases(s, items[1..], o), ReleasePushedBy(allowed))
  {
    var f := ClassifyRelease(s, items[0], o);
    var rest := ClassifiedReleases(s, items[1..], o);
    ClassifiedReleasesCons(s, items, o);
    KeepHead(f, rest, ReleasePushedBy(allowed));
    assert ReleasePushedBy(allowed)(f) == ReleasePushed(f, allowed);
  }

  lemma ReleaseIdsCons(items: seq<ReleaseItem>)
    requires |items| > 0
    ensures ReleaseIds(items) == {items[0].sourceId} + ReleaseIds(items[1..])
  {
    forall id | id in ReleaseIds(items)
      ensures id == items[0].sourceId || id in ReleaseIds(items[1..])
    {
      var x :| x in items && x.sourceId == id;
      var i :| 0 <= i < |items| && items[i] == x;
      if i > 0 {
        assert items[1..][i - 1] == x;
      }
    }
    forall id | id in ReleaseIds(items[1..])
      ensures id in ReleaseIds(items)
    {
      var x :| x in items[1..] && x.sourceId == id;
      assert x in items;
    }
    assert items[0] in items;
  }

  function UnseenRelease(t: Store.ReleaseTable): ReleaseItem -> bool
  {
    (x: ReleaseItem) => !Store.IsSeen(t, x.sourceId)
  }

  /** The seen-gate and the loop: `[x for x in items if not is_seen(x)]`
      against the store as it was before the loop. */
  function ReleasePath(s: Settings, t: Store.ReleaseTable, items: seq<ReleaseItem>, allowed: string -> set<Importance>,
                       o: Oracles, now: Instant): (r: (Store.ReleaseTable, seq<FilteredRelease>))
    ensures r == ReleaseLoop(s, t, Keep(items, UnseenRelease(t)), allowed, o, now)
  {
    ReleaseLoop(s, t, Keep(items, UnseenRelease(t)), allowed, o, now)
  }

  // -------------------------------------------------------------- blogs

  function BlogIds(articles: seq<BlogArticle>): set<string>
  {
    set a | a in articles :: a.sourceId
  }

  function ClassifyBlog(s: Settings, a: BlogArticle, o: Oracles): (f: FilteredBlogArticle)
    ensures f.sourceId == a.sourceId && f.notifyAs == a.notifyAs
  {
    Filter.ClassifyBlog(a, s.openaiApiKey != "", o.reply(a.sourceId))
  }

  function ClassifiedBlogs(s: Settings, articles: seq<BlogArticle>, o: Oracles): (fs: seq<FilteredBlogArticle>)
    ensures |fs| == |articles|
    ensures forall i :: 0 <= i < |articles| ==> fs[i] == ClassifyBlog(s, articles[i], o)
  {
    seq(|articles|, i requires 0 <= i < |articles| => ClassifyBlog(s, articles[i], o))
  }

  /** The condition guarding `notify_blog`. */
  predicate BlogPushed(f: FilteredBlogArticle)
  {
    f.relevant && f.importance in PushLevels
  }

  function BlogStep(t: Store.BlogTable, f: FilteredBlogArticle, returned: bool, now: Instant)
    : (r: (Store.BlogTable, seq<FilteredBlogArticle>))
    ensures r.0.Keys == t.Keys + {f.sourceId}
    ensures forall k :: k in t && k != f.sourceId ==> r.0[k] == t[k]
    ensures var row := r.0[f.sourceId];
            && row.relevant == f.relevant && row.importance == f.importance && row.cols.notifyAs == f.notifyAs
            && row.fetchedAt == now && row.digestedAt.None?
            && (row.notifiedAt.Some? <==> BlogPushed(f) && returned)
    ensures r.1 == if BlogPushed(f) then [f] else []
  {
    var saved := Store.SaveBlogArticle(t, f, now);
    if !BlogPushed(f) then (saved, [])
    else if returned then (Store.MarkNotified(saved, f.sourceId, now), [f])
    else (saved, [f])
  }

  function BlogLoop(s: Settings, t: Store.BlogTable, articles: seq<BlogArticle>, o: Oracles, now: Instant)
    : (r: (Store.BlogTable, seq<FilteredBlogArticle>))
    decreases |articles|
  {
    if |articles| == 0 then (t, [])
    else
      var f := ClassifyBlog(s, articles[0], o);
      var step := BlogStep(t, f, o.returned(f.sourceId), now);
      var rest := BlogLoop(s, step.0, articles[1..], o, now);
      (rest.0, step.1 + rest.1)
  }

  lemma {:induction false} BlogLoopStore(s: Settings, t: Store.BlogTable, articles: seq<BlogArticle>,
                                         o: Oracles, now: Instant)
    ensures var r := BlogLoop(s, t, articles, o, now).0;
            && r.Keys == t.Keys + BlogIds(articles)
            && (forall k :: k in t && k !in BlogIds(articles) ==> r[k] == t[k])
    decreases |articles|
  {
    if |articles| > 0 {
      var f := ClassifyBlog(s, articles[0], o);
      var step := BlogStep(t, f, o.returned(f.sourceId), now);
      BlogLoopStore(s, step.0, articles[1..], o, now);
      BlogIdsCons(articles);
      assert BlogLoop(s, t, articles, o, now).0 == BlogLoop(s, step.0, articles[1..], o, now).0;
    }
  }

  lemma {:induction false} BlogLoopPushed(s: Settings, t: Store.BlogTable, articles: seq<BlogArticle>,
                                          o: Oracles, now: Instant)
    ensures BlogLoop(s, t, articles, o, now).1 == Keep(ClassifiedBlogs(s, articles, o), BlogPushed)
    decreases |articles|
  {
    if |articles| > 0 {
      var f := ClassifyBlog(s, articles[0], o);
      var step := BlogStep(t, f, o.returned(f.sourceId), now);
      BlogLoopPushed(s, step.0, articles[1..], o, now);
      BlogLoopCons(s, articles, o);
    }
  }

  lemma ClassifiedBlogsCons(s: Settings, articles: seq<BlogArticle>, o: Oracles)
    requires |articles| > 0
    ensures ClassifiedBlogs(s, articles, o) == [ClassifyBlog(s, articles[0], o)] + ClassifiedBlogs(s, articles[1..], o)
  {
    var fs, rest := ClassifiedBlogs(s, articles, o), ClassifiedBlogs(s, articles[1..], o);
    forall i | 0 <= i < |fs| ensures fs[i] == ([ClassifyBlog(s, articles[0], o)] + rest)[i] {
      if i > 0 {
        assert articles[1..][i - 1] == articles[i];
      }
    }
  }

  lemma BlogLoopCons(s: Settings, articles: seq<BlogArticle>, o: Oracles)
    requires |articles| > 0
    ensures Keep(ClassifiedBlogs(s, articles, o), BlogPushed)
         == (if BlogPushed(ClassifyBlog(s, articles[0], o)) then [ClassifyBlog(s, articles[0], o)] else [])
            + Keep(ClassifiedBlogs(s, articles[1..], o), BlogPushed)
  {
    var f := ClassifyBlog(s, articles[0], o);
    var rest := ClassifiedBlogs(s, articles[1..], o);
    ClassifiedBlogsCons(s, articles, o);
    KeepHead(f, rest, BlogPushed);
  }

  lemma BlogIdsCons(articles: seq<BlogArticle>)
    requires |articles| > 0
    ensures BlogIds(articles) == {articles[0].sourceId} + BlogIds(articles[1..])
  {
    forall id | id in BlogIds(articles)
      ensures id == articles[0].sourceId || id in BlogIds(articles[1..])
    {
      var x :| x in articles && x.sourceId == id;
      var i :| 0 <= i < |articles| && articles[i] == x;
      if i > 0 {
        assert articles[1..][i - 1] == x;
      }
    }
    forall id | id in BlogIds(articles[1..])
      ensures id in BlogIds(articles)
    {
      var x :| x in articles[1..] && x.sourceId == id;
      assert x in articles;
    }
    assert articles[0] in articles;
  }

  function UnseenBlog(t: Store.BlogTable): BlogArticle -> bool
  {
    (a: BlogArticle) => !Store.IsSeen(t, a.sourceId)
  }

  function BlogPath(s: Settings, t: Store.BlogTable, articles: seq<BlogArticle>, o: Oracles, now: Instant)
    : (r: (Store.BlogTable, seq<FilteredBlogArticle>))
    ensures r == BlogLoop(s, t, Keep(articles, UnseenBlog(t)), o, now)
  {
    BlogLoop(s, t, Keep(articles, UnseenBlog(t)), o, now)
  }

  // ------------------------------------------------------------- cycles

  /** The release record an article routed as a release becomes. */
  function ReleaseItemOf(a: BlogArticle): (item: ReleaseItem)
    ensures item.sourceId == a.sourceId && item.vendor == a.blogName && item.product == a.blogName
    ensures item.title == a.title && item.url == a.url && item.summary == a.summary && item.version.None?
  {
    ReleaseItem(a.sourceId, a.blogName, a.blogName, a.title, None, a.url, a.summary, a.publishedDate, a.content)
  }

  function ReleaseItemsOf(articles: seq<BlogArticle>): (items: seq<ReleaseItem>)
    ensures |items| == |articles|
    ensures forall i :: 0 <= i < |articles| ==> items[i] == ReleaseItemOf(articles[i])
  {
    seq(|articles|, i requires 0 <= i < |articles| => ReleaseItemOf(articles[i]))
  }

  predicate RoutedAsRelease(a: BlogArticle)
  {
    a.notifyAs == "release"
  }

  predicate RoutedAsBlog(a: BlogArticle)
  {
    a.notifyAs != "release"
  }

  /** `fetch_and_notify`: the fetched items of every vendor through the
      release path, allowed levels by vendor tier. */
  function FetchAndNotify(s: Settings, st: Stores, fetched: seq<ReleaseItem>, o: Oracles, now: Instant): (r: Outcome)
    ensures r.stores.blogs == st.blogs && r.blogs == []
    ensures r.stores.releases.Keys == st.releases.Keys + ReleaseIds(fetched)
    ensures forall k :: k in st.releases ==> r.stores.releases[k] == st.releases[k]
  {
    var path := ReleasePath(s, st.releases, fetched, VendorAllowed(s), o, now);
    ReleasePathKeeps(s, st.releases, fetched, VendorAllowed(s), o, now);
    Outcome(Stores(path.0, st.blogs), path.1, [])
  }

  /** `fetch_and_notify_blogs`: nothing when blogs are off; otherwise the
      articles routed as blogs go through the blog store and the ones routed
      as releases through the release store, as releases of the blog. */
  function FetchAndNotifyBlogs(s: Settings, st: Stores, fetched: seq<BlogArticle>, o: Oracles, now: Instant)
    : (r: Outcome)
    ensures !s.blogEnabled ==> r == Outcome(st, [], [])
  {
    if !s.blogEnabled then Outcome(st, [], [])
    else
      var (b, pushedBlogs) := BlogPath(s, st.blogs, Keep(fetched, RoutedAsBlog), o, now);
      var (t, pushedReleases) := ReleasePath(s, st.releases, ReleaseItemsOf(Keep(fetched, RoutedAsRelease)),
                                             AlwaysPushLevels(), o, now);
      Outcome(Stores(t, b), pushedReleases, pushedBlogs)
  }

  /** `fetch_and_notify_sitemap`: `fetched` is None when fetching raised,
      which leaves both stores alone; otherwise the source's routing picks
      one store for all its articles. */
  function FetchAndNotifySitemap(s: Settings, st: Stores, src: Sitemap.SitemapSource,
                                 fetched: Option<seq<BlogArticle>>, o: Oracles, now: Instant): (r: Outcome)
    ensures !s.sitemapEnabled || fetched.None? ==> r == Outcome(st, [], [])
    ensures src.notifyAs == "release" ==> r.stores.blogs == st.blogs && r.blogs == []
    ensures src.notifyAs != "release" ==> r.stores.releases == st.releases && r.releases == []
  {
    if !s.sitemapEnabled || fetched.None? then Outcome(st, [], [])
    else if src.notifyAs == "release" then
      var (t, pushed) := ReleasePath(s, st.releases, ReleaseItemsOf(fetched.value), AlwaysPushLevels(), o, now);
      Outcome(Stores(t, st.blogs), pushed, [])
    else
      var (b, pushed) := BlogPath(s, st.blogs, fetched.value, o, now);
      Outcome(Stores(st.releases, b), [], pushed)
  }

  // ------------------------------------------------------------ digests

  datatype DigestRun<C> = DigestRun(table: Store.Table<C>, sent: Option<Notifier.Fanout>)

  function RowIds<C>(rows: seq<(string, Store.Row<C>)>): (ids: seq<string>)
    ensures |ids| == |rows|
    ensures forall i :: 0 <= i < |rows| ==> ids[i] == rows[i].0
  {
    seq(|rows|, i requires 0 <= i < |rows| => rows[i].0)
  }

  /** A stored release as the digest reads it. */
  function ReleaseEntry(row: (string, Store.Row<Store.ReleaseCols>)): (e: Digest.Entry)
    ensures Digest.Valid(e)
  {
    Digest.Entry(row.1.cols.vendor, Some(ImportanceValue(row.1.importance)), row.1.cols.titleZh,
                 row.1.cols.title, row.1.cols.url)
  }

  /** A stored blog article as the digest reads it. */
  function BlogEntry(row: (string, Store.Row<Store.BlogCols>)): (e: Digest.Entry)
    ensures Digest.Valid(e)
  {
    Digest.Entry(row.1.cols.blogName, Some(ImportanceValue(row.1.importance)), row.1.cols.titleZh,
                 row.1.cols.title, row.1.cols.url)
  }

  function Entries<C>(rows: seq<(string, Store.Row<C>)>, entry: ((string, Store.Row<C>)) -> Digest.Entry)
    : (es: seq<Digest.Entry>)
    ensures |es| == |rows|
    ensures forall i :: 0 <= i < |rows| ==> es[i] == entry(rows[i])
  {
    seq(|rows|, i requires 0 <= i < |rows| => entry(rows[i]))
  }

  /** The body of `daily_digest` (blog false) and `daily_blog_digest` (blog
      true) after the query: nothing when no row is listed; otherwise build
      both digests, send them, and only then stamp every listed id. An
      exception while building or sending leaves the table as it was. */
  function DigestJob<C>(s: Settings, blog: bool, t: Store.Table<C>, rows: seq<(string, Store.Row<C>)>,
                        entry: ((string, Store.Row<C>)) -> Digest.Entry, ts: Notifier.TopicState,
                        accepted: Notifier.Delivery -> bool, now: Instant): (r: Result<DigestRun<C>>)
    ensures |rows| == 0 ==> r == Ok(DigestRun(t, None))
    ensures |rows| > 0 && r.Ok? ==> r.value.sent.Some? && r.value.table == Store.MarkDigested(t, RowIds(rows), now)
    ensures (forall i :: 0 <= i < |rows| ==> Digest.Valid(entry(rows[i]))) ==>
              (r.Err? <==> |rows| > 0 && Notifier.TelegramOn(s) && ts.cache == map[] && ts.file.Corrupt?)
  {
    if |rows| == 0 then Ok(DigestRun(t, None))
    else
      var kind := if blog then Digest.Blogs else Digest.Releases;
      var entries := Entries(rows, entry);
      match Digest.TelegramDigest(kind, entries)
      case Err(e) => Err(e)
      case Ok(text) =>
        match Digest.FeishuDigest(kind, entries)
        case Err(e) => Err(e)
        case Ok(elements) =>
          match Notifier.NotifyDigest(s, blog, text, elements, ts, accepted)
          case Err(e) => Err(e)
          case Ok(f) => Ok(DigestRun(Store.MarkDigested(t, RowIds(rows), now), Some(f)))
  }

  /** `daily_digest`: the rows of the last 24 hours through the digest job. */
  method DailyDigest(s: Settings, t: Store.ReleaseTable, ts: Notifier.TopicState,
                     accepted: Notifier.Delivery -> bool, now: Instant)
    returns (r: Result<DigestRun<Store.ReleaseCols>>)
    ensures r.Err? <==> (exists k :: k in t && Store.Undigested(t[k], Store.WindowStart(now, 24)))
                        && Notifier.TelegramOn(s) && ts.cache == map[] && ts.file.Corrupt?
    ensures r.Ok? ==> r.value.table.Keys == t.Keys
    ensures r.Ok? ==> forall k :: k in t ==> !Store.Undigested(r.value.table[k], Store.WindowStart(now, 24))
    ensures r.Ok? ==> forall k :: k in t && !Store.Undigested(t[k], Store.WindowStart(now, 24)) ==> r.value.table[k] == t[k]
  {
    var rows := Store.GetUndigested(t, 24, now);
    r := DigestJob(s, false, t, rows, ReleaseEntry, ts, accepted, now);
    DigestClears(t, rows, ReleaseEntry, s, false, ts, accepted, now);
  }

  /** `daily_blog_digest`: the same over the blog store, when blogs are on. */
  method DailyBlogDigest(s: Settings, t: Store.BlogTable, ts: Notifier.TopicState,
                         accepted: Notifier.Delivery -> bool, now: Instant)
    returns (r: Result<DigestRun<Store.BlogCols>>)
    ensures !s.blogEnabled ==> r == Ok(DigestRun(t, None))
    ensures r.Err? <==> s.blogEnabled && (exists k :: k in t && Store.Undigested(t[k], Store.WindowStart(now, 24)))
                        && Notifier.TelegramOn(s) && ts.cache == map[] && ts.file.Corrupt?
    ensures r.Ok? ==> r.value.table.Keys == t.Keys
    ensures r.Ok? && s.blogEnabled ==> forall k :: k in t ==> !Store.Undigested(r.value.table[k], Store.WindowStart(now, 24))
    ensures r.Ok? ==> forall k :: k in t && !Store.Undigested(t[k], Store.WindowStart(now, 24)) ==> r.value.table[k] == t[k]
  {
    if !s.blogEnabled {
      return Ok(DigestRun(t, None));
    }
    var rows := Store.GetUndigested(t, 24, now);
    r := DigestJob(s, true, t, rows, BlogEntry, ts, accepted, now);
    DigestClears(t, rows, BlogEntry, s, true, ts, accepted, now);
  }

  /** With the rows the query returns, a digest that goes through leaves no
      row of the window undigested, and it fails only on the topic lookup. */
  lemma DigestClears<C>(t: Store.Table<C>, rows: seq<(string, Store.Row<C>)>,
                        entry: ((string, Store.Row<C>)) -> Digest.Entry, s: Settings, blog: bool,
                        ts: Notifier.TopicState, accepted: Notifier.Delivery -> bool, now: Instant)
    requires forall i :: 0 <= i < |rows| ==> Digest.Valid(entry(rows[i]))
    requires forall i :: 0 <= i < |rows| ==> rows[i].0 in t && t[rows[i].0] == rows[i].1
                                             && Store.Undigested(rows[i].1, Store.WindowStart(now, 24))
    requires forall k :: k in t && Store.Undigested(t[k], Store.WindowStart(now, 24)) ==>
               exists i :: 0 <= i < |rows| && rows[i].0 == k
    ensures var r := DigestJob(s, blog, t, rows, entry, ts, accepted, now);
            && (r.Err? <==> (exists k :: k in t && Store.Undigested(t[k], Store.WindowStart(now, 24)))
                            && Notifier.TelegramOn(s) && ts.cache == map[] && ts.file.Corrupt?)
            && (r.Ok? ==> r.value.table.Keys == t.Keys)
            && (r.Ok? ==> forall k :: k in t ==> !Store.Undigested(r.value.table[k], Store.WindowStart(now, 24)))
  {
    var r := DigestJob(s, blog, t, rows, entry, ts, accepted, now);
    var w := Store.WindowStart(now, 24);
    if |rows| > 0 {
      assert rows[0].0 in t && Store.Undigested(t[rows[0].0], w);
    }
    if r.Ok? && |rows| > 0 {
      var ids := RowIds(rows);
      forall k | k in t ensures !Store.Undigested(r.value.table[k], w) {
        if Store.Undigested(t[k], w) {
          var i :| 0 <= i < |rows| && rows[i].0 == k;
          assert ids[i] == k;
        }
      }
    }
  }

  // ------------------------------------------------------------ cleanup

  datatype Cleaned = Cleaned(stores: Stores, releasesDeleted: nat, blogsDeleted: nat)

  /** `weekly_cleanup`: a 30-day purge of the release store, and of the blog
      store only when blogs are on. */
  function WeeklyCleanup(s: Settings, st: Stores, now: Instant): (r: Cleaned)
    ensures forall k :: k in r.stores.releases <==> k in st.releases && Store.NotBefore(st.releases[k].fetchedAt, now - 30 * 86400)
    ensures forall k :: k in r.stores.releases ==> r.stores.releases[k] == st.releases[k]
    ensures r.releasesDeleted == |st.releases| - |r.stores.releases|
    ensures !s.blogEnabled ==> r.stores.blogs == st.blogs && r.blogsDeleted == 0
    ensures s.blogEnabled ==> forall k :: k in r.stores.blogs <==> k in st.blogs && Store.NotBefore(st.blogs[k].fetchedAt, now - 30 * 86400)
    ensures forall k :: k in r.stores.blogs ==> r.stores.blogs[k] == st.blogs[k]
    ensures s.blogEnabled ==> r.blogsDeleted == |st.blogs| - |r.stores.blogs|
  {
    var (releases, n) := Store.CleanupOld(st.releases, 30, now);
    if s.blogEnabled then
      var (blogs, m) := Store.CleanupOld(st.blogs, 30, now);
      Cleaned(Stores(releases, blogs), n, m)
    else Cleaned(Stores(releases, st.blogs), n, 0)
  }

  // ---------------------------------------------------------- properties

  /** The release path never touches a row that was already stored, and
      every item ends up stored, seen before or saved now. */
  lemma ReleasePathKeeps(s: Settings, t: Store.ReleaseTable, items: seq<ReleaseItem>,
                         allowed: string -> set<Importance>, o: Oracles, now: Instant)
    ensures var r := ReleasePath(s, t, items, allowed, o, now);
            && r.0.Keys == t.Keys + ReleaseIds(items)
            && (forall k :: k in t ==> r.0[k] == t[k])
  {
    var unseen := Keep(items, UnseenRelease(t));
    ReleaseLoopStore(s, t, unseen, allowed, o, now);
    UnseenReleaseIds(t, items);
  }

  /** The seen-gate drops exactly the ids already stored. */
  lemma UnseenReleaseIds(t: Store.ReleaseTable, items: seq<ReleaseItem>)
    ensures var unseen := Keep(items, UnseenRelease(t));
            && (forall k :: k in ReleaseIds(unseen) ==> k !in t)
            && t.Keys + ReleaseIds(unseen) == t.Keys + ReleaseIds(items)
  {
    var unseen := Keep(items, UnseenRelease(t));
    KeepMembers(items, UnseenRelease(t));
    assert forall k :: k in ReleaseIds(unseen) ==> k !in t by {
      forall k | k in ReleaseIds(unseen) ensures k !in t {
        var x :| x in unseen && x.sourceId == k;
        var i :| 0 <= i < |unseen| && unseen[i] == x;
        assert UnseenRelease(t)(unseen[i]);
      }
    }
    assert t.Keys + ReleaseIds(unseen) == t.Keys + ReleaseIds(items) by {
      forall k | k in ReleaseIds(items) && k !in t ensures k in ReleaseIds(unseen) {
        var x :| x in items && x.sourceId == k;
        var i :| 0 <= i < |items| && items[i] == x;
        assert UnseenRelease(t)(items[i]);
        assert x in unseen;
      }
    }
  }

  /** The blog path likewise. */
  lemma BlogPathKeeps(s: Settings, t: Store.BlogTable, articles: seq<BlogArticle>, o: Oracles, now: Instant)
    ensures var r := BlogPath(s, t, articles, o, now);
            && r.0.Keys == t.Keys + BlogIds(articles)
            && (forall k :: k in t ==> r.0[k] == t[k])
  {
    var unseen := Keep(articles, UnseenBlog(t));
    BlogLoopStore(s, t, unseen, o, now);
    UnseenBlogIds(t, articles);
  }

  lemma UnseenBlogIds(t: Store.BlogTable, articles: seq<BlogArticle>)
    ensures var unseen := Keep(articles, UnseenBlog(t));
            && (forall k :: k in BlogIds(unseen) ==> k !in t)
            && t.Keys + BlogIds(unseen) == t.Keys + BlogIds(articles)
  {
    var unseen := Keep(articles, UnseenBlog(t));
    KeepMembers(articles, UnseenBlog(t));
    assert forall k :: k in BlogIds(unseen) ==> k !in t by {
      forall k | k in BlogIds(unseen) ensures k !in t {
        var x :| x in unseen && x.sourceId == k;
        var i :| 0 <= i < |unseen| && unseen[i] == x;
        assert UnseenBlog(t)(unseen[i]);
      }
    }
    assert t.Keys + BlogIds(unseen) == t.Keys + BlogIds(articles) by {
      forall k | k in BlogIds(articles) && k !in t ensures k in BlogIds(unseen) {
        var x :| x in articles && x.sourceId == k;
        var i :| 0 <= i < |articles| && articles[i] == x;
        assert UnseenBlog(t)(articles[i]);
        assert x in unseen;
      }
    }
  }

  /** A row freshly saved by this cycle with the given verdict, stamped
      notified exactly when `notified`. */
  predicate RowRecords<C>(row: Store.Row<C>, relevant: bool, importance: Importance, notified: bool, now: Instant)
  {
    && row.relevant == relevant && row.importance == importance
    && row.fetchedAt == now && row.digestedAt.None?
    && (row.notifiedAt.Some? <==> notified)
  }

  /** With distinct ids, each processed item's row holds its verdict, was
      saved now, is not digested, and is stamped notified exactly when it
      was relevant, its level allowed and the notify call returned. */
  lemma {:induction false} ReleaseLoopRow(s: Settings, t: Store.ReleaseTable, items: seq<ReleaseItem>,
                                          allowed: string -> set<Importance>, o: Oracles, now: Instant, i: int)
    requires forall a, b :: 0 <= a < b < |items| ==> items[a].sourceId != items[b].sourceId
    requires 0 <= i < |items|
    ensures var f := ClassifyRelease(s, items[i], o);
            var r := ReleaseLoop(s, t, items, allowed, o, now).0;
            f.sourceId in r
            && RowRecords(r[f.sourceId], f.relevant, f.importance, ReleasePushed(f, allowed) && o.returned(f.sourceId), now)
    decreases |items|
  {
    var f := ClassifyRelease(s, items[0], o);
    var step := ReleaseStep(t, f, allowed, o.returned(f.sourceId), now);
    if i == 0 {
      assert items[0].sourceId !in ReleaseIds(items[1..]) by {
        forall x | x in items[1..] ensures x.sourceId != items[0].sourceId {
          var j :| 0 <= j < |items[1..]| && items[1..][j] == x;
          assert items[j + 1] == x;
        }
      }
      ReleaseLoopHead(s, t, items, allowed, o, now);
    } else {
      assert items[1..][i - 1] == items[i];
      ReleaseLoopRow(s, step.0, items[1..], allowed, o, now, i - 1);
    }
  }

  /** The head item's row is the one its own step saved: later steps touch
      only their own ids. */
  lemma ReleaseLoopHead(s: Settings, t: Store.ReleaseTable, items: seq<ReleaseItem>,
                        allowed: string -> set<Importance>, o: Oracles, now: Instant)
    requires |items| > 0 && items[0].sourceId !in ReleaseIds(items[1..])
    ensures var f := ClassifyRelease(s, items[0], o);
            var step := ReleaseStep(t, f, allowed, o.returned(f.sourceId), now).0;
            var r := ReleaseLoop(s, t, items, allowed, o, now).0;
            f.sourceId in r && r[f.sourceId] == step[f.sourceId]
  {
    var f := ClassifyRelease(s, items[0], o);
    var step := ReleaseStep(t, f, allowed, o.returned(f.sourceId), now);
    ReleaseLoopStore(s, step.0, items[1..], allowed, o, now);
  }

  lemma {:induction false} BlogLoopRow(s: Settings, t: Store.BlogTable, articles: seq<BlogArticle>,
                                       o: Oracles, now: Instant, i: int)
    requires forall a, b :: 0 <= a < b < |articles| ==> articles[a].sourceId != articles[b].sourceId
    requires 0 <= i < |articles|
    ensures var f := ClassifyBlog(s, articles[i], o);
            var r := BlogLoop(s, t, articles, o, now).0;
            f.sourceId in r
            && RowRecords(r[f.sourceId], f.relevant, f.importance, BlogPushed(f) && o.returned(f.sourceId), now)
            && r[f.sourceId].cols.notifyAs == f.notifyAs
    decreases |articles|
  {
    var f := ClassifyBlog(s, articles[0], o);
    var step := BlogStep(t, f, o.returned(f.sourceId), now);
    if i == 0 {
      assert articles[0].sourceId !in BlogIds(articles[1..]) by {
        forall x | x in articles[1..] ensures x.sourceId != articles[0].sourceId {
          var j :| 0 <= j < |articles[1..]| && articles[1..][j] == x;
          assert articles[j + 1] == x;
        }
      }
      BlogLoopHead(s, t, articles, o, now);
    } else {
      assert articles[1..][i - 1] == articles[i];
      BlogLoopRow(s, step.0, articles[1..], o, now, i - 1);
    }
  }

  lemma BlogLoopHead(s: Settings, t: Store.BlogTable, articles: seq<BlogArticle>, o: Oracles, now: Instant)
    requires |articles| > 0 && articles[0].sourceId !in BlogIds(articles[1..])
    ensures var f := ClassifyBlog(s, articles[0], o);
            var step := BlogStep(t, f, o.returned(f.sourceId), now).0;
            var r := BlogLoop(s, t, articles, o, now).0;
            f.sourceId in r && r[f.sourceId] == step[f.sourceId]
  {
    var f := ClassifyBlog(s, articles[0], o);
    var step := BlogStep(t, f, o.returned(f.sourceId), now);
    BlogLoopStore(s, step.0, articles[1..], o, now);
  }

  /** Every record the release path pushes passed the guard and was not
      in the store before: a seen release is never announced again. */
  lemma ReleasePathPushes(s: Settings, t: Store.ReleaseTable, items: seq<ReleaseItem>,
                          allowed: string -> set<Importance>, o: Oracles, now: Instant)
    ensures var pushed := ReleasePath(s, t, items, allowed, o, now).1;
            forall i :: 0 <= i < |pushed| ==> ReleasePushed(pushed[i], allowed) && pushed[i].sourceId !in t
  {
    var unseen := Keep(items, UnseenRelease(t));
    KeepMembers(items, UnseenRelease(t));
    ReleaseLoopPushed(s, t, unseen, allowed, o, now);
    assert ReleasePath(s, t, items, allowed, o, now).1 == Keep(ClassifiedReleases(s, unseen, o), ReleasePushedBy(allowed));
    UnseenReleasesPushed(s, t, unseen, allowed, o);
  }

  lemma UnseenReleasesPushed(s: Settings, t: Store.ReleaseTable, unseen: seq<ReleaseItem>,
                             allowed: string -> set<Importance>, o: Oracles)
    requires forall i :: 0 <= i < |unseen| ==> UnseenRelease(t)(unseen[i])
    ensures var pushed := Keep(ClassifiedReleases(s, unseen, o), ReleasePushedBy(allowed));
            forall i :: 0 <= i < |pushed| ==> ReleasePushed(pushed[i], allowed) && pushed[i].sourceId !in t
  {
    var fs := ClassifiedReleases(s, unseen, o);
    var pushed := Keep(fs, ReleasePushedBy(allowed));
    KeepMembers(fs, ReleasePushedBy(allowed));
    forall i | 0 <= i < |pushed| ensures ReleasePushed(pushed[i], allowed) && pushed[i].sourceId !in t {
      assert ReleasePushedBy(allowed)(pushed[i]);
      var j :| 0 <= j < |fs| && fs[j] == pushed[i];
      assert UnseenRelease(t)(unseen[j]);
    }
  }

  /** The blog path likewise. */
  lemma BlogPathPushes(s: Settings, t: Store.BlogTable, articles: seq<BlogArticle>, o: Oracles, now: Instant)
    ensures var pushed := BlogPath(s, t, articles, o, now).1;
            forall i :: 0 <= i < |pushed| ==> BlogPushed(pushed[i]) && pushed[i].sourceId !in t
  {
    var unseen := Keep(articles, UnseenBlog(t));
    KeepMembers(articles, UnseenBlog(t));
    BlogLoopPushed(s, t, unseen, o, now);
    assert BlogPath(s, t, articles, o, now).1 == Keep(ClassifiedBlogs(s, unseen, o), BlogPushed);
    UnseenBlogsPushed(s, t, unseen, o);
  }

  lemma UnseenBlogsPushed(s: Settings, t: Store.BlogTable, unseen: seq<BlogArticle>, o: Oracles)
    requires forall i :: 0 <= i < |unseen| ==> UnseenBlog(t)(unseen[i])
    ensures var pushed := Keep(ClassifiedBlogs(s, unseen, o), BlogPushed);
            forall i :: 0 <= i < |pushed| ==> BlogPushed(pushed[i]) && pushed[i].sourceId !in t
  {
    var fs := ClassifiedBlogs(s, unseen, o);
    var pushed := Keep(fs, BlogPushed);
    KeepMembers(fs, BlogPushed);
    forall i | 0 <= i < |pushed| ensures BlogPushed(pushed[i]) && pushed[i].sourceId !in t {
      var j :| 0 <= j < |fs| && fs[j] == pushed[i];
      assert UnseenBlog(t)(unseen[j]);
    }
  }

  /** Every record is relevant and at a level its vendor's tier allows; a
      vendor in neither the t0 nor the t1 list gets only HIGH records. */
  predicate PushedByTier(s: Settings, pushed: seq<FilteredRelease>)
  {
    forall i :: 0 <= i < |pushed| ==>
      && pushed[i].relevant && pushed[i].importance in TierAllowed(VendorTier(s, pushed[i].vendor))
      && (pushed[i].vendor !in s.vendorsT0 && pushed[i].vendor !in s.vendorsT1 ==> pushed[i].importance == High)
  }

  /** What the release fetch hands to `notify_all` respects the tiers. */
  lemma FetchPushesByTier(s: Settings, st: Stores, fetched: seq<ReleaseItem>, o: Oracles, now: Instant)
    ensures PushedByTier(s, FetchAndNotify(s, st, fetched, o, now).releases)
  {
    var pushed := ReleasePath(s, st.releases, fetched, VendorAllowed(s), o, now).1;
    ReleasePathPushes(s, st.releases, fetched, VendorAllowed(s), o, now);
    AllByTier(s, pushed);
    FetchPushesPath(s, st, fetched, o, now);
  }

  lemma FetchPushesPath(s: Settings, st: Stores, fetched: seq<ReleaseItem>, o: Oracles, now: Instant)
    ensures FetchAndNotify(s, st, fetched, o, now).releases == ReleasePath(s, st.releases, fetched, VendorAllowed(s), o, now).1
  {
  }

  lemma AllByTier(s: Settings, pushed: seq<FilteredRelease>)
    requires forall i :: 0 <= i < |pushed| ==> ReleasePushed(pushed[i], VendorAllowed(s))
    ensures PushedByTier(s, pushed)
  {
    forall i | 0 <= i < |pushed|
      ensures && pushed[i].relevant && pushed[i].importance in TierAllowed(VendorTier(s, pushed[i].vendor))
              && (pushed[i].vendor !in s.vendorsT0 && pushed[i].vendor !in s.vendorsT1 ==> pushed[i].importance == High)
    {
      TierGuard(s, pushed[i]);
    }
  }

  /** The guard `VendorAllowed` applies is the vendor's tier; a vendor in
      neither list gets only high-importance pushes. */
  lemma TierGuard(s: Settings, f: FilteredRelease)
    ensures ReleasePushed(f, VendorAllowed(s)) <==> f.relevant && f.importance in TierAllowed(VendorTier(s, f.vendor))
    ensures ReleasePushed(f, VendorAllowed(s)) && f.vendor !in s.vendorsT0 && f.vendor !in s.vendorsT1
            ==> f.importance == High
  {
    VendorAllowedAt(s, f.vendor);
    if f.importance in TierAllowed(VendorTier(s, f.vendor)) {
      UnlistedHighOnly(s, f.vendor, f.importance);
    }
  }

  lemma VendorAllowedAt(s: Settings, vendor: string)
    ensures VendorAllowed(s)(vendor) == TierAllowed(VendorTier(s, vendor))
  {
  }

  lemma UnlistedHighOnly(s: Settings, vendor: string, i: Importance)
    requires i in TierAllowed(VendorTier(s, vendor))
    ensures vendor !in s.vendorsT0 && vendor !in s.vendorsT1 ==> i == High
  {
  }

  /** The blog fetch routes by `notify_as`: articles routed as releases land
      in the release store, the others in the blog store; rows stored
      before are untouched. */
  lemma BlogRouting(s: Settings, st: Stores, fetched: seq<BlogArticle>, o: Oracles, now: Instant)
    requires s.blogEnabled
    ensures var r := FetchAndNotifyBlogs(s, st, fetched, o, now).stores;
            && r.blogs.Keys == st.blogs.Keys + BlogIds(Keep(fetched, RoutedAsBlog))
            && r.releases.Keys == st.releases.Keys + BlogIds(Keep(fetched, RoutedAsRelease))
            && (forall k :: k in st.blogs ==> r.blogs[k] == st.blogs[k])
            && (forall k :: k in st.releases ==> r.releases[k] == st.releases[k])
  {
    var blogs, rel := Keep(fetched, RoutedAsBlog), Keep(fetched, RoutedAsRelease);
    var bp := BlogPath(s, st.blogs, blogs, o, now);
    var rp := ReleasePath(s, st.releases, ReleaseItemsOf(rel), AlwaysPushLevels(), o, now);
    assert FetchAndNotifyBlogs(s, st, fetched, o, now).stores == Stores(rp.0, bp.0);
    BlogPathKeeps(s, st.blogs, blogs, o, now);
    ReleasePathKeeps(s, st.releases, ReleaseItemsOf(rel), AlwaysPushLevels(), o, now);
    ReleaseItemsIds(rel);
  }

  lemma ReleaseItemsIds(articles: seq<BlogArticle>)
    ensures ReleaseIds(ReleaseItemsOf(articles)) == BlogIds(articles)
  {
    var items := ReleaseItemsOf(articles);
    forall k | k in BlogIds(articles) ensures k in ReleaseIds(items) {
      var a :| a in articles && a.sourceId == k;
      var i :| 0 <= i < |articles| && articles[i] == a;
      assert items[i].sourceId == k;
    }
    forall k | k in ReleaseIds(items) ensures k in BlogIds(articles) {
      var x :| x in items && x.sourceId == k;
      var i :| 0 <= i < |items| && items[i] == x;
      assert articles[i] in articles;
    }
  }

  /** The blog store never holds an article routed as a release: the blog
      and sitemap cycles keep that true, which is why the blog digest needs
      no `notify_as` filter. */
  predicate NoReleaseRows(t: Store.BlogTable)
  {
    forall k :: k in t ==> t[k].cols.notifyAs != "release"
  }

  lemma BlogCycleStaysBlog(s: Settings, st: Stores, fetched: seq<BlogArticle>, o: Oracles, now: Instant)
    requires NoReleaseRows(st.blogs)
    ensures NoReleaseRows(FetchAndNotifyBlogs(s, st, fetched, o, now).stores.blogs)
  {
    if s.blogEnabled {
      var blogs := Keep(fetched, RoutedAsBlog);
      assert FetchAndNotifyBlogs(s, st, fetched, o, now).stores.blogs == BlogPath(s, st.blogs, blogs, o, now).0;
      KeepMembers(fetched, RoutedAsBlog);
      BlogPathStaysBlog(s, st.blogs, blogs, o, now);
    }
  }

  /** A sitemap source stamps its own routing on every article it yields,
      so a source not routed as releases adds only blog-routed rows. */
  lemma SitemapCycleStaysBlog(s: Settings, st: Stores, src: Sitemap.SitemapSource,
                              pages: Option<seq<BlogArticle>>, o: Oracles, now: Instant)
    requires NoReleaseRows(st.blogs)
    requires pages.Some? ==> forall i :: 0 <= i < |pages.value| ==> pages.value[i].notifyAs == src.notifyAs
    ensures NoReleaseRows(FetchAndNotifySitemap(s, st, src, pages, o, now).stores.blogs)
  {
    if s.sitemapEnabled && pages.Some? && src.notifyAs != "release" {
      SitemapBlogSide(s, st, src, pages, o, now);
      SameRoutingAsBlog(pages.value, src.notifyAs);
      BlogPathStaysBlog(s, st.blogs, pages.value, o, now);
    }
  }

  lemma SitemapBlogSide(s: Settings, st: Stores, src: Sitemap.SitemapSource,
                        pages: Option<seq<BlogArticle>>, o: Oracles, now: Instant)
    requires s.sitemapEnabled && pages.Some? && src.notifyAs != "release"
    ensures FetchAndNotifySitemap(s, st, src, pages, o, now).stores.blogs == BlogPath(s, st.blogs, pages.value, o, now).0
  {
  }

  lemma SameRoutingAsBlog(articles: seq<BlogArticle>, notifyAs: string)
    requires notifyAs != "release"
    requires forall i :: 0 <= i < |articles| ==> articles[i].notifyAs == notifyAs
    ensures forall i :: 0 <= i < |articles| ==> RoutedAsBlog(articles[i])
  {
  }

  lemma BlogPathStaysBlog(s: Settings, t: Store.BlogTable, articles: seq<BlogArticle>, o: Oracles, now: Instant)
    requires NoReleaseRows(t)
    requires forall i :: 0 <= i < |articles| ==> RoutedAsBlog(articles[i])
    ensures NoReleaseRows(BlogPath(s, t, articles, o, now).0)
  {
    var unseen := Keep(articles, UnseenBlog(t));
    KeepRoutedAsBlog(articles, t);
    BlogLoopNotifyAs(s, t, unseen, o, now);
  }

  lemma KeepRoutedAsBlog(articles: seq<BlogArticle>, t: Store.BlogTable)
    requires forall i :: 0 <= i < |articles| ==> RoutedAsBlog(articles[i])
    ensures forall i :: 0 <= i < |Keep(articles, UnseenBlog(t))| ==> RoutedAsBlog(Keep(articles, UnseenBlog(t))[i])
  {
    var unseen := Keep(articles, UnseenBlog(t));
    KeepMembers(articles, UnseenBlog(t));
    forall i | 0 <= i < |unseen| ensures RoutedAsBlog(unseen[i]) {
      var j :| 0 <= j < |articles| && articles[j] == unseen[i];
    }
  }

  lemma {:induction false} BlogLoopNotifyAs(s: Settings, t: Store.BlogTable, articles: seq<BlogArticle>,
                                            o: Oracles, now: Instant)
    requires NoReleaseRows(t)
    requires forall i :: 0 <= i < |articles| ==> RoutedAsBlog(articles[i])
    ensures NoReleaseRows(BlogLoop(s, t, articles, o, now).0)
    decreases |articles|
  {
    if |articles| > 0 {
      var f := ClassifyBlog(s, articles[0], o);
      var step := BlogStep(t, f, o.returned(f.sourceId), now);
      assert NoReleaseRows(step.0) by {
        forall k | k in step.0 ensures step.0[k].cols.notifyAs != "release" {
          if k != f.sourceId {
            assert step.0[k] == t[k];
          }
        }
      }
      BlogLoopNotifyAs(s, step.0, articles[1..], o, now);
    }
  }

}

=== FILE: releasebot.dfy ===
/** The releasebot.io decoder (src/ai_sub/fetcher/releasebot.py): SvelteKit
    serialises a page's data as one flat array of cells in which a record is a
    "shape", a dict mapping field names to integer cell positions. The HTTP
    request in `fetch_vendor` is not modelled; the decoded payload is given. */
module ReleaseBot {
  import opened Util
  import opened Json
  import opened Models

  const BaseUrl: string := "https://releasebot.io/updates"

  /** A cell that `_resolve` follows: a dict whose values are all integers
      (the empty dict included). */
  predicate IsShape(v: Json)
  {
    v.JObj? && forall k :: k in v.fields ==> PyInt(v.fields[k]).Some?
  }

  /** The cell a field's offset designates, if any: an integer offset below
      the array length is added to the base, any other integer is taken as an
      absolute position, and a position outside the array (or a non-integer
      offset) designates nothing. */
  function CellIndex(len: nat, offset: Json, base: int): (r: Option<nat>)
    ensures r.Some? ==> r.value < len
    ensures PyInt(offset).None? ==> r.None?
    ensures PyInt(offset).Some? && PyInt(offset).value < len ==>
              r == (if 0 <= base + PyInt(offset).value < len then Some(base + PyInt(offset).value) else None)
    ensures PyInt(offset).Some? && PyInt(offset).value >= len ==> r.None?
  {
    match PyInt(offset)
    case None => None
    case Some(o) =>
      var idx := if o < len then base + o else o;
      if 0 <= idx < len then Some(idx) else None
  }

  /** With base 0, the position is the offset itself whenever it lies inside
      the array: the two readings of an offset coincide. */
  lemma BaseZeroSelectsOffset(len: nat, offset: Json)
    requires PyInt(offset).Some?
    ensures CellIndex(len, offset, 0).Some? <==> 0 <= PyInt(offset).value < len
    ensures CellIndex(len, offset, 0).Some? ==> CellIndex(len, offset, 0).value == PyInt(offset).value
  {
  }

  /** One field of `_resolve`. None stands for the RecursionError that Python
      raises on a shape nested deeper than the `fuel` levels allowed. */
  function ResolveField(data: seq<Json>, offset: Json, base: int, fuel: nat): Option<Json>
    decreases fuel, 0
  {
    var idx := CellIndex(|data|, offset, base);
    if idx.None? then Some(JNull)
    else if !IsShape(data[idx.value]) then Some(data[idx.value])
    else if fuel == 0 then None
    else
      var sub := Resolve(data, data[idx.value].fields, 0, fuel - 1);
      if sub.None? then None else Some(JObj(sub.value))
  }

  /** `_resolve(data, shape, base)`, bounded to `fuel` levels of nesting. */
  function Resolve(data: seq<Json>, shape: map<string, Json>, base: int, fuel: nat): (r: Option<map<string, Json>>)
    decreases fuel, 1
    ensures r.Some? ==> r.value.Keys == shape.Keys
  {
    if forall k :: k in shape ==> ResolveField(data, shape[k], base, fuel).Some? then
      Some(map k | k in shape :: ResolveField(data, shape[k], base, fuel).value)
    else None
  }

  /** The decoding succeeds exactly when every field does, and then each
      field holds its own decoded value. */
  lemma ResolveFields(data: seq<Json>, shape: map<string, Json>, base: int, fuel: nat)
    ensures Resolve(data, shape, base, fuel).Some? <==>
              forall k :: k in shape ==> ResolveField(data, shape[k], base, fuel).Some?
    ensures Resolve(data, shape, base, fuel).Some? ==>
              forall k :: k in shape ==> Resolve(data, shape, base, fuel).value[k] == ResolveField(data, shape[k], base, fuel).value
  {
  }

  /** A resolved field: null when the offset designates no cell, the cell
      itself when it is not a shape, and the recursively resolved record (base
      0) when it is. */
  lemma ResolveFieldCases(data: seq<Json>, shape: map<string, Json>, base: int, fuel: nat, k: string)
    requires k in shape
    requires Resolve(data, shape, base, fuel).Some?
    ensures var v := Resolve(data, shape, base, fuel).value[k];
            var idx := CellIndex(|data|, shape[k], base);
            && (idx.None? ==> v == JNull)
            && (idx.Some? && !IsShape(data[idx.value]) ==> v == data[idx.value])
            && (idx.Some? && IsShape(data[idx.value]) ==>
                  fuel > 0 && Resolve(data, data[idx.value].fields, 0, fuel - 1).Some? &&
                  v == JObj(Resolve(data, data[idx.value].fields, 0, fuel - 1).value))
  {
    ResolveFields(data, shape, base, fuel);
  }

  /** Two parent shapes whose fields designate the same cell resolve those
      fields to the same value: a shared sub-record decodes identically. */
  lemma SharedCellResolvesIdentically(data: seq<Json>, s1: map<string, Json>, k1: string,
                                      s2: map<string, Json>, k2: string, fuel: nat)
    requires k1 in s1 && k2 in s2
    requires CellIndex(|data|, s1[k1], 0) == CellIndex(|data|, s2[k2], 0)
    requires Resolve(data, s1, 0, fuel).Some? && Resolve(data, s2, 0, fuel).Some?
    ensures Resolve(data, s1, 0, fuel).value[k1] == Resolve(data, s2, 0, fuel).value[k2]
  {
    ResolveFields(data, s1, 0, fuel);
    ResolveFields(data, s2, 0, fuel);
  }

  /** The depth bound only ever cuts a decoding off: whatever resolves within
      `fuel` levels resolves to the same record with any larger bound. */
  lemma {:induction false} ResolveFuelMonotone(data: seq<Json>, shape: map<string, Json>, base: int, fuel: nat, more: nat)
    requires fuel <= more
    requires Resolve(data, shape, base, fuel).Some?
    ensures Resolve(data, shape, base, more) == Resolve(data, shape, base, fuel)
    decreases fuel, 1
  {
    ResolveFields(data, shape, base, fuel);
    ResolveFields(data, shape, base, more);
    forall k | k in shape
      ensures ResolveField(data, shape[k], base, more) == ResolveField(data, shape[k], base, fuel)
    {
      ResolveFieldFuelMonotone(data, shape[k], base, fuel, more);
    }
    var a := Resolve(data, shape, base, more);
    var b := Resolve(data, shape, base, fuel);
    assert a.Some?;
    assert a.value == b.value;
  }

  lemma {:induction false} ResolveFieldFuelMonotone(data: seq<Json>, offset: Json, base: int, fuel: nat, more: nat)
    requires fuel <= more
    requires ResolveField(data, offset, base, fuel).Some?
    ensures ResolveField(data, offset, base, more) == ResolveField(data, offset, base, fuel)
    decreases fuel, 0
  {
    var idx := CellIndex(|data|, offset, base);
    if idx.Some? && IsShape(data[idx.value]) {
      var cell := data[idx.value];
      assert fuel > 0;
      var sub := Resolve(data, cell.fields, 0, fuel - 1);
      ResolveFuelMonotone(data, cell.fields, 0, fuel - 1, more - 1);
      assert ResolveField(data, offset, base, fuel) == Some(JObj(sub.value));
      assert ResolveField(data, offset, base, more) == Some(JObj(sub.value));
    }
  }

  /** A shape that points at itself never resolves, however deep the bound:
      Python raises RecursionError there. */
  lemma {:induction false} SelfReferenceNeverResolves(fuel: nat)
    ensures Resolve([JObj(map["self" := JInt(0)])], map["self" := JInt(0)], 0, fuel).None?
  {
    var data := [JObj(map["self" := JInt(0)])];
    var shape := map["self" := JInt(0)];
    assert IsShape(data[0]);
    assert CellIndex(1, JInt(0), 0) == Some(0);
    if fuel > 0 {
      SelfReferenceNeverResolves(fuel - 1);
    }
    assert ResolveField(data, shape["self"], 0, fuel).None?;
    ResolveFields(data, shape, 0, fuel);
  }

  // ------------------------------------------------------------ _build_item

  /** `x or {}` followed by `.get`: a falsy value reads as the empty dict, a
      truthy non-dict makes `.get` raise AttributeError. */
  function DictOrEmpty(v: Json): (r: Result<map<string, Json>>)
    ensures !Truthy(v) ==> r == Ok(map[])
    ensures Truthy(v) && v.JObj? ==> r == Ok(v.fields)
    ensures Truthy(v) && !v.JObj? ==> r.Err?
  {
    if !Truthy(v) then Ok(map[])
    else if v.JObj? then Ok(v.fields)
    else Err("AttributeError: object has no attribute 'get'")
  }

  /** A value the ReleaseItem model accepts as `str` (pydantic does not turn
      other JSON types into strings). */
  function AsStr(v: Json): (r: Result<string>)
    ensures r.Ok? <==> v.JStr?
    ensures v.JStr? ==> r.value == v.s
  {
    if v.JStr? then Ok(v.s) else Err("ValidationError: str expected")
  }

  /** `x[:n] if x else fallback` where the result must be a string. */
  function TruncateOr(v: Json, n: nat, fallback: Result<Option<string>>): (r: Result<Option<string>>)
    ensures !Truthy(v) ==> r == fallback
    ensures Truthy(v) && v.JStr? ==> r == Ok(Some(SliceTo(v.s, n)))
    ensures Truthy(v) && !v.JStr? ==> r.Err?
  {
    if !Truthy(v) then fallback
    else if v.JStr? then Ok(Some(SliceTo(v.s, n)))
    else Err("TypeError or ValidationError: not a string")
  }

  /** `_build_item(rel, vendor)`: None when the record has no id; an error
      where Python raises (a non-dict detail block, a non-string text field);
      otherwise the item with its fallbacks and truncations applied. The date
      parser and `repr` of containers are parameters. */
  function BuildItem(rel: map<string, Json>, vendor: string,
                     parseIso: string -> Option<Instant>, repr: Json -> string): (r: Result<Option<ReleaseItem>>)
    ensures Get(rel, "id") == JNull <==> r == Ok(None)
    ensures r.Ok? && r.value.Some? ==>
              var item := r.value.value;
              && item.sourceId == vendor + ":" + PyStr(Get(rel, "id"), repr)
              && item.vendor == vendor
              && (|item.summary| <= 500 || item.summary == item.title)
              && (item.content.Some? ==> 0 < |item.content.value| <= 2000)
              && (item.summary == "" ==> item.summary == item.title)
  {
    if Get(rel, "id") == JNull then Ok(None)
    else
      match DictOrEmpty(GetOr(rel, "release_details", JObj(map[])))
      case Err(e) => Err(e)
      case Ok(details) =>
        match DictOrEmpty(GetOr(rel, "product", JObj(map[])))
        case Err(e) => Err(e)
        case Ok(productInfo) =>
          match DictOrEmpty(GetOr(rel, "source", JObj(map[])))
          case Err(e) => Err(e)
          case Ok(sourceInfo) =>
            match ItemFields(rel, vendor, details, productInfo, sourceInfo, parseIso, repr)
            case Err(e) => Err(e)
            case Ok(item) => Ok(Some(item))
  }

  /** The item `_build_item` constructs once the three detail blocks are
      dicts: each field with its fallback, summary and content truncated. */
  function ItemFields(rel: map<string, Json>, vendor: string,
                      details: map<string, Json>, productInfo: map<string, Json>, sourceInfo: map<string, Json>,
                      parseIso: string -> Option<Instant>, repr: Json -> string): (r: Result<ReleaseItem>)
    ensures r.Ok? ==>
              var item := r.value;
              && item.sourceId == vendor + ":" + PyStr(Get(rel, "id"), repr)
              && item.vendor == vendor
              && (|item.summary| <= 500 || item.summary == item.title)
              && (item.content.Some? ==> 0 < |item.content.value| <= 2000)
              && (item.summary == "" ==> item.summary == item.title)
  {
    var versionV := Get(details, "release_number");
    var rawDate := Or(Get(rel, "release_date"), Get(rel, "created_at"));
    var published := if rawDate.JStr? && rawDate.s != "" then parseIso(rawDate.s) else None;
    match AsStr(Or(Get(details, "release_name"), GetOr(rel, "slug", JStr(""))))
    case Err(e) => Err(e)
    case Ok(title) =>
      match SummaryField(details, title)
      case Err(e) => Err(e)
      case Ok(summary) =>
        match ContentField(rel, details)
        case Err(e) => Err(e)
        case Ok(content) =>
          match AsStr(Or(Get(productInfo, "display_name"), JStr(vendor)))
          case Err(e) => Err(e)
          case Ok(product) =>
            match AsStr(Or(Get(sourceInfo, "source_url"), JStr(BaseUrl + "/" + vendor)))
            case Err(e) => Err(e)
            case Ok(url) =>
              Ok(ReleaseItem(
                sourceId := vendor + ":" + PyStr(Get(rel, "id"), repr),
                vendor := vendor,
                product := product,
                title := title,
                version := if versionV == JNull then None else Some(PyStr(versionV, repr)),
                url := url,
                summary := summary,
                publishedDate := published,
                content := content))
  }

  /** Each field falls back when its source value is falsy. */
  lemma ItemFieldsFallbacks(rel: map<string, Json>, vendor: string,
                            details: map<string, Json>, productInfo: map<string, Json>, sourceInfo: map<string, Json>,
                            parseIso: string -> Option<Instant>, repr: Json -> string)
    ensures var r := ItemFields(rel, vendor, details, productInfo, sourceInfo, parseIso, repr);
            r.Ok? ==>
              && (!Truthy(Get(details, "release_summary")) ==> r.value.summary == r.value.title)
              && (!Truthy(Get(productInfo, "display_name")) ==> r.value.product == vendor)
              && (!Truthy(Get(sourceInfo, "source_url")) ==> r.value.url == BaseUrl + "/" + vendor)
              && (Truthy(Get(sourceInfo, "source_url")) ==> JStr(r.value.url) == Get(sourceInfo, "source_url"))
  {
  }

  /** The title is the release name or else the slug; the version is absent
      exactly when the release number is. */
  lemma ItemTitleVersion(rel: map<string, Json>, vendor: string,
                         details: map<string, Json>, productInfo: map<string, Json>, sourceInfo: map<string, Json>,
                         parseIso: string -> Option<Instant>, repr: Json -> string)
    ensures var r := ItemFields(rel, vendor, details, productInfo, sourceInfo, parseIso, repr);
            r.Ok? ==>
              && (Truthy(Get(details, "release_name")) ==> JStr(r.value.title) == Get(details, "release_name"))
              && (!Truthy(Get(details, "release_name")) ==> JStr(r.value.title) == GetOr(rel, "slug", JStr("")))
              && (r.value.version.None? <==> Get(details, "release_number") == JNull)
  {
  }

  /** `(details.get("release_summary") or "")[:500] or title`. */
  function SummaryField(details: map<string, Json>, title: string): (r: Result<string>)
    ensures r.Ok? ==> |r.value| <= 500 || r.value == title
    ensures r.Ok? && r.value == "" ==> r.value == title
    ensures !Truthy(Get(details, "release_summary")) ==> r == Ok(title)
  {
    match TruncateOr(Or(Get(details, "release_summary"), JStr("")), 500, Ok(Some(title)))
    case Err(e) => Err(e)
    case Ok(summary) => Ok(summary.value)
  }

  /** `(rel.get("formatted_content") or summary)[:2000] or None`, where
      `summary` is the untruncated release summary or "". */
  function ContentField(rel: map<string, Json>, details: map<string, Json>): (r: Result<Option<string>>)
    ensures r.Ok? && r.value.Some? ==> 0 < |r.value.value| <= 2000
    ensures !Truthy(Get(rel, "formatted_content")) && !Truthy(Get(details, "release_summary")) ==> r == Ok(None)
    ensures Truthy(Get(rel, "formatted_content")) && Get(rel, "formatted_content").JStr?
            ==> r == Ok(Some(SliceTo(Get(rel, "formatted_content").s, 2000)))
    ensures !Truthy(Get(rel, "formatted_content")) && Truthy(Get(details, "release_summary"))
            && Get(details, "release_summary").JStr?
            ==> r == Ok(Some(SliceTo(Get(details, "release_summary").s, 2000)))
    ensures var chosen := Or(Get(rel, "formatted_content"), Get(details, "release_summary"));
            Truthy(chosen) && !chosen.JStr? ==> r.Err?
  {
    TruncateOr(Or(Get(rel, "formatted_content"), Or(Get(details, "release_summary"), JStr(""))), 2000, Ok(None))
  }

  /** The documented fallbacks: a missing release name gives the slug, an
      empty summary becomes the title, a missing display name becomes the
      vendor, a missing source url becomes the vendor's releasebot page, and
      the version is absent exactly when the release number is. */
  lemma BuildItemFallbacks(rel: map<string, Json>, vendor: string,
                           parseIso: string -> Option<Instant>, repr: Json -> string)
    requires BuildItem(rel, vendor, parseIso, repr).Ok?
    requires BuildItem(rel, vendor, parseIso, repr).value.Some?
    ensures var item := BuildItem(rel, vendor, parseIso, repr).value.value;
            var details := DictOrEmpty(GetOr(rel, "release_details", JObj(map[]))).value;
            var productInfo := DictOrEmpty(GetOr(rel, "product", JObj(map[]))).value;
            var sourceInfo := DictOrEmpty(GetOr(rel, "source", JObj(map[]))).value;
            && (!Truthy(Get(details, "release_summary")) ==> item.summary == item.title)
            && (!Truthy(Get(productInfo, "display_name")) ==> item.product == vendor)
            && (!Truthy(Get(sourceInfo, "source_url")) ==> item.url == BaseUrl + "/" + vendor)
            && (Truthy(Get(sourceInfo, "source_url")) ==> JStr(item.url) == Get(sourceInfo, "source_url"))
            && (Truthy(Get(details, "release_name")) ==> JStr(item.title) == Get(details, "release_name"))
            && (!Truthy(Get(details, "release_name")) ==> JStr(item.title) == GetOr(rel, "slug", JStr("")))
            && (item.version.None? <==> Get(details, "release_number") == JNull)
  {
    var details := DictOrEmpty(GetOr(rel, "release_details", JObj(map[]))).value;
    var productInfo := DictOrEmpty(GetOr(rel, "product", JObj(map[]))).value;
    var sourceInfo := DictOrEmpty(GetOr(rel, "source", JObj(map[]))).value;
    ItemFieldsFallbacks(rel, vendor, details, productInfo, sourceInfo, parseIso, repr);
    ItemTitleVersion(rel, vendor, details, productInfo, sourceInfo, parseIso, repr);
  }

  // ------------------------------------------------------- _parse_sveltekit

  /** Python's `xs[i]` for an int `i`: negative positions count from the end;
      one below `-len(xs)` raises IndexError. */
  function PyIndex(xs: seq<Json>, i: int): (r: Result<Json>)
    ensures 0 <= i < |xs| ==> r == Ok(xs[i])
    ensures -|xs| <= i < 0 ==> r == Ok(xs[|xs| + i])
    ensures (i < -|xs| || i >= |xs|) ==> r.Err?
  {
    if 0 <= i < |xs| then Ok(xs[i])
    else if -|xs| <= i < 0 then Ok(xs[|xs| + i])
    else Err("IndexError: list index out of range")
  }

  /** A node that carries the release list: type "data", a data list of at
      least six cells, and a first cell that is a dict with a "releases" key. */
  predicate IsReleaseNode(node: Json)
  {
    && node.JObj?
    && Get(node.fields, "type") == JStr("data")
    && GetOr(node.fields, "data", JArr([])).JArr?
    && |GetOr(node.fields, "data", JArr([])).items| >= 6
    && GetOr(node.fields, "data", JArr([])).items[0].JObj?
    && "releases" in GetOr(node.fields, "data", JArr([])).items[0].fields
  }

  /** The scan for the first release node. A node that is not a dict makes
      `node.get` raise. */
  function FindDataArray(nodes: seq<Json>): (r: Result<Option<seq<Json>>>)
    ensures r.Ok? && r.value.Some? ==>
              exists i :: 0 <= i < |nodes| && IsReleaseNode(nodes[i])
                && r.value.value == nodes[i].fields["data"].items
                && forall j :: 0 <= j < i ==> !IsReleaseNode(nodes[j])
    ensures r == Ok(None) <==> forall j :: 0 <= j < |nodes| ==> nodes[j].JObj? && !IsReleaseNode(nodes[j])
  {
    if |nodes| == 0 then Ok(None)
    else if !nodes[0].JObj? then Err("AttributeError: node has no attribute 'get'")
    else if IsReleaseNode(nodes[0]) then
      assert GetOr(nodes[0].fields, "data", JArr([])) == nodes[0].fields["data"];
      Ok(Some(nodes[0].fields["data"].items))
    else
      var rest := FindDataArray(nodes[1..]);
      if rest.Ok? && rest.value.Some? then
        ghost var i :| 0 <= i < |nodes[1..]| && IsReleaseNode(nodes[1..][i])
                && rest.value.value == nodes[1..][i].fields["data"].items
                && forall j :: 0 <= j < i ==> !IsReleaseNode(nodes[1..][j]);
        assert nodes[i + 1] == nodes[1..][i];
        assert forall j :: 0 <= j < i + 1 ==> !IsReleaseNode(nodes[j]) by {
          forall j | 0 <= j < i + 1 ensures !IsReleaseNode(nodes[j]) {
            if j > 0 { assert nodes[j] == nodes[1..][j - 1]; }
          }
        }
        rest
      else
        assert rest == Ok(None) ==> forall j :: 0 <= j < |nodes| ==> nodes[j].JObj? && !IsReleaseNode(nodes[j]) by {
          if rest == Ok(None) {
            forall j | 0 <= j < |nodes| ensures nodes[j].JObj? && !IsReleaseNode(nodes[j]) {
              if j > 0 { assert nodes[j] == nodes[1..][j - 1]; }
            }
          }
        }
        assert rest.Err? ==> exists j :: 0 <= j < |nodes[1..]| && !(nodes[1..][j].JObj? && !IsReleaseNode(nodes[1..][j]));
        rest
  }

  /** What `for node in nodes` iterates over: a list's items; an empty string
      or dict yields nothing; iterating a non-empty string or dict yields
      strings whose `.get` raises, and other scalars are not iterable. */
  function NodeList(v: Json): Result<seq<Json>>
  {
    match v
    case JArr(items) => Ok(items)
    case JStr(s) => if s == "" then Ok([]) else Err("AttributeError: 'str' object has no attribute 'get'")
    case JObj(m) => if |m| == 0 then Ok([]) else Err("AttributeError: 'str' object has no attribute 'get'")
    case _ => Err("TypeError: object is not iterable")
  }

  /** What one entry of the release list contributes. An index that is not
      an int, lies at or past the end, or designates a non-dict cell gives
      nothing, as does an entry whose decoding or building raises (the
      per-entry `except Exception`); a negative index below `-len` raises
      IndexError outside that guard. */
  function EntryItem(data: seq<Json>, x: Json, vendor: string, fuel: nat,
                     parseIso: string -> Option<Instant>, repr: Json -> string): (r: Result<Option<ReleaseItem>>)
    ensures r.Err? <==> PyInt(x).Some? && PyInt(x).value < -|data|
    ensures r.Ok? && r.value.Some? ==> r.value.value.vendor == vendor
    ensures r.Ok? && r.value.Some? ==>
              && PyInt(x).Some? && -|data| <= PyInt(x).value < |data|
              && PyIndex(data, PyInt(x).value).value.JObj?
              && Resolve(data, PyIndex(data, PyInt(x).value).value.fields, 0, fuel).Some?
              && BuildItem(Resolve(data, PyIndex(data, PyInt(x).value).value.fields, 0, fuel).value,
                           vendor, parseIso, repr) == Ok(r.value)
  {
    match PyInt(x)
    case None => Ok(None)
    case Some(ridx) =>
      if ridx >= |data| then Ok(None)
      else
        match PyIndex(data, ridx)
        case Err(e) => Err(e)
        case Ok(cell) =>
          if !cell.JObj? then Ok(None)
          else
            match Resolve(data, cell.fields, 0, fuel)
            case None => Ok(None)
            case Some(rel) =>
              match BuildItem(rel, vendor, parseIso, repr)
              case Err(_) => Ok(None)
              case Ok(item) => Ok(item)
  }

  /** The item an entry keeps, if any; an entry that raises keeps nothing
      (and aborts the loop, which `CollectReleasesInOrder` states). */
  function KeptItem(data: seq<Json>, vendor: string, fuel: nat,
                    parseIso: string -> Option<Instant>, repr: Json -> string): Json -> Option<ReleaseItem>
  {
    x => match EntryItem(data, x, vendor, fuel, parseIso, repr)
         case Ok(o) => o
         case Err(_) => None
  }

  /** The loop over release indices, appending each entry's item in order. */
  function CollectReleases(data: seq<Json>, indices: seq<Json>, vendor: string, fuel: nat,
                           parseIso: string -> Option<Instant>, repr: Json -> string): (r: Result<seq<ReleaseItem>>)
    ensures r.Ok? ==> |r.value| <= |indices|
    ensures r.Ok? ==> forall i :: 0 <= i < |r.value| ==> r.value[i].vendor == vendor
  {
    if |indices| == 0 then Ok([])
    else
      match EntryItem(data, indices[0], vendor, fuel, parseIso, repr)
      case Err(e) => Err(e)
      case Ok(h) =>
        match CollectReleases(data, indices[1..], vendor, fuel, parseIso, repr)
        case Err(e) => Err(e)
        case Ok(rest) => Ok((if h.Some? then [h.value] else []) + rest)
  }

  /** The loop keeps, in index order, exactly the items of the entries that
      build, skipping the others; it fails only when some index lies below
      `-len`. */
  lemma {:induction false} CollectReleasesInOrder(data: seq<Json>, indices: seq<Json>, vendor: string, fuel: nat,
                                                  parseIso: string -> Option<Instant>, repr: Json -> string)
    ensures var r := CollectReleases(data, indices, vendor, fuel, parseIso, repr);
            && (r.Ok? <==> forall i :: 0 <= i < |indices| ==> EntryItem(data, indices[i], vendor, fuel, parseIso, repr).Ok?)
            && (r.Ok? ==> r.value == Collect(indices, KeptItem(data, vendor, fuel, parseIso, repr)))
  {
    if |indices| > 0 {
      var f := KeptItem(data, vendor, fuel, parseIso, repr);
      var head := EntryItem(data, indices[0], vendor, fuel, parseIso, repr);
      CollectReleasesInOrder(data, indices[1..], vendor, fuel, parseIso, repr);
      assert forall i :: 0 <= i < |indices| - 1 ==> indices[1..][i] == indices[i + 1];
      if head.Ok? {
        assert f(indices[0]) == head.value;
      }
    }
  }

  /** `_parse_sveltekit(payload, vendor)`, with `limit` standing for
      max_releases_per_vendor. An error is an exception that escapes to
      `fetch_vendor`'s caller, where the vendor contributes nothing. */
  function ParseSvelteKit(payload: Json, vendor: string, limit: int, fuel: nat,
                          parseIso: string -> Option<Instant>, repr: Json -> string): (r: Result<seq<ReleaseItem>>)
    ensures r.Ok? && limit >= 0 ==> |r.value| <= limit
    ensures r.Ok? ==> forall i :: 0 <= i < |r.value| ==> r.value[i].vendor == vendor
  {
    if !payload.JObj? then Err("AttributeError: payload has no attribute 'get'")
    else
      match NodeList(GetOr(payload.fields, "nodes", JArr([])))
      case Err(e) => Err(e)
      case Ok(nodes) =>
        match FindDataArray(nodes)
        case Err(e) => Err(e)
        case Ok(None) => Ok([])
        case Ok(Some(data)) =>
          ReleasesFromData(data, vendor, limit, fuel, parseIso, repr)
  }

  /** The part of `_parse_sveltekit` after the release node is found. */
  function ReleasesFromData(data: seq<Json>, vendor: string, limit: int, fuel: nat,
                            parseIso: string -> Option<Instant>, repr: Json -> string): (r: Result<seq<ReleaseItem>>)
    requires |data| >= 6 && data[0].JObj?
    ensures r.Ok? && limit >= 0 ==> |r.value| <= limit
    ensures r.Ok? ==> forall i :: 0 <= i < |r.value| ==> r.value[i].vendor == vendor
    ensures Get(data[0].fields, "releases") == JNull ==> r == Ok([])
    ensures (PyInt(Get(data[0].fields, "releases")).Some? && PyInt(Get(data[0].fields, "releases")).value >= |data|)
            ==> r == Ok([])
    ensures Get(data[0].fields, "releases") != JNull && PyInt(Get(data[0].fields, "releases")).None? ==> r.Err?
    ensures PyInt(Get(data[0].fields, "releases")).Some? && PyInt(Get(data[0].fields, "releases")).value < -|data|
            ==> r.Err?
    ensures var ri := PyInt(Get(data[0].fields, "releases"));
            ri.Some? && -|data| <= ri.value < |data| && !PyIndex(data, ri.value).value.JArr? ==> r == Ok([])
  {
    var releasesIdx := Get(data[0].fields, "releases");
    if releasesIdx == JNull then Ok([])
    else
      match PyInt(releasesIdx)
      case None => Err("TypeError: '>=' not supported")
      case Some(ri) =>
        if ri >= |data| then Ok([])
        else
          match PyIndex(data, ri)
          case Err(e) => Err(e)
          case Ok(list) =>
            if !list.JArr? then Ok([])
            else CollectReleases(data, SliceTo(list.items, limit), vendor, fuel, parseIso, repr)
  }

  /** Once the release cell is a list, the items are those of its first
      `limit` entries that build, in order; the parse fails only when one
      of those indices lies below `-len`. */
  lemma ReleasesFromDataEntries(data: seq<Json>, vendor: string, limit: int, fuel: nat,
                                parseIso: string -> Option<Instant>, repr: Json -> string)
    requires |data| >= 6 && data[0].JObj?
    ensures var ri := PyInt(Get(data[0].fields, "releases"));
            var r := ReleasesFromData(data, vendor, limit, fuel, parseIso, repr);
            ri.Some? && -|data| <= ri.value < |data| && PyIndex(data, ri.value).value.JArr? ==>
              var entries := SliceTo(PyIndex(data, ri.value).value.items, limit);
              && (r.Ok? <==> forall i :: 0 <= i < |entries| ==> EntryItem(data, entries[i], vendor, fuel, parseIso, repr).Ok?)
              && (r.Ok? ==> r.value == Collect(entries, KeptItem(data, vendor, fuel, parseIso, repr)))
  {
    var ri := PyInt(Get(data[0].fields, "releases"));
    if ri.Some? && -|data| <= ri.value < |data| && PyIndex(data, ri.value).value.JArr? {
      var entries := SliceTo(PyIndex(data, ri.value).value.items, limit);
      assert Get(data[0].fields, "releases") != JNull;
      assert ReleasesFromData(data, vendor, limit, fuel, parseIso, repr)
          == CollectReleases(data, entries, vendor, fuel, parseIso, repr);
      CollectReleasesInOrder(data, entries, vendor, fuel, parseIso, repr);
    }
  }

  /** The first release node found, read as `_parse_sveltekit` reads it. */
  function FoundData(payload: Json): Option<seq<Json>>
  {
    if !payload.JObj? then None
    else
      match NodeList(GetOr(payload.fields, "nodes", JArr([])))
      case Err(_) => None
      case Ok(nodes) =>
        match FindDataArray(nodes)
        case Err(_) => None
        case Ok(d) => d
  }

  /** With a release node found, the parse keeps the items of the first
      `limit` entries of its release list that build, in order. */
  lemma ParseKeepsEntries(payload: Json, vendor: string, limit: int, fuel: nat,
                          parseIso: string -> Option<Instant>, repr: Json -> string)
    ensures FoundData(payload).Some? ==>
              var data := FoundData(payload).value;
              var ri := PyInt(Get(data[0].fields, "releases"));
              var r := ParseSvelteKit(payload, vendor, limit, fuel, parseIso, repr);
              ri.Some? && -|data| <= ri.value < |data| && PyIndex(data, ri.value).value.JArr? ==>
                var entries := SliceTo(PyIndex(data, ri.value).value.items, limit);
                && (r.Ok? <==> forall i :: 0 <= i < |entries| ==> EntryItem(data, entries[i], vendor, fuel, parseIso, repr).Ok?)
                && (r.Ok? ==> r.value == Collect(entries, KeptItem(data, vendor, fuel, parseIso, repr)))
  {
    if FoundData(payload).Some? {
      var data := FoundData(payload).value;
      assert ParseSvelteKit(payload, vendor, limit, fuel, parseIso, repr)
          == ReleasesFromData(data, vendor, limit, fuel, parseIso, repr);
      ReleasesFromDataEntries(data, vendor, limit, fuel, parseIso, repr);
    }
  }

  /** No release node, a null or out-of-range release index, or a release
      cell that is not a list gives no items. */
  lemma ParseEmptyCases(payload: Json, vendor: string, limit: int, fuel: nat,
                        parseIso: string -> Option<Instant>, repr: Json -> string)
    requires payload.JObj?
    requires NodeList(GetOr(payload.fields, "nodes", JArr([]))).Ok?
    ensures var nodes := NodeList(GetOr(payload.fields, "nodes", JArr([]))).value;
            (forall j :: 0 <= j < |nodes| ==> nodes[j].JObj? && !IsReleaseNode(nodes[j]))
              ==> ParseSvelteKit(payload, vendor, limit, fuel, parseIso, repr) == Ok([])
    ensures FoundData(payload).Some? ==>
              var data := FoundData(payload).value;
              var ri := PyInt(Get(data[0].fields, "releases"));
              && (Get(data[0].fields, "releases") == JNull ==> ParseSvelteKit(payload, vendor, limit, fuel, parseIso, repr) == Ok([]))
              && (ri.Some? && ri.value >= |data| ==> ParseSvelteKit(payload, vendor, limit, fuel, parseIso, repr) == Ok([]))
              && (ri.Some? && -|data| <= ri.value < |data| && !PyIndex(data, ri.value).value.JArr? ==>
                    ParseSvelteKit(payload, vendor, limit, fuel, parseIso, repr) == Ok([]))
  {
    if FoundData(payload).Some? {
      var data := FoundData(payload).value;
      assert ParseSvelteKit(payload, vendor, limit, fuel, parseIso, repr)
          == ReleasesFromData(data, vendor, limit, fuel, parseIso, repr);
    }
  }
}

=== FILE: schedule.dfy ===
/** `create_scheduler` in src/ai_sub/scheduler.py: which jobs are
    registered, with which triggers, for a given configuration. */
module Schedule {
  import opened Util
  import opened Config
  import opened Sorting
  import Sitemap

  datatype Trigger = Interval(minutes: int) | Cron(dayOfWeek: Option<string>, hour: int, minute: int)

  datatype Job = Job(id: string, trigger: Trigger, sitemap: Option<Sitemap.SitemapSource>)

  function ReplaceChar(s: string, a: char, b: char): (r: string)
    ensures |r| == |s|
    ensures forall i :: 0 <= i < |s| ==> r[i] == if s[i] == a then b else s[i]
  {
    seq(|s|, i requires 0 <= i < |s| => if s[i] == a then b else s[i])
  }

  /** `f"sitemap_{name.lower().replace(' ', '_')}"`. */
  function SitemapJobId(name: string): (id: string)
    ensures |id| == 8 + |name| && id[..8] == "sitemap_"
  {
    "sitemap_" + ReplaceChar(Lower(name), ' ', '_')
  }

  /** `source.fetch_interval_minutes or settings.sitemap_fetch_interval_minutes`:
      a zero interval counts as unset. */
  function SitemapInterval(s: Settings, src: Sitemap.SitemapSource): (minutes: int)
    ensures src.fetchIntervalMinutes != 0 ==> minutes == src.fetchIntervalMinutes
    ensures src.fetchIntervalMinutes == 0 ==> minutes == s.sitemapFetchIntervalMinutes
  {
    if src.fetchIntervalMinutes != 0 then src.fetchIntervalMinutes else s.sitemapFetchIntervalMinutes
  }

  function SitemapJobs(s: Settings, sources: seq<Sitemap.SitemapSource>): (jobs: seq<Job>)
    ensures |jobs| == |sources|
    ensures forall i :: 0 <= i < |sources| ==>
              jobs[i] == Job(SitemapJobId(sources[i].name), Interval(SitemapInterval(s, sources[i])), Some(sources[i]))
  {
    seq(|sources|, i requires 0 <= i < |sources| =>
      Job(SitemapJobId(sources[i].name), Interval(SitemapInterval(s, sources[i])), Some(sources[i])))
  }

  predicate HasReleaseSitemaps(sources: seq<Sitemap.SitemapSource>)
  {
    exists i :: 0 <= i < |sources| && sources[i].notifyAs == "release"
  }

  const FetchJobId := "fetch_and_notify"
  const DigestJobId := "daily_digest"
  const BlogJobId := "fetch_and_notify_blogs"
  const BlogDigestJobId := "daily_blog_digest"
  const CleanupJobId := "weekly_cleanup"

  /** `create_scheduler`: the jobs in the order they are added. The sitemap
      file is read only when sitemaps are on, and a failure to read it
      raises out of the function. */
  function CreateScheduler(s: Settings, config: Sitemap.ConfigFile): (r: Result<seq<Job>>)
    ensures r.Err? <==> s.sitemapEnabled && Sitemap.LoadSitemapSources(config).Err?
    ensures r.Ok? ==> |r.value| >= 1 && r.value[|r.value| - 1] == CleanupJob
  {
    var loaded := if s.sitemapEnabled then Sitemap.LoadSitemapSources(config) else Ok([]);
    if loaded.Err? then Err(loaded.reason)
    else Ok(Jobs(s, loaded.value))
  }

  /** The release fetch, registered when releases are on. */
  function FetchJobs(s: Settings): (jobs: seq<Job>)
    ensures |jobs| == if s.releaseEnabled then 1 else 0
    ensures forall i :: 0 <= i < |jobs| ==> jobs[i].id == FetchJobId && jobs[i].sitemap.None?
  {
    if s.releaseEnabled then [Job(FetchJobId, Interval(s.releaseFetchIntervalMinutes), None)] else []
  }

  /** The release digest, registered when releases are on or some sitemap
      source is routed as releases. */
  function DigestJobs(s: Settings, sources: seq<Sitemap.SitemapSource>): (jobs: seq<Job>)
    ensures |jobs| == if s.releaseEnabled || HasReleaseSitemaps(sources) then 1 else 0
    ensures forall i :: 0 <= i < |jobs| ==> jobs[i].id == DigestJobId && jobs[i].sitemap.None?
  {
    if s.releaseEnabled || HasReleaseSitemaps(sources)
    then [Job(DigestJobId, Cron(None, s.releaseDigestHourUtc, 0), None)] else []
  }

  /** The blog fetch and the blog digest, registered when blogs are on. */
  function BlogJobs(s: Settings): (jobs: seq<Job>)
    ensures |jobs| == if s.blogEnabled then 2 else 0
    ensures s.blogEnabled ==> jobs[0].id == BlogJobId && jobs[1].id == BlogDigestJobId
    ensures forall i :: 0 <= i < |jobs| ==> jobs[i].sitemap.None?
  {
    if s.blogEnabled
    then [Job(BlogJobId, Interval(s.blogFetchIntervalMinutes), None),
          Job(BlogDigestJobId, Cron(None, s.blogDigestHourUtc, 0), None)]
    else []
  }

  const CleanupJob := Job(CleanupJobId, Cron(Some("sun"), 3, 0), None)

  /** The jobs registered once the sitemap sources are known. */
  function Jobs(s: Settings, sources: seq<Sitemap.SitemapSource>): (jobs: seq<Job>)
    ensures |jobs| >= 1 && jobs[|jobs| - 1] == CleanupJob
  {
    FetchJobs(s) + DigestJobs(s, sources) + BlogJobs(s) + SitemapJobs(s, sources) + [CleanupJob]
  }

  // ---------------------------------------------------------- properties

  /** Whether a job with this id is registered. */
  predicate HasJob(jobs: seq<Job>, id: string)
  {
    exists i :: 0 <= i < |jobs| && jobs[i].id == id
  }

  predicate IsSitemapJob(j: Job)
  {
    j.sitemap.Some?
  }

  /** Which jobs `create_scheduler` registers: the release fetch exactly
      when releases are on, the release digest when releases are on or a
      sitemap source is routed as releases, both blog jobs exactly when
      blogs are on, one job per sitemap source in file order, and the
      cleanup always, last. */
  lemma SchedulerJobs(s: Settings, config: Sitemap.ConfigFile)
    requires CreateScheduler(s, config).Ok?
    ensures var jobs := CreateScheduler(s, config).value;
            var sources := if s.sitemapEnabled then Sitemap.LoadSitemapSources(config).value else [];
            && (HasJob(jobs, FetchJobId) <==> s.releaseEnabled)
            && (HasJob(jobs, DigestJobId) <==> s.releaseEnabled || HasReleaseSitemaps(sources))
            && (HasJob(jobs, BlogJobId) <==> s.blogEnabled)
            && (HasJob(jobs, BlogDigestJobId) <==> s.blogEnabled)
            && Keep(jobs, IsSitemapJob) == SitemapJobs(s, sources)
            && |jobs| == (if s.releaseEnabled then 1 else 0) + (if s.releaseEnabled || HasReleaseSitemaps(sources) then 1 else 0)
                         + (if s.blogEnabled then 2 else 0) + |sources| + 1
  {
    var sources := if s.sitemapEnabled then Sitemap.LoadSitemapSources(config).value else [];
    assert CreateScheduler(s, config).value == Jobs(s, sources);
    JobsShape(s, sources);
  }

  lemma JobsShape(s: Settings, sources: seq<Sitemap.SitemapSource>)
    ensures var jobs := Jobs(s, sources);
            && (HasJob(jobs, FetchJobId) <==> s.releaseEnabled)
            && (HasJob(jobs, DigestJobId) <==> s.releaseEnabled || HasReleaseSitemaps(sources))
            && (HasJob(jobs, BlogJobId) <==> s.blogEnabled)
            && (HasJob(jobs, BlogDigestJobId) <==> s.blogEnabled)
            && Keep(jobs, IsSitemapJob) == SitemapJobs(s, sources)
            && |jobs| == (if s.releaseEnabled then 1 else 0) + (if s.releaseEnabled || HasReleaseSitemaps(sources) then 1 else 0)
                         + (if s.blogEnabled then 2 else 0) + |sources| + 1
  {
    var a, b, c, d := FetchJobs(s), DigestJobs(s, sources), BlogJobs(s), SitemapJobs(s, sources);
    JobsKeep(a, b, c, d, [CleanupJob]);
    FixedIdsDistinct();
    FixedJob(a, b, c, d, [CleanupJob], FetchJobId);
    FixedJob(a, b, c, d, [CleanupJob], DigestJobId);
    FixedJob(a, b, c, d, [CleanupJob], BlogJobId);
    FixedJob(a, b, c, d, [CleanupJob], BlogDigestJobId);
    FetchJobsHave(s);
    DigestJobsHave(s, sources);
    BlogJobsHave(s);
  }

  lemma FetchJobsHave(s: Settings)
    ensures HasJob(FetchJobs(s), FetchJobId) <==> s.releaseEnabled
    ensures !HasJob(FetchJobs(s), DigestJobId) && !HasJob(FetchJobs(s), BlogJobId)
    ensures !HasJob(FetchJobs(s), BlogDigestJobId)
  {
    FixedIdsDistinct();
    if s.releaseEnabled { assert FetchJobs(s)[0].id == FetchJobId; }
  }

  lemma DigestJobsHave(s: Settings, sources: seq<Sitemap.SitemapSource>)
    ensures HasJob(DigestJobs(s, sources), DigestJobId) <==> s.releaseEnabled || HasReleaseSitemaps(sources)
    ensures !HasJob(DigestJobs(s, sources), FetchJobId) && !HasJob(DigestJobs(s, sources), BlogJobId)
    ensures !HasJob(DigestJobs(s, sources), BlogDigestJobId)
  {
    FixedIdsDistinct();
    var b := DigestJobs(s, sources);
    if |b| > 0 { assert b[0].id == DigestJobId; }
  }

  lemma BlogJobsHave(s: Settings)
    ensures HasJob(BlogJobs(s), BlogJobId) <==> s.blogEnabled
    ensures HasJob(BlogJobs(s), BlogDigestJobId) <==> s.blogEnabled
    ensures !HasJob(BlogJobs(s), FetchJobId) && !HasJob(BlogJobs(s), DigestJobId)
  {
    FixedIdsDistinct();
    var c := BlogJobs(s);
    if s.blogEnabled {
      assert c[0].id == BlogJobId;
      assert c[1].id == BlogDigestJobId;
    }
  }

  /** Only the sitemap jobs carry a source. */
  lemma JobsKeep(a: seq<Job>, b: seq<Job>, c: seq<Job>, d: seq<Job>, e: seq<Job>)
    requires forall i :: 0 <= i < |a| ==> a[i].sitemap.None?
    requires forall i :: 0 <= i < |b| ==> b[i].sitemap.None?
    requires forall i :: 0 <= i < |c| ==> c[i].sitemap.None?
    requires forall i :: 0 <= i < |d| ==> d[i].sitemap.Some?
    requires forall i :: 0 <= i < |e| ==> e[i].sitemap.None?
    ensures Keep(a + b + c + d + e, IsSitemapJob) == d
  {
    KeepAppend(a + b + c + d, e, IsSitemapJob);
    KeepAppend(a + b + c, d, IsSitemapJob);
    KeepAppend(a + b, c, IsSitemapJob);
    KeepAppend(a, b, IsSitemapJob);
    KeepAll(d, IsSitemapJob);
    KeepNone(a, IsSitemapJob);
    KeepNone(b, IsSitemapJob);
    KeepNone(c, IsSitemapJob);
    KeepNone(e, IsSitemapJob);
  }

  /** The fixed job ids differ from each other and from every sitemap id. */
  lemma FixedIdsDistinct()
    ensures FetchJobId[0] != 's' && DigestJobId[0] != 's' && BlogJobId[0] != 's' && BlogDigestJobId[0] != 's'
    ensures FetchJobId != DigestJobId && FetchJobId != BlogJobId && FetchJobId != BlogDigestJobId
    ensures DigestJobId != BlogJobId && DigestJobId != BlogDigestJobId && BlogJobId != BlogDigestJobId
    ensures CleanupJobId !in {FetchJobId, DigestJobId, BlogJobId, BlogDigestJobId}
  {
    assert FetchJobId[0] == 'f' && BlogJobId[0] == 'f';
    assert DigestJobId[0] == 'd' && BlogDigestJobId[0] == 'd';
    assert CleanupJobId[0] == 'w';
    assert |FetchJobId| == 16 && |BlogJobId| == 22;
    assert |DigestJobId| == 12 && |BlogDigestJobId| == 17;
  }

  lemma HasJobAppend(x: seq<Job>, y: seq<Job>, id: string)
    ensures HasJob(x + y, id) <==> HasJob(x, id) || HasJob(y, id)
  {
    if HasJob(x + y, id) {
      var i :| 0 <= i < |x + y| && (x + y)[i].id == id;
      if i >= |x| {
        assert y[i - |x|] == (x + y)[i];
      }
    }
    if HasJob(x, id) {
      var i :| 0 <= i < |x| && x[i].id == id;
      assert (x + y)[i] == x[i];
    }
    if HasJob(y, id) {
      var i :| 0 <= i < |y| && y[i].id == id;
      assert (x + y)[|x| + i] == y[i];
    }
  }

  /** A fixed id is registered exactly when one of the fixed jobs before
      the sitemap jobs carries it. */
  lemma FixedJob(a: seq<Job>, b: seq<Job>, c: seq<Job>, d: seq<Job>, e: seq<Job>, id: string)
    requires |id| > 0 && id[0] != 's' && id != CleanupJobId
    requires forall i :: 0 <= i < |d| ==> |d[i].id| >= 8 && d[i].id[..8] == "sitemap_"
    requires e == [CleanupJob]
    ensures HasJob(a + b + c + d + e, id) <==> HasJob(a, id) || HasJob(b, id) || HasJob(c, id)
  {
    assert !HasJob(d, id) by {
      forall i | 0 <= i < |d| ensures d[i].id != id {
        assert d[i].id[0] == d[i].id[..8][0];
      }
    }
    assert !HasJob(e, id);
    HasJobAppend(a + b + c + d, e, id);
    HasJobAppend(a + b + c, d, id);
    HasJobAppend(a + b, c, id);
    HasJobAppend(a, b, id);
  }

  /** Two source names that differ only in case, or in a space against an
      underscore, get the same job id. */
  lemma SitemapJobIdsCollide()
    ensures SitemapJobId("Tech Blog") == SitemapJobId("tech_blog")
  {
    assert Lower("Tech Blog") == "tech blog";
    assert Lower("tech_blog") == "tech_blog";
    assert ReplaceChar("tech blog", ' ', '_') == "tech_blog";
    assert ReplaceChar("tech_blog", ' ', '_') == "tech_blog";
  }
}

=== FILE: sitemap.dfy ===
/** Sitemap-based article discovery (src/ai_sub/fetcher/sitemap.py): the
    source configuration with its defaults, the selection of sitemap entries
    (filter by `loc` and path prefix, newest first, cut to the limit) and
    the article built for each selected page. HTTP, the XML and YAML parsers,
    `urlparse`, `datetime.fromisoformat`, MD5 and the page-scraping regexes
    are inputs: the sitemap arrives as its list of `<url>` entries (or None
    when fetching or parsing failed), and the other steps are oracles. */
module Sitemap {
  import opened Util
  import opened Sorting
  import opened Models
  import Url
  import Slug

  datatype SitemapSource = SitemapSource(
    name: string,
    category: string,
    sitemapUrl: string,
    pathPrefixes: seq<string>,
    maxArticles: int,
    notifyAs: string,
    fetchIntervalMinutes: int)

  /** One `sitemaps:` item of the YAML file; None is a missing key. */
  datatype SourceItem = SourceItem(
    name: Option<string>,
    category: Option<string>,
    sitemapUrl: Option<string>,
    pathPrefixes: Option<seq<string>>,
    maxArticles: Option<int>,
    notifyAs: Option<string>,
    fetchIntervalMinutes: Option<int>)

  /** The configuration file: missing, empty (YAML `None`), or a document
      whose `sitemaps` value is None when the key is absent, null or empty. */
  datatype ConfigFile = NotFound | EmptyDocument | Document(sitemaps: Option<seq<SourceItem>>)

  function Get<T>(o: Option<T>, default: T): T
  {
    if o.Some? then o.value else default
  }

  /** One item; a missing `name` or `sitemap_url` raises KeyError. */
  function FromItem(item: SourceItem): (r: Option<SitemapSource>)
    ensures r.Some? <==> item.name.Some? && item.sitemapUrl.Some?
    ensures r.Some? ==> r.value.name == item.name.value && r.value.sitemapUrl == item.sitemapUrl.value
  {
    if item.name.None? || item.sitemapUrl.None? then None
    else Some(SitemapSource(
      item.name.value,
      Get(item.category, ""),
      item.sitemapUrl.value,
      Get(item.pathPrefixes, []),
      Get(item.maxArticles, 10),
      Get(item.notifyAs, "blog"),
      Get(item.fetchIntervalMinutes, 0)))
  }

  /** `load_sitemap_sources`. A missing file gives no sources; an empty
      document raises (`None.get`), and so does an item without a name or
      a sitemap URL. */
  function LoadSitemapSources(file: ConfigFile): (r: Result<seq<SitemapSource>>)
    ensures file.NotFound? ==> r == Ok([])
    ensures file.EmptyDocument? ==> r.Err?
    ensures file.Document? && file.sitemaps.None? ==> r == Ok([])
    ensures file.Document? && file.sitemaps.Some? ==>
              (r.Ok? <==> forall i :: 0 <= i < |file.sitemaps.value| ==> FromItem(file.sitemaps.value[i]).Some?)
    ensures file.Document? && file.sitemaps.Some? && r.Ok? ==>
              |r.value| == |file.sitemaps.value|
              && forall i :: 0 <= i < |r.value| ==> Some(r.value[i]) == FromItem(file.sitemaps.value[i])
  {
    match file
    case NotFound => Ok([])
    case EmptyDocument => Err("AttributeError")
    case Document(None) => Ok([])
    case Document(Some(items)) => FromItems(items)
  }

  function FromItems(items: seq<SourceItem>): (r: Result<seq<SitemapSource>>)
    ensures r.Ok? <==> forall i :: 0 <= i < |items| ==> FromItem(items[i]).Some?
    ensures r.Ok? ==> |r.value| == |items| && forall i :: 0 <= i < |items| ==> Some(r.value[i]) == FromItem(items[i])
  {
    if |items| == 0 then Ok([])
    else match FromItem(items[0])
      case None => Err("KeyError")
      case Some(s) =>
        match FromItems(items[1..])
        case Err(e) => Err(e)
        case Ok(rest) =>
          assert forall i :: 1 <= i < |items| ==> items[i] == items[1..][i - 1];
          Ok([s] + rest)
  }

  // ------------------------------------------------------ entry selection

  /** One `<url>` element: `loc` ("" when missing or empty) and the texts of
      `lastmod` and `news:publication_date` ("" when missing). */
  datatype RawEntry = RawEntry(loc: string, lastmodText: string, publicationDateText: string)

  /** A kept entry: its URL and parsed date. */
  datatype Candidate = Candidate(loc: string, lastmod: Option<Instant>)

  /** Whether an entry passes: it has a `loc`, and with prefixes configured
      its path starts with one of them. `path` stands for `urlparse(.).path`. */
  predicate Wanted(prefixes: seq<string>, path: string -> string, e: RawEntry)
  {
    e.loc != "" && (|prefixes| == 0 || exists i :: 0 <= i < |prefixes| && prefixes[i] <= path(e.loc))
  }

  function WantedBy(prefixes: seq<string>, path: string -> string): RawEntry -> bool
  {
    (e: RawEntry) => Wanted(prefixes, path, e)
  }

  /** `_parse_lastmod(lastmod or publication_date)`: empty text is no date,
      anything else goes to the date parser, which answers None on failure. */
  function Lastmod(e: RawEntry, parseDate: string -> Option<Instant>): (d: Option<Instant>)
    ensures OrElse(e.lastmodText, e.publicationDateText) == "" ==> d.None?
    ensures e.lastmodText != "" ==> d == parseDate(e.lastmodText)
    ensures e.lastmodText == "" && e.publicationDateText != "" ==> d == parseDate(e.publicationDateText)
  {
    var text := OrElse(e.lastmodText, e.publicationDateText);
    if text == "" then None else parseDate(text)
  }

  function Candidates(prefixes: seq<string>, entries: seq<RawEntry>, path: string -> string,
                      parseDate: string -> Option<Instant>): (r: seq<Candidate>)
    ensures |r| == |Keep(entries, WantedBy(prefixes, path))|
  {
    var kept := Keep(entries, WantedBy(prefixes, path));
    seq(|kept|, i requires 0 <= i < |kept| => Candidate(kept[i].loc, Lastmod(kept[i], parseDate)))
  }

  /** The sort key compared with `reverse=True`: a missing date is the
      smallest (`datetime.min`). */
  predicate NewerOrSame(a: Candidate, b: Candidate)
  {
    b.lastmod.None? || (a.lastmod.Some? && a.lastmod.value >= b.lastmod.value)
  }

  /** The entries `fetch_sitemap_articles` goes on to fetch. */
  function Select(src: SitemapSource, entries: seq<RawEntry>, path: string -> string,
                  parseDate: string -> Option<Instant>): (r: seq<Candidate>)
    ensures src.maxArticles >= 0 ==> |r| <= src.maxArticles
    ensures r <= Sort(Candidates(src.pathPrefixes, entries, path, parseDate), NewerOrSame)
  {
    SliceTo(Sort(Candidates(src.pathPrefixes, entries, path, parseDate), NewerOrSame), src.maxArticles)
  }

  // -------------------------------------------------------- page articles

  /** What fetching one page gave: the scraped title and description, an
      HTTP error (handled inside `_fetch_page`), or another exception, which
      drops the page. */
  datatype PageFetch = Meta(title: string, description: string) | HttpError | Raised

  function StripTrailing(s: string, c: char): (r: string)
    ensures r <= s && (r == "" || r[|r| - 1] != c)
    ensures forall i :: |r| <= i < |s| ==> s[i] == c
  {
    if |s| > 0 && s[|s| - 1] == c then StripTrailing(s[..|s| - 1], c) else s
  }

  /** `s.split("/")[-1]`: the text after the last slash. */
  function LastSegment(s: string): (r: string)
    ensures |r| <= |s| && r == s[|s| - |r|..]
    ensures '/' !in r
    ensures |r| == |s| || s[|s| - |r| - 1] == '/'
  {
    if |s| == 0 || s[|s| - 1] == '/' then ""
    else LastSegment(s[..|s| - 1]) + [s[|s| - 1]]
  }

  predicate IsAsciiLetter(c: char)
  {
    'a' <= c <= 'z' || 'A' <= c <= 'Z'
  }

  /** Upper- and lower-casing an ASCII letter gives a letter of that case,
      the same letter up to case. */
  lemma LetterCases(c: char)
    requires IsAsciiLetter(c)
    ensures 'A' <= UpperChar(c) <= 'Z' && LowerChar(UpperChar(c)) == LowerChar(c)
    ensures 'a' <= LowerChar(c) <= 'z' && LowerChar(LowerChar(c)) == LowerChar(c)
  {
  }

  /** One character of `str.title()`: lower case after a letter, upper case
      elsewhere. */
  function TitleChar(afterLetter: bool, c: char): (d: char)
    ensures IsAsciiLetter(c) && !afterLetter ==> 'A' <= d <= 'Z' && LowerChar(d) == LowerChar(c)
    ensures IsAsciiLetter(c) && afterLetter ==> 'a' <= d <= 'z' && LowerChar(d) == LowerChar(c)
    ensures !IsAsciiLetter(c) ==> d == c
  {
    if IsAsciiLetter(c) then LetterCases(c); (if afterLetter then LowerChar(c) else UpperChar(c))
    else c
  }

  predicate AfterLetter(s: string, i: int)
    requires 0 <= i < |s|
  {
    i > 0 && IsAsciiLetter(s[i - 1])
  }

  /** Title-casing each character by its predecessor upper-cases the start
      of each run of letters and lower-cases the rest. */
  lemma TitleCharsCase(s: string, r: string)
    requires |r| == |s| && forall i :: 0 <= i < |s| ==> r[i] == TitleChar(AfterLetter(s, i), s[i])
    ensures forall i :: 0 <= i < |s| && IsAsciiLetter(s[i]) && (i == 0 || !IsAsciiLetter(s[i - 1])) ==>
              'A' <= r[i] <= 'Z' && LowerChar(r[i]) == LowerChar(s[i])
    ensures forall i :: 0 < i < |s| && IsAsciiLetter(s[i]) && IsAsciiLetter(s[i - 1]) ==>
              'a' <= r[i] <= 'z' && LowerChar(r[i]) == LowerChar(s[i])
    ensures forall i :: 0 <= i < |s| && !IsAsciiLetter(s[i]) ==> r[i] == s[i]
  {
    forall i | 0 <= i < |s|
      ensures IsAsciiLetter(s[i]) && (i == 0 || !IsAsciiLetter(s[i - 1])) ==>
                'A' <= r[i] <= 'Z' && LowerChar(r[i]) == LowerChar(s[i])
      ensures i > 0 && IsAsciiLetter(s[i]) && IsAsciiLetter(s[i - 1]) ==>
                'a' <= r[i] <= 'z' && LowerChar(r[i]) == LowerChar(s[i])
      ensures !IsAsciiLetter(s[i]) ==> r[i] == s[i]
    {
      assert r[i] == TitleChar(AfterLetter(s, i), s[i]);
    }
  }

  /** `str.title()` on ASCII: a letter is upper-cased at the start of a run
      of letters and lower-cased inside one. */
  function TitleCase(s: string): (r: string)
    ensures |r| == |s|
    ensures forall i :: 0 <= i < |s| && IsAsciiLetter(s[i]) && (i == 0 || !IsAsciiLetter(s[i - 1])) ==>
              'A' <= r[i] <= 'Z' && LowerChar(r[i]) == LowerChar(s[i])
    ensures forall i :: 0 < i < |s| && IsAsciiLetter(s[i]) && IsAsciiLetter(s[i - 1]) ==>
              'a' <= r[i] <= 'z' && LowerChar(r[i]) == LowerChar(s[i])
    ensures forall i :: 0 <= i < |s| && !IsAsciiLetter(s[i]) ==> r[i] == s[i]
  {
    var r := seq(|s|, i requires 0 <= i < |s| => TitleChar(AfterLetter(s, i), s[i]));
    TitleCharsCase(s, r);
    r
  }

  /** The fallback title: the last path segment with dashes as spaces, in
      title case. */
  function TitleFromPath(path: string): (t: string)
    ensures |t| == |LastSegment(StripTrailing(path, '/'))|
    ensures Lower(t) == Lower(DashesToSpaces(LastSegment(StripTrailing(path, '/'))))
    ensures '-' !in t && '/' !in t
  {
    var spaced := DashesToSpaces(LastSegment(StripTrailing(path, '/')));
    TitleCaseCaseOnly(spaced);
    TitleCaseAddsNoMark(spaced, '-');
    TitleCaseAddsNoMark(spaced, '/');
    TitleCase(spaced)
  }

  /** `.replace("-", " ")`. */
  function DashesToSpaces(s: string): (r: string)
    ensures |r| == |s| && '-' !in r
    ensures forall i :: 0 <= i < |s| && s[i] != '-' ==> r[i] == s[i]
  {
    seq(|s|, i requires 0 <= i < |s| => if s[i] == '-' then ' ' else s[i])
  }

  /** Title casing never introduces a character that is not a letter. */
  lemma TitleCaseAddsNoMark(s: string, c: char)
    requires !IsAsciiLetter(c) && c !in s
    ensures c !in TitleCase(s)
  {
    var r := TitleCase(s);
    forall i | 0 <= i < |r|
      ensures r[i] != c
    {
      if IsAsciiLetter(s[i]) {
        LetterCases(s[i]);
      }
    }
  }

  /** `_make_source_id` here hashes the normalised URL: urls the parser
      cannot split keep the id of the url as given, and urls that normalise
      alike share an id (SameNormalSameId). */
  function PageSourceId(name: string, url: string, parse: string -> Option<Url.Parsed>,
                        unparse: Url.Parsed -> string, md5hex: string -> string): (id: string)
    ensures |id| >= 6 && id[..5] == "blog:"
    ensures parse(url).None? ==> id == Slug.SourceId(name, url, md5hex)
  {
    Slug.SourceId(name, Url.Normalize(url, parse, unparse), md5hex)
  }

  /** The article `_fetch_page` builds for a page that did not raise, given
      the id `_make_source_id` gave its URL. */
  function FetchedArticle(src: SitemapSource, c: Candidate, page: PageFetch, path: string -> string, id: string)
    : (a: BlogArticle)
    requires !page.Raised?
    ensures a.sourceId == id && a.url == c.loc && a.publishedDate == c.lastmod
    ensures a.blogName == src.name && a.category == src.category && a.notifyAs == src.notifyAs
    ensures a.title != "" || TitleFromPath(path(c.loc)) == ""
    ensures a.content.Some? ==> 0 < |a.content.value| <= 3000
  {
    var scraped := if page.Meta? then page.title else "";
    var description := if page.Meta? then page.description else "";
    var title := OrElse(scraped, TitleFromPath(path(c.loc)));
    var content := SliceTo(description, 3000);
    BlogArticle(id, src.name, src.category, title, c.loc, OrElse(description, title), c.lastmod,
                if content == "" then None else Some(content), src.notifyAs)
  }

  /** `_fetch_page`: None when the page raised something other than an
      HTTP error. */
  function PageArticle(src: SitemapSource, c: Candidate, page: PageFetch, path: string -> string,
                       parse: string -> Option<Url.Parsed>, unparse: Url.Parsed -> string,
                       md5hex: string -> string): (a: Option<BlogArticle>)
    ensures a.None? <==> page.Raised?
    ensures a.Some? ==> a.value.sourceId == PageSourceId(src.name, c.loc, parse, unparse, md5hex)
    ensures a.Some? ==> a.value.url == c.loc && a.value.publishedDate == c.lastmod
    ensures a.Some? ==> a.value.blogName == src.name && a.value.category == src.category && a.value.notifyAs == src.notifyAs
    ensures a.Some? ==> a.value.title != "" || TitleFromPath(path(c.loc)) == ""
    ensures a.Some? && a.value.content.Some? ==> 0 < |a.value.content.value| <= 3000
  {
    if page.Raised? then None
    else Some(FetchedArticle(src, c, page, path, PageSourceId(src.name, c.loc, parse, unparse, md5hex)))
  }

  /** `fetch_sitemap_articles`: `doc` is None when the sitemap could not be
      fetched or parsed; `pages` answers for each page URL. */
  function FetchSitemapArticles(src: SitemapSource, doc: Option<seq<RawEntry>>, path: string -> string,
                                parseDate: string -> Option<Instant>, pages: string -> PageFetch,
                                parse: string -> Option<Url.Parsed>, unparse: Url.Parsed -> string,
                                md5hex: string -> string): (r: seq<BlogArticle>)
    ensures doc.None? ==> r == []
    ensures doc.Some? ==> |r| <= |Select(src, doc.value, path, parseDate)|
    ensures doc.Some? ==> var kept := Keep(Select(src, doc.value, path, parseDate), PageFetched(pages));
            |r| == |kept| && forall j :: 0 <= j < |r| ==>
              PageArticle(src, kept[j], pages(kept[j].loc), path, parse, unparse, md5hex) == Some(r[j])
    ensures forall i :: 0 <= i < |r| ==> r[i].blogName == src.name && r[i].notifyAs == src.notifyAs
  {
    if doc.None? then []
    else Articles(src, Select(src, doc.value, path, parseDate), pages, path, parse, unparse, md5hex)
  }

  /** The `isinstance` filter after `gather`: the candidates whose page did
      not raise. */
  function PageFetched(pages: string -> PageFetch): Candidate -> bool
  {
    (c: Candidate) => !pages(c.loc).Raised?
  }

  /** The gathered page articles, without the pages that raised. */
  function Articles(src: SitemapSource, cs: seq<Candidate>, pages: string -> PageFetch, path: string -> string,
                    parse: string -> Option<Url.Parsed>, unparse: Url.Parsed -> string,
                    md5hex: string -> string): (r: seq<BlogArticle>)
    ensures |r| <= |cs|
    ensures |r| == |cs| <==> forall i :: 0 <= i < |cs| ==> !pages(cs[i].loc).Raised?
    ensures forall j :: 0 <= j < |r| ==> r[j].blogName == src.name && r[j].notifyAs == src.notifyAs
    ensures forall j :: 0 <= j < |r| ==> exists i :: 0 <= i < |cs| && r[j].url == cs[i].loc
    ensures var kept := Keep(cs, PageFetched(pages));
            |r| == |kept| && forall j :: 0 <= j < |r| ==>
              PageArticle(src, kept[j], pages(kept[j].loc), path, parse, unparse, md5hex) == Some(r[j])
  {
    var f := (c: Candidate) => PageArticle(src, c, pages(c.loc), path, parse, unparse, md5hex);
    var r := Collect(cs, f);
    var ok := PageFetched(pages);
    forall i | 0 <= i < |cs|
      ensures ok(cs[i]) <==> f(cs[i]).Some?
    {
      var a := PageArticle(src, cs[i], pages(cs[i].loc), path, parse, unparse, md5hex);
      assert f(cs[i]) == a;
    }
    CollectInOrder(cs, f, ok);
    forall j | 0 <= j < |r|
      ensures r[j].blogName == src.name && r[j].notifyAs == src.notifyAs
      ensures exists i :: 0 <= i < |cs| && r[j].url == cs[i].loc
    {
      var i :| 0 <= i < |cs| && f(cs[i]) == Some(r[j]);
      var a := PageArticle(src, cs[i], pages(cs[i].loc), path, parse, unparse, md5hex);
      assert a == Some(r[j]);
    }
    r
  }

  // ----------------------------------------------------------- properties

  /** An item with only a name and a sitemap URL takes every default. */
  lemma SourceDefaults(name: string, url: string)
    ensures FromItem(SourceItem(Some(name), None, Some(url), None, None, None, None))
         == Some(SitemapSource(name, "", url, [], 10, "blog", 0))
  {
  }

  /** An entry becomes a candidate exactly when it has a `loc` and, with
      prefixes configured, its path starts with one of them. */
  lemma CandidateIff(prefixes: seq<string>, entries: seq<RawEntry>, path: string -> string,
                     parseDate: string -> Option<Instant>, e: RawEntry)
    requires e in entries
    ensures (exists c :: c in Candidates(prefixes, entries, path, parseDate) && c.loc == e.loc)
         <== Wanted(prefixes, path, e)
    ensures forall c :: c in Candidates(prefixes, entries, path, parseDate) ==>
              exists k :: 0 <= k < |entries| && entries[k].loc == c.loc && Wanted(prefixes, path, entries[k])
  {
    var kept := Keep(entries, WantedBy(prefixes, path));
    KeepMembers(entries, WantedBy(prefixes, path));
    var cs := Candidates(prefixes, entries, path, parseDate);
    if Wanted(prefixes, path, e) {
      var i :| 0 <= i < |kept| && kept[i] == e;
      assert cs[i].loc == e.loc;
    }
    forall c | c in cs
      ensures exists k :: 0 <= k < |entries| && entries[k].loc == c.loc && Wanted(prefixes, path, entries[k])
    {
      var i :| 0 <= i < |cs| && cs[i] == c;
      assert kept[i] in entries && WantedBy(prefixes, path)(kept[i]);
      var k :| 0 <= k < |entries| && entries[k] == kept[i];
    }
  }

  lemma NewerOrSameTotalPreorder()
    ensures TotalPreorder(NewerOrSame)
  {
  }

  /** The selection is the newest first, keeps the input order among equal
      dates, is cut to the limit, and drops only older (or equally old)
      candidates than the ones it keeps. */
  lemma SelectionNewestFirst(src: SitemapSource, entries: seq<RawEntry>, path: string -> string,
                             parseDate: string -> Option<Instant>, a: Candidate)
    ensures var cs := Candidates(src.pathPrefixes, entries, path, parseDate);
            var sel := Select(src, entries, path, parseDate);
            var sorted := Sort(cs, NewerOrSame);
            && SortedBy(sel, NewerOrSame)
            && multiset(sorted) == multiset(cs)
            && (forall i, j :: 0 <= i < |sel| <= j < |sorted| ==> NewerOrSame(sel[i], sorted[j]))
            && Keep(sorted, TiedWith(NewerOrSame, a)) == Keep(cs, TiedWith(NewerOrSame, a))
            && (0 <= src.maxArticles ==> |sel| == if src.maxArticles < |cs| then src.maxArticles else |cs|)
  {
    var cs := Candidates(src.pathPrefixes, entries, path, parseDate);
    var sorted := Sort(cs, NewerOrSame);
    NewerOrSameTotalPreorder();
    SortSorted(cs, NewerOrSame);
    SortStable(cs, NewerOrSame, a);
  }

  /** A page that could not be fetched still gives an article: the title
      comes from the URL path, the summary is the title and there is no
      content. */
  lemma FetchErrorFallback(src: SitemapSource, c: Candidate, path: string -> string, id: string)
    ensures var a := FetchedArticle(src, c, HttpError, path, id);
            && a.title == TitleFromPath(path(c.loc))
            && a.summary == a.title
            && a.content.None?
  {
  }
  /** With a scraped page, the description is the summary and, capped at
      3000 characters, the content; without one the summary falls back to
      the title. */
  lemma ScrapedPage(src: SitemapSource, c: Candidate, title: string, description: string, path: string -> string,
                    id: string)
    requires title != ""
    ensures var a := FetchedArticle(src, c, Meta(title, description), path, id);
            && a.title == title
            && (description != "" ==> a.summary == description && a.content == Some(SliceTo(description, 3000)))
            && (description == "" ==> a.summary == title && a.content.None?)
  {
    var content := SliceTo(description, 3000);
    assert OrElse(title, TitleFromPath(path(c.loc))) == title;
    if description != "" {
      assert |content| > 0;
      assert OrElse(description, title) == description;
    } else {
      assert content == "";
    }
  }

  /** An illustration on one fixed path, not a general property: the worked
      fallback `/news/ai-day/` gives "Ai Day". The three lemmas after it are
      its steps. */
  lemma TitleFromPathExample()
    ensures TitleFromPath("/news/ai-day/") == "Ai Day"
  {
    StripTrailingExample();
    LastSegmentExample();
    var spaced := DashesToSpaces("ai-day");
    assert spaced == "ai day" by {
      assert |spaced| == 6 && spaced[2] == ' ';
    }
    TitleCaseExample();
    assert TitleFromPath("/news/ai-day/") == TitleCase(spaced);
  }

  /** Illustration step: one trailing slash removed. */
  lemma StripTrailingExample()
    ensures StripTrailing("/news/ai-day/", '/') == "/news/ai-day"
  {
    assert StripTrailing("/news/ai-day/", '/') == StripTrailing("/news/ai-day", '/');
  }

  /** Illustration step: the last segment of the stripped path. */
  lemma LastSegmentExample()
    ensures LastSegment("/news/ai-day") == "ai-day"
  {
    var s := "/news/ai-day";
    var r := LastSegment(s);
    assert s[6..] == "ai-day" && s[5] == '/';
    assert |r| == 6;
  }

  /** Illustration step: title casing the segment. */
  lemma TitleCaseExample()
    ensures TitleCase("ai day") == "Ai Day"
  {
  }

  /** Title casing only changes case, and doing it twice changes nothing. */
  lemma TitleCaseCaseOnly(s: string)
    ensures Lower(TitleCase(s)) == Lower(s)
    ensures TitleCase(TitleCase(s)) == TitleCase(s)
  {
    var t := TitleCase(s);
    assert forall i :: 0 <= i < |s| ==> IsAsciiLetter(t[i]) == IsAsciiLetter(s[i]);
  }

  /** Pages whose URLs normalise alike share a source id, so tracking
      parameters and fragments do not create duplicates. */
  lemma SameNormalSameId(name: string, u1: string, u2: string, parse: string -> Option<Url.Parsed>,
                         unparse: Url.Parsed -> string, md5hex: string -> string)
    requires Url.Normalize(u1, parse, unparse) == Url.Normalize(u2, parse, unparse)
    ensures PageSourceId(name, u1, parse, unparse, md5hex) == PageSourceId(name, u2, parse, unparse, md5hex)
  {
  }
}

=== FILE: slug.dfy ===
/** Source-id helpers shared by the RSS and the sitemap fetchers
    (`_slugify` and `_make_source_id` in src/ai_sub/fetcher/blog.py and
    src/ai_sub/fetcher/sitemap.py). Both files slugify alike; they differ in
    the key they hash: the RSS fetcher hashes the url as given, the sitemap
    fetcher its normalised form (see Sitemap.PageSourceId). SourceId takes
    that key as a parameter. The MD5 digest is an oracle returning the hex
    digest of the key. */
module Slug {
  import opened Util
  import opened Sorting

  /** `[a-z0-9]`. */
  predicate IsSlugChar(c: char)
  {
    'a' <= c <= 'z' || '0' <= c <= '9'
  }

  /** Slug characters and single dashes only. */
  ghost predicate SlugText(s: string)
  {
    && (forall i :: 0 <= i < |s| ==> IsSlugChar(s[i]) || s[i] == '-')
    && (forall i, j :: 0 <= i < j < |s| && j == i + 1 ==> s[i] != '-' || s[j] != '-')
  }

  lemma SliceSlugText(s: string, a: int, b: int)
    requires SlugText(s) && 0 <= a <= b <= |s|
    ensures SlugText(s[a..b])
  {
    var t := s[a..b];
    forall i | 0 <= i < |t|
      ensures IsSlugChar(t[i]) || t[i] == '-'
    {
      assert t[i] == s[a + i];
    }
    forall i, j | 0 <= i < j < |t| && j == i + 1
      ensures t[i] != '-' || t[j] != '-'
    {
      assert t[i] == s[a + i] && t[j] == s[a + j];
    }
  }

  /** The rest of `s` after its leading run of non-slug characters. */
  function DropRun(s: string): (r: string)
    ensures |r| <= |s| && r == s[|s| - |r|..]
    ensures r == "" || IsSlugChar(r[0])
    ensures forall i :: 0 <= i < |s| - |r| ==> !IsSlugChar(s[i])
  {
    if |s| == 0 || IsSlugChar(s[0]) then s else DropRun(s[1..])
  }

  /** `re.sub(r"[^a-z0-9]+", "-", s)`: every maximal run of other
      characters becomes one dash. */
  function Collapse(s: string): (r: string)
    ensures SlugText(r)
    ensures |r| <= |s|
    ensures |s| > 0 && IsSlugChar(s[0]) ==> |r| > 0 && r[0] == s[0]
    decreases |s|
  {
    if |s| == 0 then ""
    else if IsSlugChar(s[0]) then
      var rest := Collapse(s[1..]);
      ConsSlugText(s[0], rest);
      [s[0]] + rest
    else
      var rest := Collapse(DropRun(s));
      ConsSlugText('-', rest);
      "-" + rest
  }

  /** A slug character, or a dash not followed by another, extends slug text. */
  lemma ConsSlugText(c: char, rest: string)
    requires SlugText(rest)
    requires IsSlugChar(c) || c == '-'
    requires IsSlugChar(c) || rest == "" || IsSlugChar(rest[0])
    ensures SlugText([c] + rest)
  {
    var r := [c] + rest;
    forall i | 0 <= i < |r|
      ensures IsSlugChar(r[i]) || r[i] == '-'
    {
      if i > 0 {
        assert r[i] == rest[i - 1];
      }
    }
    forall i, j | 0 <= i < j < |r| && j == i + 1
      ensures r[i] != '-' || r[j] != '-'
    {
      if i > 0 {
        assert r[i] == rest[i - 1] && r[j] == rest[j - 1];
      } else {
        assert r[j] == rest[0];
      }
    }
  }

  function StripLeft(s: string): (r: string)
    ensures r == "" || r[0] != '-'
    ensures |r| <= |s| && r == s[|s| - |r|..]
  {
    if |s| > 0 && s[0] == '-' then StripLeft(s[1..]) else s
  }

  function StripRight(s: string): (r: string)
    ensures r == "" || r[|r| - 1] != '-'
    ensures |r| <= |s| && r == s[..|r|]
  {
    if |s| > 0 && s[|s| - 1] == '-' then StripRight(s[..|s| - 1]) else s
  }

  /** `s.strip("-")`. */
  function Strip(s: string): string
  {
    StripRight(StripLeft(s))
  }

  /** The slug before the 40-character cut. */
  function FullSlug(text: string): string
  {
    Strip(Collapse(Lower(text)))
  }

  /** `_slugify`. */
  function Slugify(text: string): (r: string)
    ensures |r| <= 40 && r <= FullSlug(text)
    ensures |FullSlug(text)| <= 40 ==> r == FullSlug(text)
  {
    SliceTo(FullSlug(text), 40)
  }

  /** The hex digits of a digest. */
  predicate IsHex(s: string)
  {
    forall i :: 0 <= i < |s| ==> '0' <= s[i] <= '9' || 'a' <= s[i] <= 'f'
  }

  /** `_make_source_id`: `blog:<slug>:<first 12 hex digits of md5(key)>`. */
  function SourceId(name: string, key: string, md5hex: string -> string): (id: string)
    ensures |id| >= 6 && id[..5] == "blog:"
    ensures |id| == 6 + |Slugify(name)| + |SliceTo(md5hex(key), 12)|
  {
    var slug := Slugify(name);
    var digest := SliceTo(md5hex(key), 12);
    "blog:" + slug + ":" + digest
  }

  // ----------------------------------------------------------- properties

  /** A slug holds only lower-case letters, digits and single dashes, and
      never starts with a dash; it ends with one only when the cut at 40
      landed right after a dash. */
  lemma SlugShape(text: string)
    ensures var r := Slugify(text);
            && SlugText(r)
            && (r == "" || r[0] != '-')
            && (|FullSlug(text)| <= 40 ==> r == "" || r[|r| - 1] != '-')
  {
    var f := FullSlug(text);
    FullSlugShape(text);
    var r := Slugify(text);
    assert r <= f;
    SliceSlugText(f, 0, |r|);
    assert r == f[0..|r|];
    if |f| <= 40 {
      assert r == f;
    }
  }

  lemma FullSlugShape(text: string)
    ensures var f := FullSlug(text);
            && SlugText(f)
            && (f == "" || (f[0] != '-' && f[|f| - 1] != '-'))
  {
    var c := Collapse(Lower(text));
    StripShape(c);
    assert FullSlug(text) == Strip(c);
  }

  lemma StripShape(c: string)
    requires SlugText(c)
    ensures var f := Strip(c);
            && SlugText(f)
            && (f == "" || (f[0] != '-' && f[|f| - 1] != '-'))
  {
    var l := StripLeft(c);
    StripLeftShape(c);
    StripRightShape(l);
  }

  lemma StripLeftShape(c: string)
    requires SlugText(c)
    ensures SlugText(StripLeft(c))
  {
    var l := StripLeft(c);
    SliceSlugText(c, |c| - |l|, |c|);
  }

  lemma StripRightShape(l: string)
    requires SlugText(l)
    ensures var f := StripRight(l);
            && SlugText(f)
            && (f == "" || f[|f| - 1] != '-')
            && ((l == "" || l[0] != '-') ==> (f == "" || f[0] != '-'))
  {
    var f := StripRight(l);
    SliceSlugText(l, 0, |f|);
    assert f == l[0..|f|];
  }

  /** The letters and digits of the text survive, in order, up to the cut:
      the slug's letters and digits are a prefix of the lower-cased text's,
      and all of them when the slug is not cut. */
  lemma SlugKeepsAlnum(text: string)
    ensures Keep(Slugify(text), IsSlugChar) <= Keep(Lower(text), IsSlugChar)
    ensures |FullSlug(text)| <= 40 ==> Keep(Slugify(text), IsSlugChar) == Keep(Lower(text), IsSlugChar)
  {
    var c := Collapse(Lower(text));
    CollapseKeepsAlnum(Lower(text));
    var l := StripLeft(c);
    StripLeftKeepsAlnum(c);
    StripRightKeepsAlnum(l);
    var f := StripRight(l);
    KeepPrefix(f, 40);
  }

  lemma {:induction false} CollapseKeepsAlnum(s: string)
    ensures Keep(Collapse(s), IsSlugChar) == Keep(s, IsSlugChar)
    decreases |s|
  {
    if |s| > 0 {
      if IsSlugChar(s[0]) {
        CollapseKeepsAlnum(s[1..]);
        assert ([s[0]] + Collapse(s[1..]))[1..] == Collapse(s[1..]);
      } else {
        var t := DropRun(s);
        CollapseKeepsAlnum(t);
        DropRunKeepsAlnum(s);
        assert ("-" + Collapse(t))[1..] == Collapse(t);
      }
    }
  }

  lemma {:induction false} DropRunKeepsAlnum(s: string)
    ensures Keep(DropRun(s), IsSlugChar) == Keep(s, IsSlugChar)
  {
    if |s| > 0 && !IsSlugChar(s[0]) {
      DropRunKeepsAlnum(s[1..]);
    }
  }

  lemma {:induction false} StripLeftKeepsAlnum(s: string)
    ensures Keep(StripLeft(s), IsSlugChar) == Keep(s, IsSlugChar)
  {
    if |s| > 0 && s[0] == '-' {
      StripLeftKeepsAlnum(s[1..]);
    }
  }

  lemma {:induction false} StripRightKeepsAlnum(s: string)
    ensures Keep(StripRight(s), IsSlugChar) == Keep(s, IsSlugChar)
    decreases |s|
  {
    if |s| > 0 && s[|s| - 1] == '-' {
      var p := s[..|s| - 1];
      StripRightKeepsAlnum(p);
      assert s == p + ['-'];
      KeepAppend(p, ['-'], IsSlugChar);
      assert Keep(['-'], IsSlugChar) == [];
    }
  }

  lemma KeepPrefix(s: string, n: int)
    ensures Keep(SliceTo(s, n), IsSlugChar) <= Keep(s, IsSlugChar)
  {
    var p := SliceTo(s, n);
    assert s == p + s[|p|..];
    KeepAppend(p, s[|p|..], IsSlugChar);
  }

  /** A slug that was not cut is a fixed point: slugifying it again gives
      it back. */
  lemma SlugifyFixpoint(text: string)
    requires |FullSlug(text)| <= 40
    ensures Slugify(Slugify(text)) == Slugify(text)
  {
    var r := Slugify(text);
    SlugShape(text);
    FullSlugOfSlug(r);
    assert StripLeft(r) == r;
    assert StripRight(r) == r;
  }

  /** On slug text, lower-casing and collapsing change nothing: only the
      strip is left. */
  lemma FullSlugOfSlug(r: string)
    requires SlugText(r)
    ensures FullSlug(r) == Strip(r)
  {
    LowerSlugText(r);
    CollapseFixed(r);
  }

  lemma LowerSlugText(r: string)
    requires SlugText(r)
    ensures Lower(r) == r
  {
    forall i | 0 <= i < |r|
      ensures Lower(r)[i] == r[i]
    {
      assert IsSlugChar(r[i]) || r[i] == '-';
    }
  }

  lemma {:induction false} CollapseFixed(r: string)
    requires SlugText(r)
    ensures Collapse(r) == r
    decreases |r|
  {
    if |r| > 0 {
      SliceSlugText(r, 1, |r|);
      CollapseFixed(r[1..]);
      if !IsSlugChar(r[0]) {
        assert DropRun(r) == r[1..];
      }
      assert r == [r[0]] + r[1..];
    }
  }

  /** The cut breaks that: when the 40th character of the full slug is a
      dash, the slug ends with it, and slugifying again drops it. */
  lemma SlugifyNotIdempotentAtCut(text: string)
    requires |FullSlug(text)| > 40 && FullSlug(text)[39] == '-'
    ensures Slugify(text)[39] == '-'
    ensures Slugify(Slugify(text)) != Slugify(text)
  {
    var r := Slugify(text);
    SlugShape(text);
    assert r == FullSlug(text)[..40];
    assert r[38] != '-';
    FullSlugOfSlug(r);
    assert StripLeft(r) == r;
    StripOneDash(r);
    assert |FullSlug(r)| == 39;
  }

  /** A single trailing dash is all `strip` removes from the right. */
  lemma StripOneDash(r: string)
    requires |r| >= 2 && r[|r| - 1] == '-' && r[|r| - 2] != '-'
    ensures StripRight(r) == r[..|r| - 1]
  {
    var p := r[..|r| - 1];
    assert p[|p| - 1] == r[|r| - 2];
    assert StripRight(p) == p;
  }

  /** The id reads back as its three colon-separated parts, so two sources
      share an id exactly when their slugs and digest prefixes agree. */
  lemma SourceIdParts(name: string, key: string, md5hex: string -> string)
    requires IsHex(md5hex(key))
    ensures Split(SourceId(name, key, md5hex), ':') == ["blog", Slugify(name), SliceTo(md5hex(key), 12)]
  {
    var slug := Slugify(name);
    var d := SliceTo(md5hex(key), 12);
    SlugNoColon(name);
    HexPrefixNoColon(md5hex(key));
    SplitThree("blog", slug, d);
    SourceIdSpelled(slug, d);
  }

  lemma SlugNoColon(name: string)
    ensures ':' !in Slugify(name)
  {
    SlugShape(name);
  }

  lemma HexPrefixNoColon(h: string)
    requires IsHex(h)
    ensures ':' !in SliceTo(h, 12)
  {
    var d := SliceTo(h, 12);
    assert forall i :: 0 <= i < |d| ==> d[i] == h[i];
  }

  lemma SourceIdSpelled(slug: string, d: string)
    ensures "blog:" + slug + ":" + d == "blog" + ":" + slug + ":" + d
  {
  }

  lemma SplitThree(a: string, b: string, c: string)
    requires ':' !in a && ':' !in b && ':' !in c
    ensures Split(a + ":" + b + ":" + c, ':') == [a, b, c]
  {
    var t := b + [':'] + c;
    SplitTwo(b, c);
    SplitAfter(a, ':', t);
    assert [a] + [b, c] == [a, b, c];
    ConcatFive(a, b, c);
  }

  lemma SplitTwo(b: string, c: string)
    requires ':' !in b && ':' !in c
    ensures Split(b + [':'] + c, ':') == [b, c]
  {
    SplitNoSeparator(c, ':');
    SplitAfter(b, ':', c);
  }

  lemma ConcatFive(a: string, b: string, c: string)
    ensures a + ":" + b + ":" + c == a + [':'] + (b + [':'] + c)
  {
  }

  lemma SourceIdInjective(n1: string, k1: string, n2: string, k2: string, md5hex: string -> string)
    requires IsHex(md5hex(k1)) && IsHex(md5hex(k2))
    ensures SourceId(n1, k1, md5hex) == SourceId(n2, k2, md5hex)
        <==> Slugify(n1) == Slugify(n2) && SliceTo(md5hex(k1), 12) == SliceTo(md5hex(k2), 12)
  {
    SourceIdParts(n1, k1, md5hex);
    SourceIdParts(n2, k2, md5hex);
  }
}

=== FILE: sorting.dfy ===
/** A stable insertion sort over a caller-supplied "less or equal" relation,
    standing in for Python's `list.sort`/`sorted`, which are stable. */
module Sorting {
  import Util

  ghost predicate TotalPreorder<T(!new)>(le: (T, T) -> bool)
  {
    && (forall a, b :: le(a, b) || le(b, a))
    && (forall a, b, c :: le(a, b) && le(b, c) ==> le(a, c))
  }

  predicate SortedBy<T>(s: seq<T>, le: (T, T) -> bool)
  {
    forall i, j :: 0 <= i < j < |s| ==> le(s[i], s[j])
  }

  /** The elements of `s` that satisfy `p`, in their original order. */
  function Keep<T>(s: seq<T>, p: T -> bool): (r: seq<T>)
    ensures |r| <= |s|
  {
    if |s| == 0 then []
    else if p(s[0]) then [s[0]] + Keep(s[1..], p)
    else Keep(s[1..], p)
  }

  /** What `Keep` keeps: elements of `s` satisfying `p`, and all of them. */
  lemma {:induction false} KeepMembers<T>(s: seq<T>, p: T -> bool)
    ensures forall i :: 0 <= i < |Keep(s, p)| ==> Keep(s, p)[i] in s && p(Keep(s, p)[i])
    ensures forall i :: 0 <= i < |s| && p(s[i]) ==> s[i] in Keep(s, p)
  {
    if |s| > 0 {
      KeepMembers(s[1..], p);
      var r := Keep(s, p);
      var rest := Keep(s[1..], p);
      forall i | 0 <= i < |r|
        ensures r[i] in s && p(r[i])
      {
        if p(s[0]) && i == 0 {
        } else {
          var j := if p(s[0]) then i - 1 else i;
          assert r[i] == rest[j];
          assert rest[j] in s[1..];
        }
      }
      forall i | 0 <= i < |s| && p(s[i])
        ensures s[i] in r
      {
        if i > 0 {
          assert s[1..][i - 1] == s[i];
          assert s[i] in rest;
        }
      }
    }
  }

  /** `Collect` keeps the results of exactly the elements `p` selects, in
      order, when `p` marks the elements for which `f` gives something. */
  lemma {:induction false} CollectInOrder<T, U>(xs: seq<T>, f: T -> Util.Option<U>, p: T -> bool)
    requires forall i :: 0 <= i < |xs| ==> (p(xs[i]) <==> f(xs[i]).Some?)
    ensures var kept, r := Keep(xs, p), Util.Collect(xs, f);
            |r| == |kept| && forall j :: 0 <= j < |kept| ==> f(kept[j]) == Util.Some(r[j])
  {
    if |xs| > 0 {
      assert forall i :: 0 <= i < |xs| - 1 ==> xs[1..][i] == xs[i + 1];
      CollectInOrder(xs[1..], f, p);
    }
  }

  lemma KeepHead<T>(x: T, u: seq<T>, p: T -> bool)
    ensures Keep([x] + u, p) == (if p(x) then [x] else []) + Keep(u, p)
  {
    assert ([x] + u)[1..] == u;
  }

  lemma {:induction false} KeepAppend<T>(a: seq<T>, b: seq<T>, p: T -> bool)
    ensures Keep(a + b, p) == Keep(a, p) + Keep(b, p)
  {
    if |a| > 0 {
      var ab := a + b;
      assert ab[0] == a[0] && ab[1..] == a[1..] + b;
      KeepAppend(a[1..], b, p);
      var rest := Keep(a[1..], p) + Keep(b, p);
      assert Keep(ab, p) == (if p(a[0]) then [a[0]] + rest else rest);
      assert Keep(a, p) == (if p(a[0]) then [a[0]] + Keep(a[1..], p) else Keep(a[1..], p));
    } else {
      assert a + b == b;
    }
  }

  /** Inserts `x` before the first element it is at most, i.e. after every
      element strictly below it: equal elements keep `x` in front. */
  function Insert<T>(x: T, s: seq<T>, le: (T, T) -> bool): (r: seq<T>)
    ensures multiset(r) == multiset(s) + multiset{x}
    ensures |r| == |s| + 1
  {
    if |s| == 0 || le(x, s[0]) then [x] + s
    else
      assert s == [s[0]] + s[1..];
      [s[0]] + Insert(x, s[1..], le)
  }

  /** Insertion puts `x` at one position and shifts the rest. */
  lemma {:induction false} InsertSplit<T>(x: T, s: seq<T>, le: (T, T) -> bool) returns (p: nat)
    ensures p <= |s| && Insert(x, s, le) == s[..p] + [x] + s[p..]
  {
    if |s| == 0 || le(x, s[0]) {
      p := 0;
    } else {
      var q := InsertSplit(x, s[1..], le);
      p := q + 1;
      assert s[..p] == [s[0]] + s[1..][..q];
      assert s[p..] == s[1..][q..];
    }
  }

  /** Where the elements of a sequence with one element spliced in sit. */
  lemma SpliceIndex<T>(s: seq<T>, x: T, p: nat)
    requires p <= |s|
    ensures var r := s[..p] + [x] + s[p..];
            && |r| == |s| + 1 && r[p] == x
            && (forall i :: 0 <= i < p ==> r[i] == s[i])
            && (forall i :: p < i < |r| ==> r[i] == s[i - 1])
  {
  }

  /** Sorts by inserting each head into the sorted tail; ties keep input order. */
  function Sort<T>(s: seq<T>, le: (T, T) -> bool): (r: seq<T>)
    ensures multiset(r) == multiset(s)
    ensures |r| == |s|
  {
    if |s| == 0 then []
    else
      assert s == [s[0]] + s[1..];
      Insert(s[0], Sort(s[1..], le), le)
  }

  lemma {:induction false} InsertSorted<T(!new)>(x: T, s: seq<T>, le: (T, T) -> bool)
    requires TotalPreorder(le)
    requires SortedBy(s, le)
    ensures SortedBy(Insert(x, s, le), le)
  {
    if |s| > 0 && !le(x, s[0]) {
      InsertSorted(x, s[1..], le);
      var t := Insert(x, s[1..], le);
      assert multiset(t) == multiset(s[1..]) + multiset{x};
      forall k | 0 <= k < |t|
        ensures le(s[0], t[k])
      {
        assert t[k] in multiset(t);
        if t[k] != x {
          assert t[k] in multiset(s[1..]);
          var m :| 0 <= m < |s[1..]| && s[1..][m] == t[k];
          assert s[m + 1] == t[k];
        }
      }
    }
  }

  /** The result is ordered by `le`. */
  lemma {:induction false} SortSorted<T(!new)>(s: seq<T>, le: (T, T) -> bool)
    requires TotalPreorder(le)
    ensures SortedBy(Sort(s, le), le)
  {
    if |s| > 0 {
      SortSorted(s[1..], le);
      InsertSorted(s[0], Sort(s[1..], le), le);
    }
  }

  /** `x` and `y` are tied under `le`. */
  predicate Tied<T>(le: (T, T) -> bool, x: T, y: T)
  {
    le(x, y) && le(y, x)
  }

  function TiedWith<T>(le: (T, T) -> bool, a: T): T -> bool
  {
    x => Tied(le, x, a)
  }

  lemma {:induction false} InsertStable<T(!new)>(x: T, s: seq<T>, le: (T, T) -> bool, a: T)
    requires TotalPreorder(le)
    ensures Keep(Insert(x, s, le), TiedWith(le, a))
         == (if Tied(le, x, a) then [x] else []) + Keep(s, TiedWith(le, a))
  {
    var p := TiedWith(le, a);
    if |s| == 0 || le(x, s[0]) {
      assert Insert(x, s, le) == [x] + s;
    } else {
      InsertStable(x, s[1..], le, a);
      assert Insert(x, s, le) == [s[0]] + Insert(x, s[1..], le);
      if Tied(le, x, a) {
        // s[0] lies strictly below x, hence is not tied with a
        assert !p(s[0]);
      }
    }
  }

  /** Stability: the elements tied with any `a` keep their input order. */
  lemma {:induction false} SortStable<T(!new)>(s: seq<T>, le: (T, T) -> bool, a: T)
    requires TotalPreorder(le)
    ensures Keep(Sort(s, le), TiedWith(le, a)) == Keep(s, TiedWith(le, a))
  {
    if |s| > 0 {
      SortStable(s[1..], le, a);
      InsertStable(s[0], Sort(s[1..], le), le, a);
    }
  }

  /** Keep depends only on the predicate's values on the sequence. */
  lemma {:induction false} KeepExt<T>(s: seq<T>, p: T -> bool, q: T -> bool)
    requires forall i :: 0 <= i < |s| ==> p(s[i]) == q(s[i])
    ensures Keep(s, p) == Keep(s, q)
  {
    if |s| > 0 {
      KeepExt(s[1..], p, q);
    }
  }

  lemma {:induction false} KeepAll<T>(s: seq<T>, p: T -> bool)
    requires forall i :: 0 <= i < |s| ==> p(s[i])
    ensures Keep(s, p) == s
  {
    if |s| > 0 {
      KeepAll(s[1..], p);
    }
  }

  lemma {:induction false} KeepNone<T>(s: seq<T>, p: T -> bool)
    requires forall i :: 0 <= i < |s| ==> !p(s[i])
    ensures Keep(s, p) == []
  {
    if |s| > 0 {
      KeepNone(s[1..], p);
    }
  }

  /** Keeping by a disjoint union keeps the two parts, up to order. */
  lemma {:induction false} KeepUnion<T>(s: seq<T>, p: T -> bool, q: T -> bool, pq: T -> bool)
    requires forall i :: 0 <= i < |s| ==> pq(s[i]) == (p(s[i]) || q(s[i]))
    requires forall i :: 0 <= i < |s| ==> !(p(s[i]) && q(s[i]))
    ensures multiset(Keep(s, pq)) == multiset(Keep(s, p)) + multiset(Keep(s, q))
  {
    if |s| > 0 {
      KeepUnion(s[1..], p, q, pq);
    }
  }

  /** The distinct elements of `s` in order of first occurrence, as a
      Python dict's keys are. */
  function Distinct<T(==,!new)>(s: seq<T>): (r: seq<T>)
    ensures forall i, j :: 0 <= i < j < |r| ==> r[i] != r[j]
    ensures forall x :: x in r <==> x in s
  {
    if |s| == 0 then []
    else
      var r := Distinct(s[..|s| - 1]);
      assert forall x :: x in s <==> x in s[..|s| - 1] || x == s[|s| - 1];
      if s[|s| - 1] in r then r else r + [s[|s| - 1]]
  }

  /** An element occurring at two positions occurs at least twice. */
  lemma RepeatCount<T>(s: seq<T>, i: int, j: int)
    requires 0 <= i < j < |s| && s[i] == s[j]
    ensures multiset(s)[s[i]] >= 2
  {
    assert s == s[..i] + [s[i]] + s[i + 1..j] + [s[j]] + s[j + 1..];
  }

  /** In a sequence without repeats every element occurs at most once. */
  lemma {:induction false} DistinctCount<T>(d: seq<T>, x: T)
    requires forall a, b :: 0 <= a < b < |d| ==> d[a] != d[b]
    ensures multiset(d)[x] <= 1
  {
    if |d| > 0 {
      DistinctCount(d[1..], x);
      assert d == [d[0]] + d[1..];
      if d[0] == x {
        assert x !in d[1..];
      }
    }
  }

  /** Python's string comparison orders all strings. */
  lemma StrLeTotalPreorder()
    ensures TotalPreorder(Util.StrLe)
  {
    forall a, b ensures Util.StrLe(a, b) || Util.StrLe(b, a) {
      Util.StrLessTrichotomy(a, b);
    }
    forall a, b, c | Util.StrLe(a, b) && Util.StrLe(b, c) ensures Util.StrLe(a, c) {
      if a != b && b != c {
        Util.StrLessTransitive(a, b, c);
      }
    }
  }
}

=== FILE: store.dfy ===
/** The dedup and lifecycle stores (src/ai_sub/store_release.py and
    src/ai_sub/store_blog.py). Both SQLite tables have the same contract, so
    one generic table keyed by `source_id` is defined here and instantiated
    with the release columns and with the blog columns. Timestamps are whole
    seconds; `now` is a parameter. */
module Store {
  import opened Util
  import opened Models
  import opened Sorting

  /** A stored row: kind-specific columns plus the columns both tables share. */
  datatype Row<C> = Row(
    cols: C,
    relevant: bool,
    importance: Importance,
    fetchedAt: Instant,
    notifiedAt: Option<Instant>,
    digestedAt: Option<Instant>)

  type Table<C> = map<string, Row<C>>

  /** `is_seen` / `is_blog_seen`. */
  predicate IsSeen<C>(t: Table<C>, id: string)
  {
    id in t
  }

  /** Saving makes the id seen and leaves every other id's status as it was. */
  lemma SaveMakesSeen<C>(t: Table<C>, id: string, cols: C, relevant: bool, importance: Importance,
                         now: Instant, other: string)
    ensures IsSeen(Save(t, id, cols, relevant, importance, now), id)
    ensures other != id ==> (IsSeen(Save(t, id, cols, relevant, importance, now), other) <==> IsSeen(t, other))
  {
  }

  /** `save_release` / `save_blog_article`: INSERT OR REPLACE with every
      column except the two lifecycle stamps, which therefore come back
      null even when the row had them set. */
  function Save<C>(t: Table<C>, id: string, cols: C, relevant: bool, importance: Importance, now: Instant): (t': Table<C>)
    ensures t'.Keys == t.Keys + {id}
    ensures t'[id] == Row(cols, relevant, importance, now, None, None)
    ensures forall k :: k in t && k != id ==> t'[k] == t[k]
  {
    t[id := Row(cols, relevant, importance, now, None, None)]
  }

  /** `mark_notified` / `mark_blog_notified`: an UPDATE of one column of one
      row; an unknown id matches nothing. */
  function MarkNotified<C>(t: Table<C>, id: string, now: Instant): (t': Table<C>)
    ensures t'.Keys == t.Keys
    ensures id in t ==> t'[id] == t[id].(notifiedAt := Some(now))
    ensures forall k :: k in t && k != id ==> t'[k] == t[k]
    ensures id !in t ==> t' == t
  {
    if id in t then t[id := t[id].(notifiedAt := Some(now))] else t
  }

  /** `mark_digested` / `mark_blogs_digested`: every listed id that has a row
      is stamped; an empty list returns before touching the table. */
  function MarkDigested<C>(t: Table<C>, ids: seq<string>, now: Instant): (t': Table<C>)
    ensures t'.Keys == t.Keys
    ensures forall k :: k in t && k in ids ==> t'[k] == t[k].(digestedAt := Some(now))
    ensures forall k :: k in t && k !in ids ==> t'[k] == t[k]
    ensures |ids| == 0 ==> t' == t
  {
    if |ids| == 0 then t
    else map k | k in t :: if k in ids then t[k].(digestedAt := Some(now)) else t[k]
  }

  /** The UTC calendar day of an instant (seconds since the Unix epoch). */
  function Day(t: Instant): int
  {
    t / 86400
  }

  /** `fetched_at >= bound` as SQLite evaluates it: `fetched_at` is stored as
      `isoformat()` text ("2024-06-01T11:59:59+00:00") and the bound is the
      text of `datetime(...)` ("2024-06-01 12:00:00"). The texts agree up to
      the date; on the same date the stored 'T' sorts after the bound's
      space. So the test passes exactly when the row's day is not before the
      bound's day: the whole of the bound's day is inside. */
  predicate NotBefore(fetchedAt: Instant, bound: Instant)
  {
    Day(fetchedAt) >= Day(bound)
  }

  /** The time a digest query's window opens. */
  function WindowStart(now: Instant, sinceHours: int): Instant
  {
    now - sinceHours * 3600
  }

  /** The WHERE clause of `get_undigested`: not yet digested, relevant, and
      fetched inside the window. */
  predicate Undigested<C>(r: Row<C>, windowStart: Instant)
  {
    r.digestedAt.None? && r.relevant && NotBefore(r.fetchedAt, windowStart)
  }

  /** The ORDER BY clause: importance TEXT ascending, then fetched_at
      descending. Rows equal in both may come in any order. */
  predicate RowLe<C>(a: (string, Row<C>), b: (string, Row<C>))
  {
    || StrLess(ImportanceValue(a.1.importance), ImportanceValue(b.1.importance))
    || (a.1.importance == b.1.importance && a.1.fetchedAt >= b.1.fetchedAt)
  }

  lemma RowLeTotalPreorder<C(!new)>()
    ensures TotalPreorder((a: (string, Row<C>), b: (string, Row<C>)) => RowLe(a, b))
  {
    var le := (a: (string, Row<C>), b: (string, Row<C>)) => RowLe(a, b);
    forall a: (string, Row<C>), b: (string, Row<C>)
      ensures le(a, b) || le(b, a)
    {
      StrLessTrichotomy(ImportanceValue(a.1.importance), ImportanceValue(b.1.importance));
    }
    forall a: (string, Row<C>), b: (string, Row<C>), c: (string, Row<C>) | le(a, b) && le(b, c)
      ensures le(a, c)
    {
      var x, y, z := ImportanceValue(a.1.importance), ImportanceValue(b.1.importance), ImportanceValue(c.1.importance);
      if StrLess(x, y) && StrLess(y, z) {
        StrLessTransitive(x, y, z);
      }
    }
  }

  /** `get_undigested` / `get_undigested_blogs`: exactly the rows the WHERE
      clause accepts, each once, in ORDER BY order. SQL leaves the order of
      rows that tie on both keys open; so does this method. */
  method GetUndigested<C(!new)>(t: Table<C>, sinceHours: int, now: Instant) returns (rows: seq<(string, Row<C>)>)
    ensures forall i :: 0 <= i < |rows| ==>
              rows[i].0 in t && t[rows[i].0] == rows[i].1 && Undigested(rows[i].1, WindowStart(now, sinceHours))
    ensures forall k :: k in t && Undigested(t[k], WindowStart(now, sinceHours)) ==>
              exists i :: 0 <= i < |rows| && rows[i].0 == k
    ensures forall i, j :: 0 <= i < j < |rows| ==> rows[i].0 != rows[j].0
    ensures SortedBy(rows, (a: (string, Row<C>), b: (string, Row<C>)) => RowLe(a, b))
  {
    var le := (a: (string, Row<C>), b: (string, Row<C>)) => RowLe(a, b);
    RowLeTotalPreorder<C>();
    var start := WindowStart(now, sinceHours);
    var remaining := t.Keys;
    rows := [];
    while remaining != {}
      invariant remaining <= t.Keys
      invariant forall i :: 0 <= i < |rows| ==>
                  rows[i].0 in t && rows[i].0 !in remaining && t[rows[i].0] == rows[i].1 && Undigested(rows[i].1, start)
      invariant forall k :: k in t && k !in remaining && Undigested(t[k], start) ==>
                  exists i :: 0 <= i < |rows| && rows[i].0 == k
      invariant forall i, j :: 0 <= i < j < |rows| ==> rows[i].0 != rows[j].0
      invariant SortedBy(rows, le)
      decreases remaining
    {
      var k :| k in remaining;
      if Undigested(t[k], start) {
        InsertNewRow((k, t[k]), rows, le);
        InsertSorted((k, t[k]), rows, le);
        rows := Insert((k, t[k]), rows, le);
      }
      remaining := remaining - {k};
    }
  }

  /** Inserting a row whose id is new keeps ids distinct and adds exactly
      that row to the rows present. */
  lemma InsertNewRow<C>(x: (string, Row<C>), rows: seq<(string, Row<C>)>, le: ((string, Row<C>), (string, Row<C>)) -> bool)
    requires forall i, j :: 0 <= i < j < |rows| ==> rows[i].0 != rows[j].0
    requires forall i :: 0 <= i < |rows| ==> rows[i].0 != x.0
    ensures var r := Insert(x, rows, le);
            && (forall i, j :: 0 <= i < j < |r| ==> r[i].0 != r[j].0)
            && (forall i :: 0 <= i < |r| ==> r[i] == x || r[i] in rows)
            && x in r
            && (forall i :: 0 <= i < |rows| ==> rows[i] in r)
  {
    var p := InsertSplit(x, rows, le);
    var r := rows[..p] + [x] + rows[p..];
    SpliceIndex(rows, x, p);
    forall i, j | 0 <= i < j < |r|
      ensures r[i].0 != r[j].0
    {
      var a := if i < p then i else i - 1;
      var b := if j < p then j else j - 1;
      if i != p && j != p {
        assert r[i] == rows[a] && r[j] == rows[b] && a < b;
      }
    }
    forall i | 0 <= i < |r|
      ensures r[i] == x || r[i] in rows
    {
      if i < p { assert r[i] == rows[i]; } else if i > p { assert r[i] == rows[i - 1]; }
    }
    forall i | 0 <= i < |rows|
      ensures rows[i] in r
    {
      if i < p { assert r[i] == rows[i]; } else { assert r[i + 1] == rows[i]; }
    }
  }

  /** The bound `datetime('now', '-N days')` of a purge. */
  function PurgeCutoff(now: Instant, days: int): Instant
  {
    now - days * 86400
  }

  /** `cleanup_old` / `cleanup_old_blogs`: deletes the rows whose
      `fetched_at < cutoff` holds as text, that is the rows of days before
      the cutoff's day, and reports how many went. */
  function CleanupOld<C>(t: Table<C>, days: int, now: Instant): (r: (Table<C>, nat))
    ensures forall k :: k in r.0 <==> k in t && NotBefore(t[k].fetchedAt, PurgeCutoff(now, days))
    ensures forall k :: k in r.0 ==> r.0[k] == t[k]
    ensures r.1 == |t.Keys - r.0.Keys|
    ensures r.1 == |t| - |r.0|
  {
    var cutoff := PurgeCutoff(now, days);
    var kept := map k | k in t && NotBefore(t[k].fetchedAt, cutoff) :: t[k];
    assert kept.Keys <= t.Keys;
    assert |t.Keys - kept.Keys| == |t.Keys| - |kept.Keys| by {
      SetDiffCard(t.Keys, kept.Keys);
    }
    (kept, |t.Keys - kept.Keys|)
  }

  lemma SetDiffCard<T>(a: set<T>, b: set<T>)
    requires b <= a
    ensures |a - b| == |a| - |b|
  {
    assert a == (a - b) + b;
  }

  // -------------------------------------------------------------- properties

  /** A re-save of a row that was already notified and digested clears both
      stamps: callers must check `IsSeen` first. */
  lemma ResaveResetsLifecycle<C>(t: Table<C>, id: string, cols: C, relevant: bool, importance: Importance, now: Instant)
    requires id in t && t[id].notifiedAt.Some? && t[id].digestedAt.Some?
    ensures IsSeen(Save(t, id, cols, relevant, importance, now), id)
    ensures Save(t, id, cols, relevant, importance, now)[id].notifiedAt.None?
    ensures Save(t, id, cols, relevant, importance, now)[id].digestedAt.None?
    ensures |Save(t, id, cols, relevant, importance, now)| == |t|
  {
    assert Save(t, id, cols, relevant, importance, now).Keys == t.Keys;
  }

  /** Marking twice with the same clock is the same as marking once. */
  lemma MarkNotifiedIdempotent<C>(t: Table<C>, id: string, now: Instant)
    ensures MarkNotified(MarkNotified(t, id, now), id, now) == MarkNotified(t, id, now)
  {
  }

  /** After a digest stamp, none of the stamped rows is undigested any more,
      and every other row's status is unchanged. */
  lemma MarkDigestedRemovesFromDigest<C>(t: Table<C>, ids: seq<string>, now: Instant, windowStart: Instant)
    requires |ids| > 0
    ensures forall k :: k in t && k in ids ==> !Undigested(MarkDigested(t, ids, now)[k], windowStart)
    ensures forall k :: k in t && k !in ids ==>
              Undigested(MarkDigested(t, ids, now)[k], windowStart) == Undigested(t[k], windowStart)
  {
  }

  /** The retention boundary is a day boundary: every row from the
      cutoff's day survives, a row from the last second of the day before is
      deleted and counted. */
  lemma CleanupBoundary<C>(t: Table<C>, days: int, now: Instant, sameDay: string, dayBefore: string)
    requires sameDay in t && Day(t[sameDay].fetchedAt) == Day(PurgeCutoff(now, days))
    requires dayBefore in t && t[dayBefore].fetchedAt == Day(PurgeCutoff(now, days)) * 86400 - 1
    ensures sameDay in CleanupOld(t, days, now).0
    ensures dayBefore !in CleanupOld(t, days, now).0
    ensures CleanupOld(t, days, now).1 >= 1
  {
    var r := CleanupOld(t, days, now);
    assert Day(t[dayBefore].fetchedAt) == Day(PurgeCutoff(now, days)) - 1;
    assert dayBefore in t.Keys - r.0.Keys;
  }

  /** So a row fetched one second before the cutoff instant is purged only
      when the cutoff falls exactly at midnight UTC. */
  lemma SecondBeforeCutoff<C>(t: Table<C>, days: int, now: Instant, k: string)
    requires k in t && t[k].fetchedAt == PurgeCutoff(now, days) - 1
    ensures k in CleanupOld(t, days, now).0 <==> PurgeCutoff(now, days) % 86400 != 0
  {
  }

  // ---------------------------------------------------- the two instances

  /** The columns of `seen_releases` besides the shared ones. */
  datatype ReleaseCols = ReleaseCols(
    vendor: string,
    product: string,
    title: string,
    version: Option<string>,
    url: string,
    summary: string,
    publishedDate: Option<Instant>,
    category: string,
    titleZh: string,
    summaryZh: string)

  /** The columns of `seen_blog_articles` besides the shared ones. */
  datatype BlogCols = BlogCols(
    blogName: string,
    category: string,
    title: string,
    url: string,
    summary: string,
    publishedDate: Option<Instant>,
    aiCategory: string,
    titleZh: string,
    summaryZh: string,
    notifyAs: string)

  type ReleaseTable = Table<ReleaseCols>
  type BlogTable = Table<BlogCols>

  /** `save_release`: every field of the filtered release lands in its column. */
  function SaveRelease(t: ReleaseTable, r: FilteredRelease, now: Instant): (t': ReleaseTable)
    ensures t'.Keys == t.Keys + {r.sourceId}
    ensures forall k :: k in t && k != r.sourceId ==> t'[k] == t[k]
    ensures var row := t'[r.sourceId];
            && row.fetchedAt == now && row.notifiedAt.None? && row.digestedAt.None?
            && ReadRelease(r.sourceId, row) == r
  {
    Save(t, r.sourceId,
      ReleaseCols(r.vendor, r.product, r.title, r.version, r.url, r.summary, r.publishedDate,
                  r.category, r.titleZh, r.summaryZh),
      r.relevant, r.importance, now)
  }

  /** A stored release row read back as the record it was saved from. */
  function ReadRelease(id: string, row: Row<ReleaseCols>): FilteredRelease
  {
    FilteredRelease(id, row.cols.vendor, row.cols.product, row.cols.title, row.cols.version, row.cols.url,
                    row.cols.summary, row.cols.publishedDate, row.relevant, row.importance,
                    row.cols.category, row.cols.titleZh, row.cols.summaryZh)
  }

  /** A stored blog row read back as the record it was saved from. */
  function ReadBlogArticle(id: string, row: Row<BlogCols>): FilteredBlogArticle
  {
    FilteredBlogArticle(id, row.cols.blogName, row.cols.category, row.cols.title, row.cols.url,
                        row.cols.summary, row.cols.publishedDate, row.relevant, row.importance,
                        row.cols.aiCategory, row.cols.titleZh, row.cols.summaryZh, row.cols.notifyAs)
  }

  /** `save_blog_article`: as for releases, with `notify_as` stored too. */
  function SaveBlogArticle(t: BlogTable, a: FilteredBlogArticle, now: Instant): (t': BlogTable)
    ensures t'.Keys == t.Keys + {a.sourceId}
    ensures forall k :: k in t && k != a.sourceId ==> t'[k] == t[k]
    ensures var row := t'[a.sourceId];
            && row.fetchedAt == now && row.notifiedAt.None? && row.digestedAt.None?
            && ReadBlogArticle(a.sourceId, row) == a
  {
    Save(t, a.sourceId,
      BlogCols(a.blogName, a.category, a.title, a.url, a.summary, a.publishedDate,
               a.aiCategory, a.titleZh, a.summaryZh, a.notifyAs),
      a.relevant, a.importance, now)
  }
}

=== FILE: telegram.dfy ===
/** Telegram messages (src/ai_sub/notifier/telegram.py): HTML escaping, the
    line-boundary chunker with page markers, the two message layouts, the
    topic source of a blog article and the per-chunk send loop. The Bot API
    is an oracle giving the HTTP status of the n-th post. */
module Telegram {
  import opened Util
  import opened Models

  /** TG_MAX_LENGTH. */
  const MaxLength: nat := 4096

  // ------------------------------------------------------------ html.escape

  /** `html.escape(c, quote=True)` on one character. */
  function EscapeChar(c: char): string
  {
    if c == '&' then "&amp;"
    else if c == '<' then "&lt;"
    else if c == '>' then "&gt;"
    else if c == '"' then "&quot;"
    else if c == '\'' then "&#x27;"
    else [c]
  }

  predicate Markup(c: char)
  {
    c == '<' || c == '>' || c == '"' || c == '\''
  }

  /** `html.escape(s)`: the result holds no tag or quote character. */
  function Escape(s: string): (r: string)
    ensures forall i :: 0 <= i < |r| ==> !Markup(r[i])
    ensures |r| >= |s|
  {
    if |s| == 0 then "" else EscapeChar(s[0]) + Escape(s[1..])
  }

  /** The entity `s` starts with, as the character it stands for and its
      length. */
  function Entity(s: string): (r: Option<(char, nat)>)
    ensures r.Some? ==> 1 <= r.value.1 <= |s|
  {
    if |s| >= 5 && s[..5] == "&amp;" then Some(('&', 5))
    else if |s| >= 4 && s[..4] == "&lt;" then Some(('<', 4))
    else if |s| >= 4 && s[..4] == "&gt;" then Some(('>', 4))
    else if |s| >= 6 && s[..6] == "&quot;" then Some(('"', 6))
    else if |s| >= 6 && s[..6] == "&#x27;" then Some(('\'', 6))
    else None
  }

  /** Reads the five entities `html.escape` writes back as characters; every
      other character stands for itself. */
  function Unescape(s: string): string
  {
    if |s| == 0 then ""
    else match Entity(s)
      case Some((ch, n)) => [ch] + Unescape(s[n..])
      case None => [s[0]] + Unescape(s[1..])
  }

  lemma EntityOfEscape(c: char, t: string)
    ensures EscapeChar(c) != [c] ==> Entity(EscapeChar(c) + t) == Some((c, |EscapeChar(c)|))
    ensures EscapeChar(c) == [c] ==> Entity(EscapeChar(c) + t).None?
  {
    var e := EscapeChar(c);
    var s := e + t;
    assert s[..|e|] == e;
    if c == '&' {
    } else if c == '<' {
      assert s[1] == 'l';
    } else if c == '>' {
      assert s[1] == 'g';
    } else if c == '"' {
      assert s[1] == 'q';
    } else if c == '\'' {
      assert s[1] == '#';
    } else {
      assert s[0] == c && c != '&';
      assert "&amp;"[0] == '&' && "&lt;"[0] == '&' && "&gt;"[0] == '&';
      assert "&quot;"[0] == '&' && "&#x27;"[0] == '&';
    }
  }

  lemma UnescapeStep(c: char, t: string)
    ensures Unescape(EscapeChar(c) + t) == [c] + Unescape(t)
  {
    var e := EscapeChar(c);
    var s := e + t;
    EntityOfEscape(c, t);
    assert s[|e|..] == t;
    if e == [c] {
      assert s[0] == c;
    }
  }

  /** Escaping loses nothing: unescaping gives the original text back. */
  lemma {:induction false} UnescapeEscape(s: string)
    ensures Unescape(Escape(s)) == s
  {
    if |s| > 0 {
      UnescapeEscape(s[1..]);
      UnescapeStep(s[0], Escape(s[1..]));
      assert s == [s[0]] + s[1..];
    }
  }

  /** Text with no special character is left as it is. */
  lemma {:induction false} EscapePlain(s: string)
    requires forall i :: 0 <= i < |s| ==> s[i] != '&' && !Markup(s[i])
    ensures Escape(s) == s
  {
    if |s| > 0 {
      EscapePlain(s[1..]);
      assert s == [s[0]] + s[1..];
    }
  }

  /** Escaping never introduces or removes a line break. */
  lemma {:induction false} EscapeKeepsNewlines(s: string)
    ensures '\n' in Escape(s) <==> '\n' in s
  {
    if |s| > 0 {
      EscapeKeepsNewlines(s[1..]);
      assert s == [s[0]] + s[1..];
      assert Escape(s) == EscapeChar(s[0]) + Escape(s[1..]);
    }
  }

  // ------------------------------------------------------ message splitting

  /** The lines of all groups, in order. */
  function Flatten(groups: seq<seq<string>>): (r: seq<string>)
    ensures |r| >= |groups| || exists j :: 0 <= j < |groups| && |groups[j]| == 0
  {
    if |groups| == 0 then [] else groups[0] + Flatten(groups[1..])
  }

  lemma {:induction false} FlattenAppend(a: seq<seq<string>>, b: seq<seq<string>>)
    ensures Flatten(a + b) == Flatten(a) + Flatten(b)
  {
    if |a| > 0 {
      FlattenAppend(a[1..], b);
      assert (a + b)[1..] == a[1..] + b;
    } else {
      assert a + b == b;
    }
  }

  /** A group of lines may form one chunk: it is a single line, or its
      newline-joined length is within the limit. */
  predicate Fits(group: seq<string>, max: int)
  {
    |group| == 1 || |Join("\n", group)| <= max
  }

  /** Every group is non-empty and fits. */
  predicate AllFit(groups: seq<seq<string>>, max: int)
  {
    forall j :: 0 <= j < |groups| ==> |groups[j]| >= 1 && Fits(groups[j], max)
  }

  /** No group could have taken the first line of the group after it. */
  ghost predicate Greedy(groups: seq<seq<string>>, max: int)
  {
    forall j, k :: 0 <= j < k < |groups| && k == j + 1 && |groups[k]| > 0 ==>
      |Join("\n", groups[j])| + 1 + |groups[k][0]| > max
  }

  lemma AppendGroup(groups: seq<seq<string>>, g: seq<string>, max: int)
    requires AllFit(groups, max) && Greedy(groups, max)
    requires |g| >= 1 && Fits(g, max)
    requires |groups| > 0 ==> |Join("\n", groups[|groups| - 1])| + 1 + |g[0]| > max
    ensures AllFit(groups + [g], max) && Greedy(groups + [g], max)
    ensures Flatten(groups + [g]) == Flatten(groups) + g
  {
    FlattenAppend(groups, [g]);
    assert Flatten([g]) == g + Flatten([]);
  }

  /** The state of the packing loop after `i` lines: closed `groups`, the
      open chunk `current` and its joined length. */
  ghost predicate PackInv(lines: seq<string>, i: int, groups: seq<seq<string>>,
                          current: seq<string>, currentLen: int, max: int)
  {
    && 0 <= i <= |lines|
    && Flatten(groups) + current == lines[..i]
    && AllFit(groups, max) && Greedy(groups, max)
    && (|groups| > 0 && |current| > 0 ==> |Join("\n", groups[|groups| - 1])| + 1 + |current[0]| > max)
    && (i > 0 ==> |current| >= 1)
    && (|groups| > 0 ==> |current| >= 1)
    && (|current| >= 1 ==> currentLen == |Join("\n", current)| && Fits(current, max))
    && (|current| == 0 ==> currentLen == 0)
    && |groups| + (if |current| > 0 then 1 else 0) <= i
  }

  /** Line `i` does not fit: the open chunk is closed and the line opens
      the next one. */
  lemma CloseStep(lines: seq<string>, i: int, groups: seq<seq<string>>,
                  current: seq<string>, currentLen: int, max: int)
    requires PackInv(lines, i, groups, current, currentLen, max) && i < |lines|
    requires |current| > 0 && currentLen + |lines[i]| + 1 > max
    ensures PackInv(lines, i + 1, groups + [current], [lines[i]], |lines[i]|, max)
  {
    AppendGroup(groups, current, max);
    assert Join("\n", [lines[i]]) == lines[i];
    TakeSnoc(lines, i);
  }

  /** Line `i` fits (or the chunk is empty): it joins the open chunk. */
  lemma ExtendStep(lines: seq<string>, i: int, groups: seq<seq<string>>,
                   current: seq<string>, currentLen: int, max: int)
    requires PackInv(lines, i, groups, current, currentLen, max) && i < |lines|
    requires !(|current| > 0 && currentLen + |lines[i]| + 1 > max)
    ensures PackInv(lines, i + 1, groups, current + [lines[i]],
                    currentLen + |lines[i]| + (if |current| > 0 then 1 else 0), max)
  {
    var line := lines[i];
    if |current| > 0 {
      JoinAppend(current, [line], "\n");
      assert (current + [line])[0] == current[0];
    } else {
      assert Join("\n", [line]) == line;
    }
    TakeSnoc(lines, i);
  }

  /** One turn of the packing loop: line `i` closes the open chunk when it
      would push it over `max`, and joins it otherwise. */
  method PackStep(lines: seq<string>, i: int, groups: seq<seq<string>>,
                  current: seq<string>, currentLen: int, max: int)
    returns (groups': seq<seq<string>>, current': seq<string>, currentLen': int)
    requires PackInv(lines, i, groups, current, currentLen, max) && i < |lines|
    ensures PackInv(lines, i + 1, groups', current', currentLen', max)
  {
    var line := lines[i];
    var added := |line| + (if |current| > 0 then 1 else 0);
    if |current| > 0 && currentLen + added > max {
      CloseStep(lines, i, groups, current, currentLen, max);
      groups', current', currentLen' := groups + [current], [line], |line|;
    } else {
      ExtendStep(lines, i, groups, current, currentLen, max);
      groups', current', currentLen' := groups, current + [line], currentLen + added;
    }
  }

  /** The greedy packing loop of `_split_html_message`: each line goes into
      the current chunk unless the chunk is non-empty and the line (plus its
      newline) would push it over `max`. The result is characterised
      completely: the groups cover the lines in order, each fits, and the
      first line of each next group would not have fitted. */
  method PackLines(lines: seq<string>, max: int) returns (groups: seq<seq<string>>)
    ensures Flatten(groups) == lines
    ensures AllFit(groups, max)
    ensures Greedy(groups, max)
    ensures |groups| <= |lines|
  {
    groups := [];
    var current: seq<string> := [];
    var currentLen := 0;
    var i := 0;
    while i < |lines|
      invariant PackInv(lines, i, groups, current, currentLen, max)
    {
      groups, current, currentLen := PackStep(lines, i, groups, current, currentLen, max);
      i := i + 1;
    }
    FinishPack(lines, groups, current, currentLen, max);
    if |current| > 0 {
      groups := groups + [current];
    }
  }

  /** After the last line the open chunk, if any, is closed. */
  lemma FinishPack(lines: seq<string>, groups: seq<seq<string>>,
                   current: seq<string>, currentLen: int, max: int)
    requires PackInv(lines, |lines|, groups, current, currentLen, max)
    ensures var done := if |current| > 0 then groups + [current] else groups;
            && Flatten(done) == lines
            && AllFit(done, max) && Greedy(done, max)
            && |done| <= |lines|
  {
    assert lines[..|lines|] == lines;
    if |current| > 0 {
      AppendGroup(groups, current, max);
    }
  }

  /** `"\n\n(i/total)"`. */
  function PageSuffix(i: nat, total: nat): (s: string)
    ensures |s| == 5 + |NatToString(i)| + |NatToString(total)|
  {
    "\n\n(" + NatToString(i) + "/" + NatToString(total) + ")"
  }

  /** Page markers go on every chunk when there is more than one. */
  function Paginate(bodies: seq<string>): (chunks: seq<string>)
    ensures |chunks| == |bodies|
    ensures |bodies| <= 1 ==> chunks == bodies
    ensures |bodies| > 1 ==> forall i :: 0 <= i < |bodies| ==> chunks[i] == bodies[i] + PageSuffix(i + 1, |bodies|)
  {
    if |bodies| <= 1 then bodies
    else seq(|bodies|, i requires 0 <= i < |bodies| => bodies[i] + PageSuffix(i + 1, |bodies|))
  }

  /** The chunk bodies: the chunks with their page markers cut off. */
  function Unpaginate(chunks: seq<string>): (bodies: seq<string>)
    ensures |bodies| == |chunks|
  {
    if |chunks| <= 1 then chunks
    else seq(|chunks|, i requires 0 <= i < |chunks| =>
           var k := |PageSuffix(i + 1, |chunks|)|;
           if |chunks[i]| >= k then chunks[i][..|chunks[i]| - k] else chunks[i])
  }

  /** Cutting the markers off undoes adding them. */
  lemma UnpaginatePaginate(bodies: seq<string>)
    ensures Unpaginate(Paginate(bodies)) == bodies
  {
    var chunks := Paginate(bodies);
    if |bodies| > 1 {
      forall i | 0 <= i < |bodies|
        ensures Unpaginate(chunks)[i] == bodies[i]
      {
        var k := |PageSuffix(i + 1, |bodies|)|;
        assert chunks[i] == bodies[i] + PageSuffix(i + 1, |bodies|);
        assert chunks[i][..|chunks[i]| - k] == bodies[i];
      }
    }
  }

  /** What `_split_html_message` promises about its chunks: with the page
      markers cut off, the bodies join back to the text with newlines, the
      markers are the expected ones, and a body longer than `max` holds no
      line break. The markers themselves come on top of the bound. */
  predicate ChunksOf(text: string, max: int, chunks: seq<string>)
  {
    && |chunks| >= 1
    && Paginate(Unpaginate(chunks)) == chunks
    && Join("\n", Unpaginate(chunks)) == text
    && forall i :: 0 <= i < |chunks| ==> |Unpaginate(chunks)[i]| <= max || '\n' !in Unpaginate(chunks)[i]
  }

  /** The newline-joined groups join back to the newline-joined lines. */
  lemma {:induction false} JoinGroups(groups: seq<seq<string>>)
    requires forall j :: 0 <= j < |groups| ==> |groups[j]| >= 1
    ensures |groups| >= 1 ==>
      Join("\n", seq(|groups|, j requires 0 <= j < |groups| => Join("\n", groups[j]))) == Join("\n", Flatten(groups))
  {
    if |groups| > 1 {
      JoinGroups(groups[1..]);
      var bodies := seq(|groups|, j requires 0 <= j < |groups| => Join("\n", groups[j]));
      var rest := seq(|groups| - 1, j requires 0 <= j < |groups| - 1 => Join("\n", groups[1..][j]));
      assert bodies[1..] == rest;
      assert bodies == [bodies[0]] + rest;
      JoinCons(bodies[0], rest, "\n");
      var tail := Flatten(groups[1..]);
      assert |tail| >= 1 by {
        assert |groups[1]| >= 1;
        assert tail == groups[1] + Flatten(groups[2..]) by {
          assert groups[1..][1..] == groups[2..];
        }
      }
      JoinAppend(groups[0], tail, "\n");
    } else if |groups| == 1 {
      assert Flatten(groups) == groups[0] + Flatten(groups[1..]);
      assert Flatten(groups[1..]) == [];
      assert Flatten(groups) == groups[0];
    }
  }

  /** A group of separator-free lines has a line break iff it has two lines. */
  lemma {:induction false} JoinNewline(group: seq<string>)
    requires |group| >= 1
    requires forall k :: 0 <= k < |group| ==> '\n' !in group[k]
    ensures '\n' in Join("\n", group) <==> |group| >= 2
  {
    if |group| >= 2 {
      var s := Join("\n", group);
      assert s == group[0] + "\n" + Join("\n", group[1..]);
      assert s[|group[0]|] == '\n';
    }
  }

  /** Every line of a flattened group list comes from one of the groups. */
  lemma {:induction false} FlattenMember(groups: seq<seq<string>>, j: int, k: int)
    requires 0 <= j < |groups| && 0 <= k < |groups[j]|
    ensures groups[j][k] in Flatten(groups)
  {
    if j > 0 {
      FlattenMember(groups[1..], j - 1, k);
    }
  }

  /** Packs the split lines within `budget` and joins each group back. */
  method PackedBodies(text: string, budget: int) returns (bodies: seq<string>)
    ensures |bodies| >= 1
    ensures |bodies| <= |Split(text, '\n')|
    ensures Join("\n", bodies) == text
    ensures forall i :: 0 <= i < |bodies| ==> |bodies[i]| <= budget || '\n' !in bodies[i]
  {
    var lines := Split(text, '\n');
    var groups := PackLines(lines, budget);
    assert |groups| >= 1;
    bodies := seq(|groups|, j requires 0 <= j < |groups| => Join("\n", groups[j]));
    JoinGroups(groups);
    JoinSplit(text, '\n');
    forall i | 0 <= i < |bodies|
      ensures |bodies[i]| <= budget || '\n' !in bodies[i]
    {
      forall k | 0 <= k < |groups[i]|
        ensures '\n' !in groups[i][k]
      {
        FlattenMember(groups, i, k);
      }
      JoinNewline(groups[i]);
    }
  }

  /** `_split_html_message` as written. */
  method SplitHtmlMessage(text: string, max: int) returns (chunks: seq<string>)
    ensures |text| <= max ==> chunks == [text]
    ensures ChunksOf(text, max, chunks)
  {
    if |text| <= max {
      return [text];
    }
    var bodies := PackedBodies(text, max);
    chunks := Paginate(bodies);
    UnpaginatePaginate(bodies);
  }

  /** Room for the widest page marker a text of `lineCount` lines can get. */
  function MarkerReserve(lineCount: nat): nat
  {
    5 + 2 * |NatToString(lineCount)|
  }

  /** `_split_html_message` with room kept for the page marker: bodies are
      packed against `max` minus the widest marker, so a chunk exceeds `max`
      only when its body is a single overlong line. */
  method SplitHtmlMessageFitted(text: string, max: int) returns (chunks: seq<string>)
    ensures |text| <= max ==> chunks == [text]
    ensures |chunks| >= 1
    ensures Paginate(Unpaginate(chunks)) == chunks
    ensures Join("\n", Unpaginate(chunks)) == text
    ensures forall i :: 0 <= i < |chunks| ==> |chunks[i]| <= max || '\n' !in Unpaginate(chunks)[i]
  {
    if |text| <= max {
      return [text];
    }
    var lineCount := |Split(text, '\n')|;
    var bodies := PackedBodies(text, max - MarkerReserve(lineCount));
    chunks := Paginate(bodies);
    UnpaginatePaginate(bodies);
    if |bodies| > 1 {
      forall i | 0 <= i < |chunks|
        ensures |chunks[i]| <= max || '\n' !in bodies[i]
      {
        NatToStringLengthMonotone(i + 1, lineCount);
        NatToStringLengthMonotone(|bodies|, lineCount);
      }
    } else {
      assert bodies == [text] by {
        assert Join("\n", bodies) == bodies[0];
      }
    }
  }

  // ---------------------------------------------- the page-marker overflow

  function Repeat(c: char, n: nat): (s: string)
    ensures |s| == n && forall i :: 0 <= i < n ==> s[i] == c
  {
    seq(n, _ => c)
  }

  function CountChar(s: string, c: char): nat
  {
    if |s| == 0 then 0 else (if s[0] == c then 1 else 0) + CountChar(s[1..], c)
  }

  lemma {:induction false} CountCharAppend(a: string, b: string, c: char)
    ensures CountChar(a + b, c) == CountChar(a, c) + CountChar(b, c)
  {
    if |a| > 0 {
      CountCharAppend(a[1..], b, c);
      assert (a + b)[1..] == a[1..] + b;
    } else {
      assert a + b == b;
    }
  }

  lemma {:induction false} CountCharZero(s: string, c: char)
    ensures CountChar(s, c) == 0 <==> c !in s
  {
    if |s| > 0 {
      CountCharZero(s[1..], c);
      assert s == [s[0]] + s[1..];
    }
  }

  /** A newline join of two or more parts has at least one line break per
      separator, and one more for any part holding its own. */
  lemma {:induction false} JoinCountsNewlines(parts: seq<string>)
    requires |parts| >= 2
    ensures CountChar(Join("\n", parts), '\n') >= |parts| - 1
    ensures (exists k :: 0 <= k < |parts| && '\n' in parts[k]) ==> CountChar(Join("\n", parts), '\n') >= |parts|
  {
    var rest := Join("\n", parts[1..]);
    assert Join("\n", parts) == parts[0] + "\n" + rest;
    CountCharAppend(parts[0] + "\n", rest, '\n');
    CountCharAppend(parts[0], "\n", '\n');
    CountCharZero(parts[0], '\n');
    assert CountChar("\n", '\n') == 1;
    if |parts| > 2 {
      JoinCountsNewlines(parts[1..]);
      if exists k :: 0 <= k < |parts| && '\n' in parts[k] {
        var k :| 0 <= k < |parts| && '\n' in parts[k];
        if k > 0 {
          assert '\n' in parts[1..][k - 1];
        }
      }
    } else {
      assert parts[1..] == [parts[1]];
      CountCharZero(parts[1], '\n');
    }
  }

  /** As written, a body may use the whole limit and the page marker then
      pushes its chunk past it: for every limit, the text made of `max`
      letters, a line break and one more letter must be cut into those two
      lines, and its first chunk is seven characters too long. */
  lemma MarkerOverflows(max: nat, chunks: seq<string>)
    requires ChunksOf(Repeat('a', max) + "\nb", max, chunks)
    ensures |chunks| == 2
    ensures chunks[0] == Repeat('a', max) + "\n\n(1/2)"
    ensures |chunks[0]| == max + 7
  {
    var a := Repeat('a', max);
    var text := a + "\nb";
    var bodies := Unpaginate(chunks);
    assert text == a + ['\n'] + "b";
    assert '\n' !in a;
    CountCharAppend(a + "\n", "b", '\n');
    CountCharAppend(a, "\n", '\n');
    CountCharZero(a, '\n');
    CountCharZero("b", '\n');
    assert CountChar("\n", '\n') == 1;
    assert CountChar(text, '\n') == 1;
    JoinCountsNewlines(bodies);
    assert |bodies| == 2;
    forall k | 0 <= k < |bodies|
      ensures '\n' !in bodies[k]
    {
    }
    SplitJoin(bodies, '\n');
    SplitAfter(a, '\n', "b");
    SplitNoSeparator("b", '\n');
    SplitNoSeparator(a, '\n');
    assert bodies == [a, "b"];
    assert chunks == Paginate(bodies);
    assert NatToString(1) == "1" && NatToString(2) == "2";
  }

  // --------------------------------------------------------------- layouts

  /** IMPORTANCE_LABEL of the Telegram notifier (emoji and a bracketed word). */
  function Label(i: Importance): string
  {
    match i
    case High => "\U{1F525} 【重要】"
    case Medium => "\U{2705} 【关注】"
    case Low => "\U{2139}\U{FE0F} 【了解】"
  }

  const ViewOriginal: string := "查看原文"

  /** The italic meta of a release: escaped vendor and product, and the
      escaped version when it is truthy. */
  function ReleaseMeta(r: FilteredRelease): (m: string)
    ensures Escape(r.vendor) + " · " + Escape(r.product) <= m
    ensures |m| > |Escape(r.vendor) + " · " + Escape(r.product)| <==> r.version.Some? && r.version.value != ""
    ensures r.version.Some? && r.version.value != "" ==>
              m[|Escape(r.vendor) + " · " + Escape(r.product)|..] == " · " + Escape(r.version.value)
  {
    Escape(r.vendor) + " · " + Escape(r.product)
      + (if r.version.Some? && r.version.value != "" then " · " + Escape(r.version.value) else "")
  }

  function Link(url: string): string
  {
    "<a href=\"" + Escape(url) + "\">" + ViewOriginal + "</a>"
  }

  /** The link's `href` gives back the url. */
  lemma LinkReadsBack(url: string)
    ensures |Link(url)| >= 19
    ensures Link(url)[..9] == "<a href=\"" && Link(url)[|Link(url)| - 10..] == "\">" + ViewOriginal + "</a>"
    ensures Unescape(Link(url)[9..|Link(url)| - 10]) == url
  {
    var l := Link(url);
    assert |ViewOriginal| == 4;
    assert l[9..|l| - 10] == Escape(url);
    UnescapeEscape(url);
  }

  /** The seven lines of `_format_release`. */
  function ReleaseLines(r: FilteredRelease): (lines: seq<string>)
    ensures |lines| == 7 && lines[0] == Label(r.importance) && lines[3] == "" && lines[5] == ""
    ensures lines[1] == "<b>" + Escape(OrElse(r.titleZh, r.title)) + "</b>"
    ensures lines[4] == Escape(OrElse(r.summaryZh, r.summary))
    ensures lines[2] == "<i>" + ReleaseMeta(r) + "</i>"
    ensures lines[6] == Link(r.url)
  {
    [Label(r.importance),
     "<b>" + Escape(OrElse(r.titleZh, r.title)) + "</b>",
     "<i>" + ReleaseMeta(r) + "</i>",
     "",
     Escape(OrElse(r.summaryZh, r.summary)),
     "",
     Link(r.url)]
  }

  /** `_format_release`. */
  function FormatRelease(r: FilteredRelease): string
  {
    Join("\n", ReleaseLines(r))
  }

  /** `"[category] "` (escaped) when the AI category is non-empty. */
  function CategoryTag(aiCategory: string): (t: string)
    ensures aiCategory == "" ==> t == ""
    ensures aiCategory != "" ==> t == "[" + Escape(aiCategory) + "] "
  {
    if aiCategory != "" then "[" + Escape(aiCategory) + "] " else ""
  }

  /** The seven lines of `_format_blog_article`. */
  function BlogLines(a: FilteredBlogArticle): (lines: seq<string>)
    ensures |lines| == 7 && lines[0] == Label(a.importance) && lines[3] == "" && lines[5] == ""
    ensures lines[1] == "<b>" + CategoryTag(a.aiCategory) + Escape(OrElse(a.titleZh, a.title)) + "</b>"
    ensures lines[2] == "<i>" + Escape(a.blogName) + "</i>"
    ensures lines[4] == Escape(OrElse(a.summaryZh, a.summary))
    ensures lines[6] == Link(a.url)
  {
    [Label(a.importance),
     "<b>" + CategoryTag(a.aiCategory) + Escape(OrElse(a.titleZh, a.title)) + "</b>",
     "<i>" + Escape(a.blogName) + "</i>",
     "",
     Escape(OrElse(a.summaryZh, a.summary)),
     "",
     Link(a.url)]
  }

  /** `_format_blog_article`. */
  function FormatBlogArticle(a: FilteredBlogArticle): string
  {
    Join("\n", BlogLines(a))
  }

  /** The topic source `send_telegram_blog` looks the thread up under. */
  function TopicSource(notifyAs: string): (src: string)
    ensures notifyAs == "blog" || notifyAs == "release" ==> src == notifyAs
    ensures notifyAs != "blog" && notifyAs != "release" ==> src == "blog"
  {
    if notifyAs == "blog" || notifyAs == "release" then notifyAs else "blog"
  }

  /** Displayed text without line breaks. */
  predicate OneLine(s: string)
  {
    '\n' !in s
  }

  /** When no displayed field holds a line break, the message reads back as
      exactly its seven lines, and the title line gives back the title. */
  lemma {:induction false} ReleaseMessageReadsBack(r: FilteredRelease)
    requires OneLine(r.title) && OneLine(r.titleZh) && OneLine(r.summary) && OneLine(r.summaryZh)
    requires OneLine(r.vendor) && OneLine(r.product) && OneLine(r.url)
    requires r.version.Some? ==> OneLine(r.version.value)
    ensures Split(FormatRelease(r), '\n') == ReleaseLines(r)
    ensures var t := ReleaseLines(r)[1];
            Unescape(t[3..|t| - 4]) == OrElse(r.titleZh, r.title)
  {
    var lines := ReleaseLines(r);
    ReleaseLinesOneLine(r);
    SplitJoin(lines, '\n');
    var t := lines[1];
    var e := Escape(OrElse(r.titleZh, r.title));
    assert t == "<b>" + e + "</b>";
    assert t[3..|t| - 4] == e;
    UnescapeEscape(OrElse(r.titleZh, r.title));
  }

  lemma ReleaseLinesOneLine(r: FilteredRelease)
    requires OneLine(r.title) && OneLine(r.titleZh) && OneLine(r.summary) && OneLine(r.summaryZh)
    requires OneLine(r.vendor) && OneLine(r.product) && OneLine(r.url)
    requires r.version.Some? ==> OneLine(r.version.value)
    ensures forall k :: 0 <= k < |ReleaseLines(r)| ==> '\n' !in ReleaseLines(r)[k]
  {
    var lines := ReleaseLines(r);
    assert OneLine(lines[0]) by {
      match r.importance
      case High =>
      case Medium =>
      case Low =>
    }
    assert OneLine(lines[1]) by {
      EscapeKeepsNewlines(OrElse(r.titleZh, r.title));
    }
    assert OneLine(lines[2]) by {
      MetaOneLine(r);
    }
    assert OneLine(lines[4]) by {
      EscapeKeepsNewlines(OrElse(r.summaryZh, r.summary));
    }
    assert OneLine(lines[6]) by {
      EscapeKeepsNewlines(r.url);
      assert lines[6] == Link(r.url);
    }
  }

  lemma BlogLinesOneLine(a: FilteredBlogArticle)
    requires OneLine(a.title) && OneLine(a.titleZh) && OneLine(a.summary) && OneLine(a.summaryZh)
    requires OneLine(a.aiCategory) && OneLine(a.blogName) && OneLine(a.url)
    ensures forall k :: 0 <= k < |BlogLines(a)| ==> '\n' !in BlogLines(a)[k]
  {
    var lines := BlogLines(a);
    assert OneLine(lines[0]) by {
      match a.importance
      case High =>
      case Medium =>
      case Low =>
    }
    assert OneLine(lines[1]) by {
      EscapeKeepsNewlines(a.aiCategory);
      EscapeKeepsNewlines(OrElse(a.titleZh, a.title));
    }
    assert OneLine(lines[2]) by {
      EscapeKeepsNewlines(a.blogName);
    }
    assert OneLine(lines[4]) by {
      EscapeKeepsNewlines(OrElse(a.summaryZh, a.summary));
    }
    assert OneLine(lines[6]) by {
      EscapeKeepsNewlines(a.url);
    }
  }

  /** When no displayed field of an article holds a line break, the message
      reads back as exactly its seven lines; the blog name, the summary and
      the link's url unescape to the article's own. */
  lemma {:induction false} BlogMessageReadsBack(a: FilteredBlogArticle)
    requires OneLine(a.title) && OneLine(a.titleZh) && OneLine(a.summary) && OneLine(a.summaryZh)
    requires OneLine(a.aiCategory) && OneLine(a.blogName) && OneLine(a.url)
    ensures Split(FormatBlogArticle(a), '\n') == BlogLines(a)
    ensures var m := BlogLines(a)[2];
            Unescape(m[3..|m| - 4]) == a.blogName
    ensures Unescape(BlogLines(a)[4]) == OrElse(a.summaryZh, a.summary)
    ensures var l := BlogLines(a)[6];
            |l| >= 19 && Unescape(l[9..|l| - 10]) == a.url
  {
    var lines := BlogLines(a);
    BlogLinesOneLine(a);
    SplitJoin(lines, '\n');
    var m := lines[2];
    assert m[3..|m| - 4] == Escape(a.blogName);
    UnescapeEscape(a.blogName);
    UnescapeEscape(OrElse(a.summaryZh, a.summary));
    LinkReadsBack(a.url);
  }

  lemma MetaOneLine(r: FilteredRelease)
    requires OneLine(r.vendor) && OneLine(r.product)
    requires r.version.Some? ==> OneLine(r.version.value)
    ensures OneLine("<i>" + ReleaseMeta(r) + "</i>")
  {
    EscapeKeepsNewlines(r.vendor);
    EscapeKeepsNewlines(r.product);
    if r.version.Some? {
      EscapeKeepsNewlines(r.version.value);
    }
  }

  // ------------------------------------------------------------- sending

  /** The JSON body of one `sendMessage` call; `parse_mode` and the preview
      flag are constants and not modelled. A thread id is only included
      when there is one. */
  datatype Payload = Payload(chatId: string, text: string, threadId: Option<int>)

  function Texts(ps: seq<Payload>): (r: seq<string>)
    ensures |r| == |ps| && forall i :: 0 <= i < |ps| ==> r[i] == ps[i].text
  {
    seq(|ps|, i requires 0 <= i < |ps| => ps[i].text)
  }

  /** `raise_for_status` lets exactly the 2xx answers through; any other
      status is logged and raised. */
  predicate Success(code: int)
  {
    200 <= code < 300
  }

  /** The posting loop of `send_telegram_raw`: one `sendMessage` per chunk,
      in order, stopping at the first answer that raises; `status(n)` is
      the status of the n-th post. */
  method PostChunks(chunks: seq<string>, chatId: string, threadId: Option<int>, status: nat -> int)
    returns (sent: seq<Payload>, delivered: bool)
    ensures |sent| <= |chunks|
    ensures |chunks| >= 1 ==> |sent| >= 1
    ensures forall k :: 0 <= k < |sent| ==> sent[k] == Payload(chatId, chunks[k], threadId)
    ensures forall k :: 0 <= k < |sent| - 1 ==> Success(status(k))
    ensures delivered ==> Texts(sent) == chunks && forall k :: 0 <= k < |sent| ==> Success(status(k))
    ensures !delivered ==> |sent| >= 1 && !Success(status(|sent| - 1))
  {
    sent := [];
    var i := 0;
    while i < |chunks|
      invariant 0 <= i <= |chunks|
      invariant |sent| == i
      invariant forall k :: 0 <= k < i ==> sent[k] == Payload(chatId, chunks[k], threadId)
      invariant forall k :: 0 <= k < i ==> Success(status(k))
    {
      sent := sent + [Payload(chatId, chunks[i], threadId)];
      if !Success(status(i)) {
        return sent, false;
      }
      i := i + 1;
    }
    assert Texts(sent) == chunks;
    delivered := true;
  }

  /** `send_telegram_raw` as written: the chunks of `_split_html_message`,
      whose bodies keep within the limit and rejoin to the text, posted in
      order until an answer raises. */
  method SendRaw(text: string, chatId: string, threadId: Option<int>, status: nat -> int)
    returns (sent: seq<Payload>, delivered: bool)
    ensures |sent| >= 1
    ensures forall i :: 0 <= i < |sent| ==> sent[i].chatId == chatId && sent[i].threadId == threadId
    ensures forall i :: 0 <= i < |sent| - 1 ==> Success(status(i))
    ensures delivered <==> Success(status(|sent| - 1))
    ensures delivered ==> ChunksOf(text, MaxLength, Texts(sent))
    ensures delivered && |text| <= MaxLength ==> Texts(sent) == [text]
  {
    var chunks := SplitHtmlMessage(text, MaxLength);
    sent, delivered := PostChunks(chunks, chatId, threadId, status);
  }

  /** The sender on the corrected splitter: when every post succeeds, the
      chunks rebuild the text and each fits the limit, page marker
      included, unless its body is a single overlong line. */
  method SendRawFitted(text: string, chatId: string, threadId: Option<int>, status: nat -> int)
    returns (sent: seq<Payload>, delivered: bool)
    ensures |sent| >= 1
    ensures forall i :: 0 <= i < |sent| ==> sent[i].chatId == chatId && sent[i].threadId == threadId
    ensures forall i :: 0 <= i < |sent| - 1 ==> Success(status(i))
    ensures delivered <==> Success(status(|sent| - 1))
    ensures delivered ==> Join("\n", Unpaginate(Texts(sent))) == text
    ensures delivered ==> forall i :: 0 <= i < |sent| ==> |sent[i].text| <= MaxLength || '\n' !in Unpaginate(Texts(sent))[i]
  {
    var chunks := SplitHtmlMessageFitted(text, MaxLength);
    sent, delivered := PostChunks(chunks, chatId, threadId, status);
  }
}

=== FILE: topics.dfy ===
/** Telegram forum topics (src/ai_sub/notifier/telegram_topics.py): the
    fixed topic table, `ensure_topics` as a merge of the saved key-to-thread
    map with topics created for the missing keys, and `get_thread_id` with
    its lazily reloaded cache. The topics file and the `createForumTopic`
    call are inputs: the file's state is a value, and creation is an
    oracle giving the new thread id or None when the call raises. */
module Topics {
  import opened Util

  /** TOPIC_DEFS as (key, display name, icon colour), in declaration order. */
  const TopicDefs: seq<(string, string, int)> := [
    ("release_high", "AI新闻 - 重要", 0xFB6F5F),
    ("release_medium", "AI新闻 - 关注", 0x6FB9F0),
    ("release_low", "AI新闻 - 了解", 0x8EEE98),
    ("release_digest", "AI新闻 - 每日摘要", 0xFFD67E),
    ("blog_high", "AI博客 - 重要", 0xFB6F5F),
    ("blog_medium", "AI博客 - 关注", 0x6FB9F0),
    ("blog_digest", "AI博客 - 每日摘要", 0xCB86DB)]

  function TopicKeys(): (keys: seq<string>)
    ensures |keys| == |TopicDefs|
    ensures forall i :: 0 <= i < |keys| ==> keys[i] == TopicDefs[i].0
  {
    seq(|TopicDefs|, i requires 0 <= i < |TopicDefs| => TopicDefs[i].0)
  }

  /** The topics file: absent, holding a key-to-thread map, or unreadable
      (`json.loads` raises). */
  datatype TopicsFile = Absent | Saved(threads: map<string, int>) | Corrupt

  /** `_load_topics`. */
  function Load(file: TopicsFile): (r: Result<map<string, int>>)
    ensures r.Err? <==> file.Corrupt?
    ensures file.Absent? ==> r == Ok(map[])
    ensures file.Saved? ==> r == Ok(file.threads)
  {
    match file
    case Absent => Ok(map[])
    case Saved(m) => Ok(m)
    case Corrupt => Err("JSONDecodeError")
  }

  /** `source + "_" + importance`. */
  function TopicKey(source: string, importance: string): (key: string)
    ensures |key| == |source| + 1 + |importance|
    ensures key[..|source|] == source && key[|source|] == '_' && key[|source| + 1..] == importance
  {
    source + "_" + importance
  }

  /** The TOPIC_DEFS keys absent from `saved`, in table order. */
  function Missing(saved: map<string, int>, keys: seq<string>): (r: seq<string>)
    ensures forall k :: k in r <==> k in keys && k !in saved
    ensures |r| <= |keys|
  {
    if |keys| == 0 then []
    else if keys[0] !in saved then [keys[0]] + Missing(saved, keys[1..])
    else Missing(saved, keys[1..])
  }

  /** The creation loop: each missing key gets the id `create` returns;
      the first failure raises out of the loop. */
  function CreateAll(saved: map<string, int>, keys: seq<string>, create: string -> Option<int>): (r: Option<map<string, int>>)
    ensures r.Some? <==> forall i :: 0 <= i < |keys| ==> create(keys[i]).Some?
    ensures r.Some? ==> r.value.Keys == saved.Keys + set k | k in keys
    ensures r.Some? ==> forall k :: k in saved && k !in keys ==> r.value[k] == saved[k]
    ensures r.Some? ==> forall i :: 0 <= i < |keys| ==> r.value[keys[i]] == create(keys[i]).value
    decreases |keys|
  {
    if |keys| == 0 then Some(saved)
    else match create(keys[0])
      case None => None
      case Some(id) =>
        var rest := CreateAll(saved[keys[0] := id], keys[1..], create);
        if rest.None? then None
        else
          assert forall i :: 1 <= i < |keys| ==> keys[i] in keys[1..];
          Some(rest.value)
  }

  /** The state `ensure_topics` leaves: the in-memory cache and, when it
      wrote the file, the map it wrote. */
  datatype Ensured = Ensured(cache: map<string, int>, written: Option<map<string, int>>)

  /** `ensure_topics`. A missing chat id or token leaves everything as it
      was; a corrupt file or a failed creation raises, with nothing saved
      and the cache unchanged. */
  function EnsureTopics(chatId: string, token: string, file: TopicsFile,
                        cache: map<string, int>, create: string -> Option<int>): (r: Result<Ensured>)
    ensures chatId == "" || token == "" ==> r == Ok(Ensured(cache, None))
    ensures chatId != "" && token != "" && file.Corrupt? ==> r.Err?
  {
    if chatId == "" || token == "" then Ok(Ensured(cache, None))
    else match Load(file)
      case Err(e) => Err(e)
      case Ok(saved) =>
        var missing := Missing(saved, TopicKeys());
        if |missing| == 0 then Ok(Ensured(saved, None))
        else match CreateAll(saved, missing, create)
          case None => Err("HTTPStatusError")
          case Some(merged) => Ok(Ensured(merged, Some(merged)))
  }

  /** `get_thread_id`: the thread of `source_importance` and the cache
      afterwards. Only a completely empty cache is refilled from the file,
      which raises when the file is corrupt. */
  function GetThreadId(cache: map<string, int>, file: TopicsFile, source: string, importance: string)
    : (r: Result<(Option<int>, map<string, int>)>)
    ensures cache != map[] ==> r.Ok? && r.value.1 == cache
    ensures TopicKey(source, importance) in cache ==> r == Ok((Some(cache[TopicKey(source, importance)]), cache))
    ensures r.Err? <==> cache == map[] && file.Corrupt?
    ensures r.Ok? ==> (r.value.0.Some? <==> TopicKey(source, importance) in r.value.1)
    ensures r.Ok? && r.value.0.Some? ==> r.value.0.value == r.value.1[TopicKey(source, importance)]
  {
    var key := TopicKey(source, importance);
    if key in cache then Ok((Some(cache[key]), cache))
    else if cache != map[] then Ok((None, cache))
    else match Load(file)
      case Err(e) => Err(e)
      case Ok(loaded) =>
        Ok((if key in loaded then Some(loaded[key]) else None, loaded))
  }

  // ----------------------------------------------------------- properties

  /** The table has seven distinct keys, and blogs have no low topic. */
  lemma TopicTable()
    ensures |TopicKeys()| == 7
    ensures forall i, j :: 0 <= i < j < |TopicKeys()| ==> TopicKeys()[i] != TopicKeys()[j]
    ensures "blog_low" !in TopicKeys()
    ensures TopicKey("release", "digest") in TopicKeys() && TopicKey("blog", "digest") in TopicKeys()
  {
    var keys := TopicKeys();
    assert keys == ["release_high", "release_medium", "release_low", "release_digest",
                    "blog_high", "blog_medium", "blog_digest"];
    assert TopicKey("release", "digest") == keys[3];
    assert TopicKey("blog", "digest") == keys[6];
    forall i, j | 0 <= i < j < |keys| ensures keys[i] != keys[j] {
      assert keys[i][|keys[i]| - 2] != keys[j][|keys[j]| - 2] || keys[i][0] != keys[j][0];
    }
  }

  /** A successful `ensure_topics` with a configured bot, on a saved file or
      on the first run without one, leaves every topic key in the cache,
      keeps each saved entry, creates exactly the missing keys, and writes
      the file only when something was created. */
  lemma EnsureTopicsMerges(chatId: string, token: string, file: TopicsFile,
                           cache: map<string, int>, create: string -> Option<int>)
    requires chatId != "" && token != "" && !file.Corrupt?
    requires EnsureTopics(chatId, token, file, cache, create).Ok?
    ensures var e := EnsureTopics(chatId, token, file, cache, create).value;
            var saved := Load(file).value;
            && (forall i :: 0 <= i < |TopicKeys()| ==> TopicKeys()[i] in e.cache)
            && (forall k :: k in saved ==> k in e.cache && e.cache[k] == saved[k])
            && (forall k :: k in e.cache && k !in saved ==> k in TopicKeys() && e.cache[k] == create(k).value)
            && (e.written.None? <==> forall i :: 0 <= i < |TopicKeys()| ==> TopicKeys()[i] in saved)
            && (e.written.None? ==> e.cache == saved)
            && (e.written.Some? ==> e.written.value == e.cache)
  {
    var saved := Load(file).value;
    LoadedAsSaved(chatId, token, file, cache, create);
    SavedMerges(chatId, token, saved, cache, create);
  }

  /** A missing file behaves as a saved empty map. */
  lemma LoadedAsSaved(chatId: string, token: string, file: TopicsFile,
                      cache: map<string, int>, create: string -> Option<int>)
    requires !file.Corrupt?
    ensures EnsureTopics(chatId, token, file, cache, create)
         == EnsureTopics(chatId, token, Saved(Load(file).value), cache, create)
  {
  }

  lemma SavedMerges(chatId: string, token: string, saved: map<string, int>,
                    cache: map<string, int>, create: string -> Option<int>)
    requires chatId != "" && token != ""
    requires EnsureTopics(chatId, token, Saved(saved), cache, create).Ok?
    ensures var e := EnsureTopics(chatId, token, Saved(saved), cache, create).value;
            && (forall i :: 0 <= i < |TopicKeys()| ==> TopicKeys()[i] in e.cache)
            && (forall k :: k in saved ==> k in e.cache && e.cache[k] == saved[k])
            && (forall k :: k in e.cache && k !in saved ==> k in TopicKeys() && e.cache[k] == create(k).value)
            && (e.written.None? <==> forall i :: 0 <= i < |TopicKeys()| ==> TopicKeys()[i] in saved)
            && (e.written.None? ==> e.cache == saved)
            && (e.written.Some? ==> e.written.value == e.cache)
  {
    var missing := Missing(saved, TopicKeys());
    if |missing| > 0 {
      var k :| k in missing;
      assert k in TopicKeys() && k !in saved;
      var i :| 0 <= i < |TopicKeys()| && TopicKeys()[i] == k;
      var e := EnsureTopics(chatId, token, Saved(saved), cache, create).value;
      forall k' | k' in e.cache && k' !in saved ensures k' in TopicKeys() && e.cache[k'] == create(k').value {
        assert k' in missing;
        var j :| 0 <= j < |missing| && missing[j] == k';
      }
    }
  }

  /** After a successful `ensure_topics`, every topic lookup is answered
      from the cache, whatever state the file is in. */
  lemma EnsuredLookupsHit(chatId: string, token: string, file: TopicsFile, later: TopicsFile,
                          cache: map<string, int>, create: string -> Option<int>, i: nat)
    requires chatId != "" && token != "" && !file.Corrupt?
    requires EnsureTopics(chatId, token, file, cache, create).Ok?
    requires i < |TopicDefs|
    ensures var c := EnsureTopics(chatId, token, file, cache, create).value.cache;
            var key := TopicDefs[i].0;
            && key in c
            && (forall s, imp :: TopicKey(s, imp) == key ==>
                  GetThreadId(c, later, s, imp) == Ok((Some(c[key]), c)))
  {
    EnsureTopicsMerges(chatId, token, file, cache, create);
    assert TopicKeys()[i] == TopicDefs[i].0;
  }

  /** The reload happens only on an empty cache: a non-empty cache that
      lacks the key answers None and stays as it is, even when the file
      has the key. */
  lemma ReloadOnlyWhenEmpty(cache: map<string, int>, m: map<string, int>, source: string, importance: string)
    requires TopicKey(source, importance) in m
    ensures cache != map[] && TopicKey(source, importance) !in cache ==>
              GetThreadId(cache, Saved(m), source, importance) == Ok((None, cache))
    ensures GetThreadId(map[], Saved(m), source, importance)
              == Ok((Some(m[TopicKey(source, importance)]), m))
  {
  }
}

=== FILE: url.dfy ===
/** URL normalisation for deduplication (src/ai_sub/url.py). Parsing and
    unparsing are the library's: `parse` stands for `urlparse` (None where it
    raises) with `parse_qs(keep_blank_values=True)` already applied to the
    query, and `unparse` for `urlencode` plus `urlunparse`. What the module
    itself decides is modelled exactly: which parameters go, in which order
    the rest come back, and that the fragment is dropped. */
module Url {
  import opened Util
  import opened Sorting

  type Param = (string, string)

  /** A parsed URL; the query is its list of decoded key/value pairs. */
  datatype Parsed = Parsed(scheme: string, netloc: string, path: string, params: string,
                           query: seq<Param>, fragment: string)

  /** _NOISE_PARAMS: cache busters and click/e-mail trackers. */
  const NoiseParams: set<string> := {
    "_", "__", "cb", "t", "ts", "timestamp", "nocache", "rand", "random",
    "utm_source", "utm_medium", "utm_campaign", "utm_term", "utm_content", "utm_id",
    "fbclid", "gclid", "gclsrc", "dclid", "msclkid", "twclid",
    "mc_cid", "mc_eid", "_hsenc", "_hsmi",
    "oly_enc_id", "oly_anon_id", "_openstat", "yclid", "spm"}

  predicate IsNoise(key: string)
  {
    Lower(key) in NoiseParams
  }

  function NotNoise(): Param -> bool
  {
    (p: Param) => !IsNoise(p.0)
  }

  function HasKey(k: string): Param -> bool
  {
    (p: Param) => p.0 == k
  }

  function KeySeq(q: seq<Param>): (ks: seq<string>)
    ensures |ks| == |q| && forall i :: 0 <= i < |q| ==> ks[i] == q[i].0
  {
    seq(|q|, i requires 0 <= i < |q| => q[i].0)
  }

  /** `sorted(cleaned.items())`'s keys: the distinct keys, ascending. */
  function Keys(q: seq<Param>): seq<string>
  {
    Sort(Distinct(KeySeq(q)), StrLe)
  }

  /** Each key of `ks` in turn with all its values, as `urlencode(...,
      doseq=True)` emits them. */
  function ByKey(q: seq<Param>, ks: seq<string>): seq<Param>
  {
    if |ks| == 0 then [] else Keep(q, HasKey(ks[0])) + ByKey(q, ks[1..])
  }

  /** The query `normalize_url` puts back: noise parameters removed, the
      rest grouped by key in ascending key order. */
  function CleanQuery(q: seq<Param>): seq<Param>
  {
    var kept := Keep(q, NotNoise());
    ByKey(kept, Keys(kept))
  }

  /** `normalize_url`. */
  function Normalize(url: string, parse: string -> Option<Parsed>, unparse: Parsed -> string): (r: string)
    ensures parse(url).None? ==> r == url
    ensures parse(url).Some? && (parse(url).value.scheme == "" || parse(url).value.netloc == "") ==> r == url
    ensures parse(url).Some? && parse(url).value.scheme != "" && parse(url).value.netloc != "" ==>
              r == unparse(parse(url).value.(query := CleanQuery(parse(url).value.query), fragment := ""))
  {
    match parse(url)
    case None => url
    case Some(p) =>
      if p.scheme == "" || p.netloc == "" then url
      else unparse(p.(query := CleanQuery(p.query), fragment := ""))
  }

  // ----------------------------------------------------------- properties

  /** Parameters are kept exactly when their lower-cased key is not noise,
      each with all its values in their original order. */
  lemma CleanQueryKeeps(q: seq<Param>, k: string)
    ensures IsNoise(k) ==> Keep(CleanQuery(q), HasKey(k)) == []
    ensures !IsNoise(k) ==> Keep(CleanQuery(q), HasKey(k)) == Keep(q, HasKey(k))
  {
    var kept := Keep(q, NotNoise());
    var ks := Keys(kept);
    KeysDistinct(kept);
    ByKeySelect(kept, ks, k);
    if IsNoise(k) {
      KeepNoneOfKey(q, k);
    } else {
      KeepCommute(q, k);
      if k !in ks {
        KeysCover(kept, k);
        assert Keep(kept, HasKey(k)) == [] by {
          KeepNone(kept, HasKey(k));
        }
      }
    }
  }

  /** The result lists its parameters in ascending key order. */
  lemma CleanQuerySorted(q: seq<Param>)
    ensures forall i, j :: 0 <= i < j < |CleanQuery(q)| ==> StrLe(CleanQuery(q)[i].0, CleanQuery(q)[j].0)
  {
    var kept := Keep(q, NotNoise());
    var ks := Keys(kept);
    StrLeTotalPreorder();
    SortSorted(Distinct(KeySeq(kept)), StrLe);
    ByKeySorted(kept, ks);
  }

  /** Two queries that agree on every key's value list (whatever the
      interleaving of different keys, and whatever noise they carry)
      normalise to the same query. */
  lemma SameValuesSameQuery(a: seq<Param>, b: seq<Param>)
    requires forall k :: !IsNoise(k) ==> Keep(a, HasKey(k)) == Keep(b, HasKey(k))
    ensures CleanQuery(a) == CleanQuery(b)
  {
    var ka, kb := Keep(a, NotNoise()), Keep(b, NotNoise());
    forall k ensures Keep(ka, HasKey(k)) == Keep(kb, HasKey(k)) {
      if IsNoise(k) {
        KeepNoneOfKey(a, k);
        KeepNoneOfKey(b, k);
      } else {
        KeepCommute(a, k);
        KeepCommute(b, k);
      }
    }
    PerKeyDetermines(ka, kb);
  }

  /** URLs that differ only in noise parameters and fragment normalise to
      the same string. */
  lemma NoiseAndFragmentIgnored(u1: string, u2: string, parse: string -> Option<Parsed>, unparse: Parsed -> string)
    requires parse(u1).Some? && parse(u2).Some?
    requires var p1, p2 := parse(u1).value, parse(u2).value;
             && p1.scheme == p2.scheme && p1.netloc == p2.netloc && p1.path == p2.path && p1.params == p2.params
             && p1.scheme != "" && p1.netloc != ""
             && Keep(p1.query, NotNoise()) == Keep(p2.query, NotNoise())
    ensures Normalize(u1, parse, unparse) == Normalize(u2, parse, unparse)
  {
    var p1, p2 := parse(u1).value, parse(u2).value;
    forall k | !IsNoise(k) ensures Keep(p1.query, HasKey(k)) == Keep(p2.query, HasKey(k)) {
      KeepCommute(p1.query, k);
      KeepCommute(p2.query, k);
    }
    SameValuesSameQuery(p1.query, p2.query);
  }

  /** Cleaning a clean query changes nothing; so normalising a normalised
      URL changes nothing, provided the library parses back what it
      unparsed. */
  lemma CleanQueryIdempotent(q: seq<Param>)
    ensures CleanQuery(CleanQuery(q)) == CleanQuery(q)
  {
    var c := CleanQuery(q);
    var kept := Keep(q, NotNoise());
    forall k | !IsNoise(k) ensures Keep(c, HasKey(k)) == Keep(kept, HasKey(k)) {
      CleanQueryKeeps(q, k);
      KeepCommute(q, k);
    }
    forall k | IsNoise(k) ensures Keep(c, HasKey(k)) == Keep(kept, HasKey(k)) {
      CleanQueryKeeps(q, k);
      KeepNoneOfKey(q, k);
    }
    forall i | 0 <= i < |c| ensures NotNoise()(c[i]) {
      var k := c[i].0;
      CleanQueryKeeps(q, k);
      KeepMembers(c, HasKey(k));
    }
    KeepAll(c, NotNoise());
    PerKeyDetermines(c, kept);
    assert CleanQuery(c) == ByKey(c, Keys(c));
    assert CleanQuery(kept) == CleanQuery(q) by {
      KeepIdem(q, NotNoise());
    }
  }

  lemma NormalizeIdempotent(url: string, parse: string -> Option<Parsed>, unparse: Parsed -> string)
    requires forall p :: parse(unparse(p)) == Some(p)
    ensures Normalize(Normalize(url, parse, unparse), parse, unparse) == Normalize(url, parse, unparse)
  {
    if parse(url).Some? && parse(url).value.scheme != "" && parse(url).value.netloc != "" {
      var p := parse(url).value;
      CleanQueryIdempotent(p.query);
      var n := p.(query := CleanQuery(p.query), fragment := "");
      assert parse(unparse(n)) == Some(n);
    }
  }

  // -------------------------------------------------------------- helpers

  lemma {:induction false} KeepIdem<T>(s: seq<T>, p: T -> bool)
    ensures Keep(Keep(s, p), p) == Keep(s, p)
  {
    if |s| > 0 {
      KeepIdem(s[1..], p);
    }
  }

  /** Selecting a non-noise key before or after removing noise is the same. */
  lemma {:induction false} KeepCommute(q: seq<Param>, k: string)
    requires !IsNoise(k)
    ensures Keep(Keep(q, NotNoise()), HasKey(k)) == Keep(q, HasKey(k))
  {
    if |q| > 0 {
      KeepCommute(q[1..], k);
    }
  }

  lemma {:induction false} KeepNoneOfKey(q: seq<Param>, k: string)
    requires IsNoise(k)
    ensures Keep(Keep(q, NotNoise()), HasKey(k)) == []
  {
    if |q| > 0 {
      KeepNoneOfKey(q[1..], k);
    }
  }

  lemma KeysDistinct(q: seq<Param>)
    ensures forall i, j :: 0 <= i < j < |Keys(q)| ==> Keys(q)[i] != Keys(q)[j]
    ensures forall k :: k in Keys(q) <==> exists i :: 0 <= i < |q| && q[i].0 == k
  {
    var d := Distinct(KeySeq(q));
    var ks := Keys(q);
    assert multiset(ks) == multiset(d);
    forall k ensures k in ks <==> k in d {
      assert k in ks <==> k in multiset(ks);
      assert k in d <==> k in multiset(d);
    }
    forall i, j | 0 <= i < j < |ks| ensures ks[i] != ks[j] {
      if ks[i] == ks[j] {
        RepeatCount(ks, i, j);
        DistinctCount(d, ks[i]);
      }
    }
    forall k | k in KeySeq(q) ensures exists i :: 0 <= i < |q| && q[i].0 == k {
      var i :| 0 <= i < |KeySeq(q)| && KeySeq(q)[i] == k;
    }
    forall i | 0 <= i < |q| ensures q[i].0 in KeySeq(q) {
      assert KeySeq(q)[i] == q[i].0;
    }
  }

  lemma KeysCover(q: seq<Param>, k: string)
    requires k !in Keys(q)
    ensures forall i :: 0 <= i < |q| ==> !HasKey(k)(q[i])
  {
    KeysDistinct(q);
  }

  /** Selecting one key from the blocks gives that key's block, or nothing
      when the key is not among them. */
  lemma {:induction false} ByKeySelect(q: seq<Param>, ks: seq<string>, k: string)
    requires forall i, j :: 0 <= i < j < |ks| ==> ks[i] != ks[j]
    ensures k in ks ==> Keep(ByKey(q, ks), HasKey(k)) == Keep(q, HasKey(k))
    ensures k !in ks ==> Keep(ByKey(q, ks), HasKey(k)) == []
  {
    if |ks| > 0 {
      ByKeySelect(q, ks[1..], k);
      KeepAppend(Keep(q, HasKey(ks[0])), ByKey(q, ks[1..]), HasKey(k));
      if ks[0] == k {
        KeepIdem(q, HasKey(k));
        assert k !in ks[1..];
      } else {
        KeepOtherKey(q, ks[0], k);
      }
    }
  }

  lemma {:induction false} KeepOtherKey(q: seq<Param>, j: string, k: string)
    requires j != k
    ensures Keep(Keep(q, HasKey(j)), HasKey(k)) == []
  {
    if |q| > 0 {
      KeepOtherKey(q[1..], j, k);
    }
  }

  /** Every pair of the blocks has one of the listed keys. */
  lemma {:induction false} ByKeyKeys(q: seq<Param>, ks: seq<string>)
    ensures forall i :: 0 <= i < |ByKey(q, ks)| ==> ByKey(q, ks)[i].0 in ks
  {
    if |ks| > 0 {
      ByKeyKeys(q, ks[1..]);
      var b := Keep(q, HasKey(ks[0]));
      KeepMembers(q, HasKey(ks[0]));
      var rest := ByKey(q, ks[1..]);
      var c: seq<Param> := b + rest;
      forall i | 0 <= i < |c| ensures c[i].0 in ks {
        if i < |b| {
          assert HasKey(ks[0])(b[i]);
        } else {
          assert c[i] == rest[i - |b|];
        }
      }
    }
  }

  lemma {:induction false} ByKeySorted(q: seq<Param>, ks: seq<string>)
    requires TotalPreorder(StrLe)
    requires SortedBy(ks, StrLe)
    ensures forall i, j :: 0 <= i < j < |ByKey(q, ks)| ==> StrLe(ByKey(q, ks)[i].0, ByKey(q, ks)[j].0)
  {
    if |ks| > 0 {
      ByKeySorted(q, ks[1..]);
      ByKeyKeys(q, ks[1..]);
      var b := Keep(q, HasKey(ks[0]));
      KeepMembers(q, HasKey(ks[0]));
      var rest := ByKey(q, ks[1..]);
      var c := b + rest;
      assert forall i :: 0 <= i < |b| ==> b[i].0 == ks[0];
      forall i, j | 0 <= i < j < |c| ensures StrLe(c[i].0, c[j].0) {
        if j < |b| {
          assert c[i] == b[i] && c[j] == b[j];
        } else if i < |b| {
          assert c[i] == b[i] && c[j] == rest[j - |b|];
          var m :| 0 <= m < |ks[1..]| && ks[1..][m] == rest[j - |b|].0;
          assert StrLe(ks[0], ks[m + 1]);
        } else {
          assert c[i] == rest[i - |b|] && c[j] == rest[j - |b|];
        }
      }
    }
  }

  /** Two strictly ascending key lists with the same keys are equal. */
  lemma {:induction false} SortedUnique(a: seq<string>, b: seq<string>)
    requires forall i, j :: 0 <= i < j < |a| ==> StrLess(a[i], a[j])
    requires forall i, j :: 0 <= i < j < |b| ==> StrLess(b[i], b[j])
    requires forall k :: k in a <==> k in b
    ensures a == b
  {
    HeadIn(a);
    HeadIn(b);
    if |a| > 0 && |b| > 0 {
      if a[0] != b[0] {
        var i :| 0 <= i < |a| && a[i] == b[0];
        var j :| 0 <= j < |b| && b[j] == a[0];
        assert i > 0 && j > 0;
        assert StrLess(a[0], b[0]) && StrLess(b[0], a[0]);
        StrLessAsymmetric(a[0], b[0]);
      }
      forall k ensures k in a[1..] <==> k in b[1..] {
        if k in a[1..] {
          var i :| 1 <= i < |a| && a[i] == k;
          StrLessIrreflexive(a[0]);
          assert k != a[0];
          assert k in b;
          var j :| 0 <= j < |b| && b[j] == k;
        }
        if k in b[1..] {
          var j :| 1 <= j < |b| && b[j] == k;
          StrLessIrreflexive(b[0]);
          assert k != b[0];
          assert k in a;
          var i :| 0 <= i < |a| && a[i] == k;
        }
      }
      SortedUnique(a[1..], b[1..]);
      assert a == [a[0]] + a[1..] && b == [b[0]] + b[1..];
    }
  }

  lemma HeadIn(s: seq<string>)
    ensures |s| > 0 ==> s[0] in s
  {
  }

  lemma KeysAscending(q: seq<Param>)
    ensures forall i, j :: 0 <= i < j < |Keys(q)| ==> StrLess(Keys(q)[i], Keys(q)[j])
  {
    var ks := Keys(q);
    KeysDistinct(q);
    StrLeTotalPreorder();
    SortSorted(Distinct(KeySeq(q)), StrLe);
  }

  /** The value lists per key determine the cleaned order completely. */
  lemma PerKeyDetermines(a: seq<Param>, b: seq<Param>)
    requires forall k :: Keep(a, HasKey(k)) == Keep(b, HasKey(k))
    ensures ByKey(a, Keys(a)) == ByKey(b, Keys(b))
  {
    KeysDistinct(a);
    KeysDistinct(b);
    forall k ensures k in Keys(a) <==> k in Keys(b) {
      KeyPresent(a, k);
      KeyPresent(b, k);
    }
    KeysAscending(a);
    KeysAscending(b);
    SortedUnique(Keys(a), Keys(b));
    ByKeyExt(a, b, Keys(a));
  }

  lemma KeyPresent(q: seq<Param>, k: string)
    ensures (exists i :: 0 <= i < |q| && q[i].0 == k) <==> Keep(q, HasKey(k)) != []
  {
    if exists i :: 0 <= i < |q| && q[i].0 == k {
      var i :| 0 <= i < |q| && q[i].0 == k;
      KeepMembers(q, HasKey(k));
      assert q[i] in Keep(q, HasKey(k));
    } else {
      KeepNone(q, HasKey(k));
    }
  }

  lemma {:induction false} ByKeyExt(a: seq<Param>, b: seq<Param>, ks: seq<string>)
    requires forall k :: Keep(a, HasKey(k)) == Keep(b, HasKey(k))
    ensures ByKey(a, ks) == ByKey(b, ks)
  {
    if |ks| > 0 {
      ByKeyExt(a, b, ks[1..]);
    }
  }
}

=== FILE: util.dfy ===
/** Small helpers shared by every module: optional values, results standing
    in for Python exceptions, Python slicing and truthiness, ASCII case
    mapping, decimal rendering and code-point string ordering. */
module Util {

  datatype Option<+T> = None | Some(value: T)

  /** The outcome of a step that may raise: `Err` stands for the exception. */
  datatype Result<+T> = Ok(value: T) | Err(reason: string)

  /** Python's `s[:n]`: a negative `n` counts from the end. */
  function SliceTo<T>(s: seq<T>, n: int): (r: seq<T>)
    ensures n >= 0 ==> |r| == if n < |s| then n else |s|
    ensures n < 0 ==> |r| == if |s| + n > 0 then |s| + n else 0
    ensures r <= s
  {
    if n >= 0 then (if n < |s| then s[..n] else s)
    else if |s| + n > 0 then s[..|s| + n] else []
  }

  /** Taking one more element of a sequence appends that element. */
  lemma TakeSnoc<T>(s: seq<T>, i: int)
    requires 0 <= i < |s|
    ensures s[..i + 1] == s[..i] + [s[i]]
  {
  }

  /** The values of the `Some` results of `f` over `xs`, in order: a loop
      that appends what each step produced and skips the steps that gave
      nothing. */
  function Collect<T, U>(xs: seq<T>, f: T -> Option<U>): (r: seq<U>)
    ensures |r| <= |xs|
    ensures |r| == |xs| <==> forall i :: 0 <= i < |xs| ==> f(xs[i]).Some?
    ensures forall j :: 0 <= j < |r| ==> exists i :: 0 <= i < |xs| && f(xs[i]) == Some(r[j])
  {
    if |xs| == 0 then []
    else
      var rest := Collect(xs[1..], f);
      assert forall i :: 0 <= i < |xs| - 1 ==> xs[1..][i] == xs[i + 1];
      if f(xs[0]).None? then rest
      else
        assert forall j :: 1 <= j < |rest| + 1 ==> ([f(xs[0]).value] + rest)[j] == rest[j - 1];
        [f(xs[0]).value] + rest
  }

  /** Python's `a or b` on two strings. */
  function OrElse(a: string, b: string): string
  {
    if a != "" then a else b
  }

  /** Python's `sep.join(parts)`. */
  function Join(sep: string, parts: seq<string>): string
  {
    if |parts| == 0 then ""
    else if |parts| == 1 then parts[0]
    else parts[0] + sep + Join(sep, parts[1..])
  }

  /** Python's `s.split(c)` for a one-character separator. */
  function Split(s: string, c: char): (parts: seq<string>)
    ensures |parts| >= 1
    ensures forall i :: 0 <= i < |parts| ==> c !in parts[i]
    decreases |s|
  {
    if |s| == 0 then [""]
    else if s[0] == c then [""] + Split(s[1..], c)
    else
      var rest := Split(s[1..], c);
      [[s[0]] + rest[0]] + rest[1..]
  }

  /** Joining the pieces of a split with the separator gives back the input. */
  lemma {:induction false} JoinSplit(s: string, c: char)
    ensures Join([c], Split(s, c)) == s
    decreases |s|
  {
    if |s| == 0 {
    } else if s[0] == c {
      JoinSplit(s[1..], c);
      var rest := Split(s[1..], c);
      assert Split(s, c) == [""] + rest;
      JoinCons("", rest, [c]);
      assert s == [c] + s[1..];
    } else {
      JoinSplit(s[1..], c);
      var rest := Split(s[1..], c);
      assert Split(s, c) == [[s[0]] + rest[0]] + rest[1..];
      JoinHead([s[0]], rest, [c]);
      assert s == [s[0]] + s[1..];
    }
  }

  lemma JoinCons(p: string, rest: seq<string>, sep: string)
    requires |rest| >= 1
    ensures Join(sep, [p] + rest) == p + sep + Join(sep, rest)
  {
    assert ([p] + rest)[1..] == rest;
  }

  /** Prepending text to the first part prepends it to the joined string. */
  lemma {:induction false} JoinHead(pre: string, parts: seq<string>, sep: string)
    requires |parts| >= 1
    ensures Join(sep, [pre + parts[0]] + parts[1..]) == pre + Join(sep, parts)
  {
    var q := [pre + parts[0]] + parts[1..];
    if |parts| == 1 {
      assert q == [pre + parts[0]];
    } else {
      assert q[1..] == parts[1..];
      assert Join(sep, q) == pre + parts[0] + sep + Join(sep, parts[1..]);
    }
  }

  /** Joining two non-empty lists of parts puts one separator between them. */
  lemma {:induction false} JoinAppend(a: seq<string>, b: seq<string>, sep: string)
    requires |a| >= 1 && |b| >= 1
    ensures Join(sep, a + b) == Join(sep, a) + sep + Join(sep, b)
  {
    if |a| == 1 {
      assert (a + b)[1..] == b;
      assert a + b == [a[0]] + b;
    } else {
      JoinAppend(a[1..], b, sep);
      assert (a + b)[1..] == a[1..] + b;
    }
  }

  /** Splitting after a separator-free prefix and one separator yields the
      prefix and then the split of the rest. */
  lemma {:induction false} SplitAfter(a: string, c: char, t: string)
    requires c !in a
    ensures Split(a + [c] + t, c) == [a] + Split(t, c)
    decreases |a|
  {
    if |a| == 0 {
      assert a + [c] + t == [c] + t;
      assert ([c] + t)[1..] == t;
    } else {
      SplitAfter(a[1..], c, t);
      assert (a + [c] + t)[1..] == a[1..] + [c] + t;
      assert [a[0]] + a[1..] == a;
    }
  }

  /** Splitting a join of separator-free parts gives the parts back. */
  lemma {:induction false} SplitJoin(parts: seq<string>, c: char)
    requires |parts| >= 1
    requires forall i :: 0 <= i < |parts| ==> c !in parts[i]
    ensures Split(Join([c], parts), c) == parts
  {
    if |parts| == 1 {
      SplitNoSeparator(parts[0], c);
    } else {
      SplitJoin(parts[1..], c);
      SplitAfter(parts[0], c, Join([c], parts[1..]));
      assert parts == [parts[0]] + parts[1..];
    }
  }

  /** The length of a join: the parts plus one separator between neighbours. */
  function SumLengths(parts: seq<string>): nat
  {
    if |parts| == 0 then 0 else |parts[0]| + SumLengths(parts[1..])
  }

  lemma {:induction false} JoinLength(sep: string, parts: seq<string>)
    requires |parts| >= 1
    ensures |Join(sep, parts)| == SumLengths(parts) + (|parts| - 1) * |sep|
  {
    if |parts| > 1 {
      JoinLength(sep, parts[1..]);
    }
  }

  // ---------------------------------------------------------------- digits

  function DigitChar(d: nat): char
    requires d < 10
  {
    "0123456789"[d]
  }

  function DigitValue(c: char): int
  {
    if '0' <= c <= '9' then c as int - '0' as int else -1
  }

  /** Python's `str(n)` for a non-negative integer. */
  function NatToString(n: nat): (s: string)
    ensures |s| >= 1
    ensures forall i :: 0 <= i < |s| ==> '0' <= s[i] <= '9'
    ensures |s| > 1 ==> s[0] != '0'
  {
    if n < 10 then [DigitChar(n)] else NatToString(n / 10) + [DigitChar(n % 10)]
  }

  /** Python's `str(i)` for any integer. */
  function IntToString(i: int): string
  {
    if i < 0 then "-" + NatToString(-i) else NatToString(i)
  }

  /** Reads a string of decimal digits back as a number. */
  function DigitsValue(s: string): int
  {
    if |s| == 0 then 0 else DigitsValue(s[..|s| - 1]) * 10 + DigitValue(s[|s| - 1])
  }

  /** Rendering a number in decimal and reading it back gives the number. */
  lemma {:induction false} NatToStringRoundTrip(n: nat)
    ensures DigitsValue(NatToString(n)) == n
  {
    if n < 10 {
      DigitCharValue(n);
      assert NatToString(n)[..0] == "";
    } else {
      NatToStringRoundTrip(n / 10);
      var s := NatToString(n);
      assert s == NatToString(n / 10) + [DigitChar(n % 10)];
      assert s[..|s| - 1] == NatToString(n / 10);
      DigitCharValue(n % 10);
      assert DigitsValue(s) == (n / 10) * 10 + n % 10;
    }
  }

  lemma DigitCharValue(d: nat)
    requires d < 10
    ensures DigitValue(DigitChar(d)) == d
  {
  }

  /** Different numbers render differently. */
  lemma NatToStringInjective(m: nat, n: nat)
    requires NatToString(m) == NatToString(n)
    ensures m == n
  {
    NatToStringRoundTrip(m);
    NatToStringRoundTrip(n);
  }

  /** A larger number never renders shorter. */
  lemma {:induction false} NatToStringLengthMonotone(m: nat, n: nat)
    requires m <= n
    ensures |NatToString(m)| <= |NatToString(n)|
  {
    if m >= 10 {
      NatToStringLengthMonotone(m / 10, n / 10);
    }
  }

  /** A string without the separator splits into itself. */
  lemma {:induction false} SplitNoSeparator(s: string, c: char)
    requires c !in s
    ensures Split(s, c) == [s]
    decreases |s|
  {
    if |s| > 0 {
      SplitNoSeparator(s[1..], c);
      assert s == [s[0]] + s[1..];
    }
  }

  // ------------------------------------------------------------- ASCII case

  function LowerChar(c: char): char
  {
    if 'A' <= c <= 'Z' then (c as int + 32) as char else c
  }

  function UpperChar(c: char): char
  {
    if 'a' <= c <= 'z' then (c as int - 32) as char else c
  }

  /** `str.lower()` restricted to ASCII letters. */
  function Lower(s: string): (r: string)
    ensures |r| == |s|
    ensures forall i :: 0 <= i < |s| ==> r[i] == LowerChar(s[i])
  {
    seq(|s|, i requires 0 <= i < |s| => LowerChar(s[i]))
  }

  /** `str.upper()` restricted to ASCII letters. */
  function Upper(s: string): (r: string)
    ensures |r| == |s|
    ensures forall i :: 0 <= i < |s| ==> r[i] == UpperChar(s[i])
  {
    seq(|s|, i requires 0 <= i < |s| => UpperChar(s[i]))
  }

  // ------------------------------------------------ code-point string order

  /** Python's `a < b` on strings: lexicographic by code point. */
  predicate StrLess(a: string, b: string)
  {
    if |a| == 0 then |b| > 0
    else if |b| == 0 then false
    else if a[0] != b[0] then a[0] < b[0]
    else StrLess(a[1..], b[1..])
  }

  predicate StrLe(a: string, b: string)
  {
    a == b || StrLess(a, b)
  }

  lemma {:induction false} StrLessIrreflexive(a: string)
    ensures !StrLess(a, a)
  {
    if |a| > 0 {
      StrLessIrreflexive(a[1..]);
    }
  }

  lemma {:induction false} StrLessTrichotomy(a: string, b: string)
    ensures a == b || StrLess(a, b) || StrLess(b, a)
  {
    if |a| > 0 && |b| > 0 && a[0] == b[0] {
      StrLessTrichotomy(a[1..], b[1..]);
      if a[1..] == b[1..] {
        assert a == [a[0]] + a[1..] && b == [b[0]] + b[1..];
      }
    }
  }

  lemma {:induction false} StrLessAsymmetric(a: string, b: string)
    requires StrLess(a, b)
    ensures !StrLess(b, a)
  {
    if |a| > 0 && |b| > 0 && a[0] == b[0] {
      StrLessAsymmetric(a[1..], b[1..]);
    }
  }

  lemma {:induction false} StrLessTransitive(a: string, b: string, c: string)
    requires StrLess(a, b) && StrLess(b, c)
    ensures StrLess(a, c)
  {
    if |a| > 0 && |b| > 0 && |c| > 0 && a[0] == b[0] && b[0] == c[0] {
      StrLessTransitive(a[1..], b[1..], c[1..]);
    }
  }
}
